=== FILE: README.md ===
# Đổi đồ cũ: a verified model of the marketplace's business rules

Đổi đồ cũ is a second-hand marketplace: users post items to exchange, give away or sell. Other users save items as favourites, chat with the owners, request transactions or exchanges, and review each other afterwards. An assistant answers questions about the app, and a gateway forwards chat to an upstream language model.

This project models the rules behind those features in Dafny and proves properties of them:

- **The store.** The database is an immutable `Store`: eight sequences (users, items, transactions, favourites, messages, reviews, notifications, exchanges) and an id counter.
- **Route handlers.** Every API handler is a pure function from a store and a request to a `Step`: the new store and the reply, either `Ok(status, body)` or `Err(status, error)`.
- **Store invariants.** `Store.Valid` states what the handlers keep true:
  - ids are fresh;
  - emails are unique;
  - each favourite pair appears once;
  - every reference resolves;
  - ratings lie in 1..5;
  - nobody trades with themselves;
  - every user's reputation is the mean of the ratings they received.
- **Browser-side logic.** Pages and components are modelled by the pure logic they run:
  - the conversation list of the chat page;
  - the filters and sort modes of the catalogue;
  - the image list of the posting form;
  - the picture, labels and heart button of an item card;
  - the reply text the assistant page shows.
- **AI routes.** These are modelled as deterministic functions. The upstream model, the clock and random tokens are parameters.

Modules follow the program's structure:

- **Shared definitions:** `Store` (records and invariants), `Wrappers`, `Json` (JavaScript values with truthiness, `||` and `??`), `Text` (trimming, lower-casing, substrings, splitting) and `Collections` (filter, stable insertion sort, newest-first selection).
- **One module per route or page:** `Auth`, `Items`, `Favorites`, `Transactions`, `Reviews`, `Notifications`, `Messages`, `Exchanges`, `Seed`, `AiChat`, `AiGateway`, `Media`, `GeminiClient`, `ChatPage`, `ItemsPage`, `NewItemPage` and `ItemCard`.

Three behaviours of the handlers are worth knowing:

- **Sale without a price.** An item posted as a sale without a price is accepted and stored with no price (`Items.Create`).
- **Chat history.** The chat gateway forwards the whole usable history, however long (`AiGateway.Conversation`).
- **Failures of the upstream model.** Key and quota problems give status 500, not the fallback guide, and overload errors outside the model call give 429 (`AiGateway.Chat`).

## Model

| member | source | states |
|---|---|---|
| Auth.ProfileOf | app/api/auth/login/route.ts:39-40 | the login reply holds every field of the user except the password, and the user is exactly the profile plus its password |
| Auth.Register | app/api/auth/register/route.ts:5-61 | a missing email, password or name gives 400 and an email already in use gives 400, each leaving the store unchanged; otherwise 201 with a new user appended under the next id, hashed password, empty phone or address stored as null, and no reviews |
| Auth.RegisterStoresHash | app/api/auth/register/route.ts:29-36 | the stored credential verifies the registered password and no other |
| Auth.RegisterPreservesValid | app/api/auth/register/route.ts:17-48 | registering keeps every store invariant, unique emails included |
| Auth.Login | app/api/auth/login/route.ts:5-48 | 400 with the "email and password required" text exactly when email or password is missing; 401 with the bad-credentials text exactly when both are given and no user has that email or the password does not verify; 200 with the password-free profile exactly when the user found by that email verifies the password; no other status |
| Auth.LoginFailuresAlike | app/api/auth/login/route.ts:22-37 | an unknown email and a wrong password get the same 401 reply |
| Auth.RegisterThenLogin | app/api/auth/register/route.ts:29-53 | after registering, logging in with the same email and password succeeds as the new user |
| Items.BuildWhere | app/api/items/route.ts:13-39 | the `where` object starts with the status (default "available"), holds exactly the conditions of the non-empty parameters with their values, at most six, none twice |
| Items.WhereMeaning | app/api/items/route.ts:13-39 | the assembled `where` object holds for an item exactly when the item has the requested (or default "available") status, the exact category, condition and type asked for, a city containing the city text, and a title or description containing the search text, each only when that parameter is non-empty |
| Items.List | app/api/items/route.ts:5-56 | the listing is newest first and holds exactly the stored items the parameters describe, none twice more than stored |
| Items.ListDefaultsToAvailable | app/api/items/route.ts:13 | without a status parameter only available items are listed |
| Items.NonZero | app/api/items/route.ts:105-106 | a coordinate of 0 is stored as null, any other is kept |
| Items.Create | app/api/items/route.ts:66-131 | a missing title, description, category, condition or user gives 400 with the form-error text exactly; a user that does not exist gives 500 exactly; every failure leaves the store unchanged; otherwise 201 with the item appended under the next id, status available, no views, created now, the given fields, the type defaulting to "exchange", a price only for a sale and then the one given, city, address and images kept when given and stored as null when empty, and a coordinate of 0 stored as null |
| Items.NewItem | app/api/items/route.ts:94-121 | the new row is available with no views, created now, under the given id and QR code, owned by the draft's user, with the draft's texts; the type defaults to "exchange"; a price is kept only for a sale; a falsy image value (missing or null) and zero coordinates become null, while any truthy one, an empty list included, is stored; empty optional text becomes null |
| Items.CreatePreservesValid | app/api/items/route.ts:94-121 | creating an item keeps every store invariant |
| Favorites.Find | app/api/favorites/route.ts:58-65 | the lookup by (user, item) finds a stored row with that pair, and finds nothing exactly when no row has it |
| Favorites.List | app/api/favorites/route.ts:4-35 | no user id gives 400; otherwise 200 with exactly the user's favorites, newest first |
| Favorites.Add | app/api/favorites/route.ts:45-92 | a missing user or item id gives 400 "missing data" exactly; a pair already saved gives 400 "already a favorite" exactly; an unsaved pair whose user or item does not exist gives 500 exactly; every failure leaves the store unchanged; otherwise 201 with the row appended under the next id, after which the item is a favorite |
| Favorites.Remove | app/api/favorites/route.ts:94-124 | a missing id gives 400 exactly; a pair that is not saved gives 500 exactly; both leave the store unchanged; otherwise 200, the pair is no longer a favorite and every other row is kept |
| Favorites.AddPreservesValid | app/api/favorites/route.ts:74-82 | saving keeps every store invariant, a pair saved at most once included |
| Favorites.RemovePreservesValid | app/api/favorites/route.ts:107-114 | removing keeps every store invariant |
| Favorites.RemoveKeepsOthers | app/api/favorites/route.ts:107-114 | a successful removal drops exactly the rows of that pair |
| Favorites.AddThenRemove | app/api/favorites/route.ts:74-114 | saving an item and then removing it gives back the favorites as they were |
| Favorites.RemoveThenAdd | app/api/favorites/route.ts:58-82 | after a saved pair is removed it can be saved again |
| Transactions.List | app/api/transactions/route.ts:5-45 | no user id gives 400; otherwise 200 with exactly the transactions where the user is buyer or seller, newest first |
| Transactions.Verb | app/api/transactions/route.ts:112 | the notification says "đổi" for an exchange, "nhận tặng" for a gift and "mua" for any other type |
| Transactions.NotificationText | app/api/transactions/route.ts:112 | the text is the buyer's name, " muốn ", the verb for the type and " đồ của bạn", each read back from its place |
| Transactions.TextTellsKinds | app/api/transactions/route.ts:112 | requests for kinds with different verbs get different texts, whoever the buyer is |
| Transactions.Link | app/api/transactions/route.ts:113 | the link is /transactions/ followed by decimal digits that read back as the transaction's id |
| Transactions.Create | app/api/transactions/route.ts:55-125 | missing fields give 400, an unknown item 404, a buyer who owns the item 400, each with its own text and the store unchanged; a buyer that does not exist gives 500 with the store unchanged; an owner that does not exist gives 500 after the transaction was stored; otherwise 201 with a pending transaction whose seller is the item's owner, followed by a notification to that owner with the buyer's text and the transaction's link |
| Transactions.CreatePreservesValid | app/api/transactions/route.ts:87-115 | requesting a transaction keeps every store invariant, buyer never the seller included |
| Transactions.CreatedIsListed | app/api/transactions/route.ts:17-23 | a created transaction is listed for both its buyer and its seller |
| Reviews.List | app/api/reviews/route.ts:4-35 | no user id gives 400 with the missing-user text; otherwise 200 with exactly the reviews the user received, each as many times as stored, newest first, and their mean rating (0 when there are none) |
| Reviews.SumPermutation | app/api/reviews/route.ts:31-33 | the summed rating does not depend on the order of the reviews, so the mean over the sorted listing is the mean over the stored ones |
| Reviews.FilterRatings | app/api/reviews/route.ts:84-87 | the ratings of the reviews selected by reviewee are the reviewee's ratings in the store |
| Reviews.UpdateReputation | app/api/reviews/route.ts:89-95 | only the reviewee's row changes, and it gets the new reputation and count |
| Reviews.Create | app/api/reviews/route.ts:45-105 | a missing or zero rating or a missing reviewer or reviewee gives 400, a rating outside 1 to 5 gives 400 with its own text, a user that does not exist gives 500, each exactly and with the store unchanged; otherwise 201, the review is appended, and the reviewee's reputation becomes the mean of all of their ratings with their count, every other user untouched |
| Reviews.CreatePreservesValid | app/api/reviews/route.ts:64-95 | creating a review keeps every store invariant: ratings within 1 to 5 and every user's reputation the mean of the ratings they received |
| Reviews.AppendedReputation | app/api/reviews/route.ts:84-95 | after the append and the update every user's stored count and reputation match the reviews they received |
| Notifications.Matching | app/api/notifications/route.ts:17-24 | exactly the user's notifications, only the unread ones when asked, each as many times as stored, newest first |
| Notifications.List | app/api/notifications/route.ts:4-32 | no user id gives 400; otherwise 200 with the first fifty of the matching notifications (all of them when there are no more than fifty) and the user's unread count, which ignores the filter |
| Notifications.SetRead | app/api/notifications/route.ts:54-57 | every notification with that id is marked read and no other changes |
| Notifications.FindNotification | app/api/notifications/route.ts:54-55 | finds a notification with that id, and finds nothing exactly when none has it |
| Notifications.MarkRead | app/api/notifications/route.ts:42-67 | a missing notification or user id gives 400 exactly; an id that does not exist gives 500 exactly; both leave the store unchanged; otherwise 200 with that notification marked read and every other one unchanged |
| Notifications.MarkReadIdempotent | app/api/notifications/route.ts:54-57 | marking a notification read twice is the same as marking it once |
| Notifications.MarkReadIgnoresOwner | app/api/notifications/route.ts:45-57 | the user id is required but never compared with the owner: the outcome is the same whoever asks |
| Notifications.MarkReadLowersUnread | app/api/notifications/route.ts:28-30 | marking an unread notification read lowers its owner's unread count by exactly one |
| Notifications.MarkReadPreservesValid | app/api/notifications/route.ts:54-57 | marking read keeps every store invariant |
| Exchanges.Create | app/api/exchanges/route.ts:4-69 | the checks run in order: missing ids give 400, an unknown item 404, an item that is not available 400, the requester's own item 400, a requester that does not exist 500, each exactly, with its own text and the store unchanged; otherwise 201 with the request appended, an empty message stored as null |
| Exchanges.CreatedOnlyForOthersAvailable | app/api/exchanges/route.ts:28-40 | an accepted request always concerns an available item of another user |
| Exchanges.CreatePreservesValid | app/api/exchanges/route.ts:42-59 | requesting an exchange keeps every store invariant |
| Messages.MarkConversationRead | app/api/messages/route.ts:65-74 | exactly the unread messages the counterpart sent to the user become read; the list keeps its length and every other message |
| Messages.List | app/api/messages/route.ts:4-84 | no user id gives 400 with the store unchanged; otherwise 200 with exactly the user's messages (only those exchanged with the counterpart when one is given), oldest first, as they were before the read; with a counterpart its unread messages to the user are then marked read and nothing else changes |
| Messages.ListClearsUnread | app/api/messages/route.ts:65-74 | after a conversation is read, nothing the counterpart sent to the user is unread |
| Messages.ListIdempotent | app/api/messages/route.ts:65-74 | reading a conversation twice changes the store no more than reading it once |
| Messages.Preview | app/api/messages/route.ts:130 | the text is the sender's name and ": ", then a prefix of the message at most fifty characters long, then "..." |
| Messages.PreviewShowsShortMessage | app/api/messages/route.ts:130 | a message of at most fifty characters appears whole, and a longer one is cut to its first fifty |
| Messages.Link | app/api/messages/route.ts:131 | the link is /chat/ followed by decimal digits that read back as the sender's id |
| Messages.Send | app/api/messages/route.ts:86-135 | a missing sender, receiver or text gives 400 exactly (an image alone is not enough); a complete draft whose sender or receiver does not exist gives 500 exactly; both leave the store unchanged; otherwise 201 with the unread message appended and a notification to the receiver |
| Messages.SentIsListed | app/api/messages/route.ts:17-41 | a sent message appears in the conversation as either party reads it |
| Messages.ListPreservesValid | app/api/messages/route.ts:66-73 | reading a conversation keeps every store invariant |
| Messages.SendPreservesValid | app/api/messages/route.ts:98-133 | sending keeps every store invariant |
| Seed.EnsureUser | app/api/seed/route.ts:11-28 | a sample user whose email is taken is the existing row and the store is unchanged; otherwise exactly one user with that email is appended and is what a lookup by email then finds |
| Seed.FindItemTitled | app/api/seed/route.ts:230-235 | something is found exactly when some item has the template's title and owner |
| Seed.SeedOne | app/api/seed/route.ts:228-255 | a template creates nothing exactly when its owner already has an item of that title, and otherwise appends one new item with the next id; afterwards the owner has such an item |
| Seed.SeedItems | app/api/seed/route.ts:227-256 | only items are appended, at most one per template, with consecutive ids, each available and carrying the fresh code of its id |
| Seed.SeededAll | app/api/seed/route.ts:228-255 | after the loop every template's owner has an item of that template's title |
| Seed.EnsureUsers | app/api/seed/route.ts:11-66 | one user per sample account, in order, each what a lookup by its email finds afterwards; existing users are kept as a prefix and at most one user is added per account |
| Seed.Run | app/api/seed/route.ts:6-266 | 200 with every sample email resolving to a user, the created items appended to the store and listed in the reply, the reply message counting them and the sample emails in order; only the users, the items and the id counter change |
| Seed.RunPreservesValid | app/api/seed/route.ts:6-266 | seeding keeps every store invariant: created users get fresh ids, unused emails and no reviews, created items fresh ids and stored owners |
| Seed.RunTwice | app/api/seed/route.ts:11-256 | running the seed again on its own result, with any salt, token source and clock, changes nothing and creates no item |
| Seed.SameUsersAgain | app/api/seed/route.ts:11-66 | when every sample email already resolves, ensuring the users leaves the store as it is and finds the same users |
| Seed.NothingToSeed | app/api/seed/route.ts:228-256 | when every template already has its item, the loop leaves the store as it is and creates nothing |
| Seed.SampleKeysDistinct | app/api/seed/route.ts:69-224 | the ten sample items have pairwise distinct (title, owner) keys |
| AiChat.StripMarks | app/api/ai-chat/route.ts:12-13 | decomposition then mark deletion never lengthens the text, leaves no mark and no precomposed vowel, keeps only characters of the input or base vowels, and leaves text without them unchanged |
| AiChat.NormalizeAsWritten | app/api/ai-chat/route.ts:9-15 | the normalised message holds no upper-case letter, no mark and no precomposed vowel, and has no white space at either end |
| AiChat.NormalizeKeepsAscii | app/api/ai-chat/route.ts:9-15 | lower-case ASCII keywords without surrounding white space pass through normalisation unchanged, so they can match a normalised message |
| AiChat.Normalize | app/api/ai-chat/route.ts:9-15 | the corrected normalisation is normal and trimmed as above and also holds no `đ`, with the as-written normalisation's length |
| AiChat.FirstCategory | app/api/ai-chat/route.ts:36-41 | no category exactly when no keyword occurs; otherwise the category of the first keyword, in table order, that occurs in the message |
| AiChat.ExtractCategoryAsWritten | app/api/ai-chat/route.ts:36-41 | as written: no category exactly when no keyword of the table, as spelled, occurs; otherwise the category of the first one in table order that does |
| AiChat.ExtractCategory | app/api/ai-chat/route.ts:36-41 | corrected: no category exactly when no keyword's normal form occurs; otherwise the category of the first keyword in table order whose normal form does |
| AiChat.FirstNormalized | app/api/ai-chat/route.ts:36-41 | looking a message up in the table of normalised keywords finds what looking up each keyword's normal form finds |
| AiChat.BooksNeverExtractedAsWritten | app/api/ai-chat/route.ts:29-52 | as written no message ever yields the category "Sách": its only keyword keeps an accent that normalisation has removed from the message |
| AiChat.KeywordsNeedKeyLetter | app/api/ai-chat/route.ts:16-34 | no keyword of the table, as it is spelled, occurs in a normalised text without a "d", "g", "h" or "q" |
| AiChat.NoCategoryWithoutKeyLetter | app/api/ai-chat/route.ts:36-41 | as written, a lower-case message without a "d", "g", "h" or "q" finds no category, whatever accented keyword it spells out |
| AiChat.ElectronicsQueryFindsNothing | app/api/ai-chat/route.ts:110 | as written, the suggested query "tìm đồ điện tử" finds no category |
| AiChat.EveryKeywordRecognised | app/api/ai-chat/route.ts:18-41 | with the keywords normalised like the message, each keyword of the table typed on its own selects a category |
| AiChat.MentionedCategoryFound | app/api/ai-chat/route.ts:36-41 | a normalised message containing a normalised keyword selects a category |
| AiChat.Classify | app/api/ai-chat/route.ts:98-193 | the intent is the first in the handler's order one of whose keywords occurs, and the fallback exactly when none occurs |
| AiChat.GreetingComesFirst | app/api/ai-chat/route.ts:98 | a greeting keyword decides the intent whatever else the message says |
| AiChat.SearchUnlessGreetingOrHelp | app/api/ai-chat/route.ts:108-119 | a search keyword gives the search intent unless a greeting or help keyword also occurs |
| AiChat.SearchResults | app/api/ai-chat/route.ts:123-128 | at most five available items whose category contains the name, newest first; any matching item left out is no newer than every listed one and the list is full |
| AiChat.Respond | app/api/ai-chat/route.ts:97-193 | corrected: each answer is given exactly when its intent is the one the corrected normal form of the message shows; a search lists the results for the category the message mentions, or asks for one when it mentions none; the fallback carries the message as sent |
| AiChat.RespondAsWritten | app/api/ai-chat/route.ts:97-193 | as written: each answer is given exactly when its intent is the one `normalizeMessage` as written shows; a search lists the results for the category `extractCategory` as written finds, or asks for one; the fallback carries the message as sent |
| AiChat.Choose | app/api/ai-chat/route.ts:97-193 | for any reading of the message and any category lookup, the answer is the one for the first intent shown, a search listing the results for the category found or asking for one |
| AiChat.CorrectionOnlyMovesSearch | app/api/ai-chat/route.ts:9-15 | without a `đ` left in the message the two normalisations agree, and the corrected answer differs from the written one only for a search |
| AiChat.NoLeadNoIntent | app/api/ai-chat/route.ts:98-183 | a text without any letter that starts an intent keyword gets the fallback |
| AiChat.IntentKeywordLeads | app/api/ai-chat/route.ts:98-173 | every intent keyword is non-empty and starts with a lower-case letter other than "o" and "i"; the greeting, help and search keywords start with c, g, h, s, t or x |
| AiChat.FourthIntentFirst | app/api/ai-chat/route.ts:98-154 | when no greeting, help or search keyword occurs and a trade keyword does, the intent is trade |
| AiChat.TradeQueryFallsThroughAsWritten | app/api/ai-chat/route.ts:154 | as written the message "đổi đồ" gets the fallback answer, since "doi" is spelled with `d` and the message keeps its `đ`; corrected it gets the answer about the kinds of trade |
| AiChat.OnlySearchReadsStore | app/api/ai-chat/route.ts:119-142 | any answer other than a listing is the same whatever the store holds |
| AiChat.GreetingAnswered | app/api/ai-chat/route.ts:98-106 | a greeting keyword in the normalised message always gets the greeting |
| AiChat.Entry | app/api/ai-chat/route.ts:133-137 | an item's entry contains the link to its page |
| AiChat.EntriesLinkEveryItem | app/api/ai-chat/route.ts:132-138 | the entries contain the link of every listed item |
| AiChat.Render | app/api/ai-chat/route.ts:98-193 | a listing names its category; one that found items states how many and links every one of them; the fallback quotes the message as sent; the other answers are their phrases |
| AiChat.ListingMentions | app/api/ai-chat/route.ts:130-139 | a listing that found items names the category and the count, and links every item it lists |
| AiChat.Reply | app/api/ai-chat/route.ts:43-202 | corrected: 400 with the missing-message text exactly for a falsy message and 500 exactly for a truthy one that is not text; otherwise 200 with the upstream answer, marked as coming from the model, when there is one, and else the corrected keyword answer |
| AiChat.ReplyAsWritten | app/api/ai-chat/route.ts:43-202 | as written: the same statuses, and without an upstream answer the keyword answer as written |
| AiChat.Handle | app/api/ai-chat/route.ts:43-202 | for any keyword answer: 400 with the missing-message text exactly for a falsy message, 500 with the failure text exactly for a truthy one that is not text, else 200 with the upstream answer or the rendered keyword answer |
| AiChat.UpstreamShortCircuits | app/api/ai-chat/route.ts:83-87 | an upstream answer is passed on unchanged whatever the message asks |
| AiGateway.Turns | app/api/ai/chat/route.ts:34-38 | the turns are the usable history entries, in their order, one for one, each mapped to its role and text |
| AiGateway.TurnsAreUsable | app/api/ai/chat/route.ts:36-37 | no turn has blank text, each comes from an entry of the history, and it speaks as the user exactly when its entry's role is "user" |
| AiGateway.UnusableIgnored | app/api/ai/chat/route.ts:36 | an entry without non-blank string content adds no turn |
| AiGateway.Conversation | app/api/ai/chat/route.ts:34-46 | the chat starts with the system prompt as a user turn and the acknowledgement as a model turn, followed by the mapped history when it is an array and nothing otherwise |
| AiGateway.ValidMessage | app/api/ai/chat/route.ts:11 | a message is accepted exactly when it is a string with a character that is not white space |
| AiGateway.QuotaAsWritten | app/api/ai/chat/route.ts:68 | an error is read as a quota error exactly when its lower-cased text contains "quota", "rate" or "429" |
| AiGateway.OverloadAsWritten | app/api/ai/chat/route.ts:106 | an error is read as an overload exactly when it is read as a quota error or its lower-cased text contains "resource_exhausted", "unavailable", "overloaded" or "capacity" |
| AiGateway.SdkFailureReply | app/api/ai/chat/route.ts:53-95 | a key problem is tested first and gives 500; then a quota error gives 500 with the overload text; anything else gives 200 with the fallback guide, the error message and source "fallback" |
| AiGateway.GenerateReadAsQuota | app/api/ai/chat/route.ts:68 | as written, any SDK error whose text contains "generate" and names no key problem is reported as an exhausted quota |
| AiGateway.GenerateNotQuota | app/api/ai/chat/route.ts:68 | with "rate" read as a word, an error naming only the SDK method gets the fallback guide, where the test as written reports a quota error |
| AiGateway.QuotaNarrowsAsWritten | app/api/ai/chat/route.ts:68 | the corrected quota test accepts only messages the written one accepts |
| AiGateway.OverloadNarrowsAsWritten | app/api/ai/chat/route.ts:106 | the corrected overload test accepts only messages the written one accepts |
| AiGateway.GenerateOverloadAsWritten | app/api/ai/chat/route.ts:106 | the overload expression as written accepts "generateContent" and the corrected test does not |
| AiGateway.OuterFailureReply | app/api/ai/chat/route.ts:103-125 | an overload error gives 429 with "AI_OVERLOADED"; any other gives 500 with source "error" |
| AiGateway.Chat | app/api/ai/chat/route.ts:7-127 | as written: a message that is missing, not a string or blank gives 400 exactly; a valid message without a key gives the configuration reply exactly; with a key the model's answer gives 200 with source "gemini", and its failure the SDK failure reply under `/quota|rate|429/i`; an unreadable body ends in the outer failure reply under the overload expression |
| AiGateway.Handle | app/api/ai/chat/route.ts:7-127 | the route's steps for any classification of error messages: 400, configuration, answer, failed call, outer failure, as listed for `Chat` |
| AiGateway.ChatCorrected | app/api/ai/chat/route.ts:68-106 | the route with "rate" read as the start of a word: a failed call gets the SDK failure reply under the corrected quota test, an outer error the corrected overload test |
| AiGateway.CorrectionOnlyNarrows | app/api/ai/chat/route.ts:68-106 | every 200 of the route as written is the same reply corrected, and every 429 of the corrected route is a 429 as written |
| AiGateway.ChatReadsGenerateAsQuota | app/api/ai/chat/route.ts:68 | a model call failing with "generateContent" is answered 500 with the quota error as written and 200 with the fallback guide corrected |
| AiGateway.ResponseAlwaysSet | app/api/ai/chat/route.ts:11-125 | every reply carries a response text except a model answer that is itself empty |
| AiGateway.NoKeyNoCall | app/api/ai/chat/route.ts:15-26 | without a key the reply does not depend on the model at all |
| Media.Failure | app/api/ai/generate-video/route.ts:50-62 | as written: an error the overload expression accepts, "rate" inside any word included, gives 429 with the overload text; any other gives 500 with the route's own text |
| Media.FailureCorrected | app/api/ai/generate-video/route.ts:53 | with "rate" read as the start of a word: 429 exactly for the corrected overload test, otherwise 500 with the route's own text |
| Media.FailureCorrectionNarrows | app/api/ai/generate-image/route.ts:40 | a 429 of the corrected catch is a 429 as written, a 500 as written is the same reply corrected, and "generateContent" gives 429 as written but 500 corrected |
| Media.JobId | app/api/ai/generate-video/route.ts:23 | a job id is the prefix, "_", the clock in decimal digits, "_" and the token, each of which can be read back from its place, the digits giving back the clock |
| Media.GenerateVideo | app/api/ai/generate-video/route.ts:3-64 | the request is accepted exactly when it carries an array of one to three images; otherwise 400 saying at least one is needed, or at most three when there are more; success returns the job as processing with the sample video and a duration of 12 |
| Media.FourthImageRejected | app/api/ai/generate-video/route.ts:15-20 | adding a fourth image to an accepted request gives the "at most three" error |
| Media.VideoStatus | app/api/ai/generate-video/route.ts:117-136 | a missing or empty id gives 400; any other id is reported completed with progress 100 |
| Media.CreatedVideoCompletes | app/api/ai/generate-video/route.ts:23-136 | the id a successful request hands out is reported completed with the same video |
| Media.SizeOf | app/api/ai/generate-image/route.ts:6 | the size defaults to "1024x1024" only when it is absent, and is otherwise passed on as given |
| Media.SplitPair | app/api/ai/generate-image/route.ts:121 | splitting `W`x`H` at "x" gives back W and H |
| Media.SizeInUrl | app/api/ai/generate-image/route.ts:121-124 | the width and height of a `W`x`H` size are the two path segments of the picture URL |
| Media.GenerateImage | app/api/ai/generate-image/route.ts:3-51 | 400 exactly for a missing or blank prompt; success exactly for a non-blank string prompt and a string size, returning the prompt, the size, the URL for that size, the style or "realistic", and status completed |
| Media.PromptOnlyDefaults | app/api/ai/generate-image/route.ts:6-36 | a request with only a prompt gets the default style and size, and the picture URL of the default size |
| Media.DefaultSizeUrl | app/api/ai/generate-image/route.ts:121-124 | the default size puts 1024 in both path segments |
| Media.ImageStatus | app/api/ai/generate-image/route.ts:128-147 | a missing or empty id gives 400; any other id is reported completed with progress 100 |
| Media.CreatedImageCompletes | app/api/ai/generate-image/route.ts:16-147 | the id a successful request hands out is reported completed |
| GeminiClient.HistoryJson | app/ai-chat/services/geminiService.ts:20 | each message of the conversation is posted, in order, as its role and content |
| GeminiClient.HistoryReachesModel | app/ai-chat/services/geminiService.ts:18-21 | the gateway turns the posted conversation into exactly its non-blank messages, in order, speaking as the user exactly for role "user" |
| GeminiClient.EntryTurn | app/ai-chat/services/geminiService.ts:20 | the gateway keeps a posted message exactly when its content is not blank, and reads its role and content back |
| GeminiClient.RequestReadBack | app/ai-chat/services/geminiService.ts:18-21 | the gateway reads back the message and, after the system-prompt pair, the conversation as sent |
| GeminiClient.ParseBody | app/ai-chat/services/geminiService.ts:24-30 | an empty body reads as `{}`, an unparsable one as `{ response: raw }`, and any other as what it parses to |
| GeminiClient.Shown | app/ai-chat/services/geminiService.ts:32-42 | on a failure a truthy response is shown as it is, else on 429 the overload text and otherwise the error or the generic text; on success the first of response, text and error that is neither null nor undefined, shown as text, the apology in place of an empty text or when all three are missing |
| GeminiClient.Reply | app/ai-chat/services/geminiService.ts:13-45 | a connection failure shows the connection apology; an empty body shows the overload, empty-reply or generic text by status; a body that parses is shown as `Shown` picks from it |
| GeminiClient.Stream | app/ai-chat/services/geminiService.ts:11-49 | exactly one chunk is yielded, holding the reply to the posted request |
| GeminiClient.UnparsableShownVerbatim | app/ai-chat/services/geminiService.ts:28-38 | a body that is not JSON is shown verbatim whatever the status |
| GeminiClient.ReplyJson | app/api/ai/chat/route.ts:98-102 | the gateway's body carries its response and error and no text field |
| GeminiClient.ClientShowsGatewayText | app/ai-chat/services/geminiService.ts:32-42 | a gateway reply that arrives intact is shown by its response text, an empty model answer becoming the apology |
| GeminiClient.ChatShown | app/ai-chat/services/geminiService.ts:13-48 | end to end, whatever the gateway does, the page shows its response text, or the apology for an empty model answer |
| ChatPage.FindConversation | app/chat/page.tsx:73-81 | a position found holds the conversation with that user, and none is found exactly when no conversation is with them |
| ChatPage.Group | app/chat/page.tsx:59-95 | one conversation per distinct counterpart of the messages and no other, in order of first appearance, each with the latest message (the first seen on a tie) and the number of that counterpart's messages to the user still unread |
| ChatPage.AbsorbSummarises | app/chat/page.tsx:68-93 | one more message keeps the list a faithful summary of the messages seen so far |
| ChatPage.LatestUpdated | app/chat/page.tsx:84-86 | a message becomes the latest exactly when it is strictly later than the current latest |
| ChatPage.SendDraft | app/chat/page.tsx:124-140 | nothing is sent exactly when both fields are blank or no conversation is open; otherwise the text as typed and the image or null go from the user to the open conversation |
| ChatPage.ImageOnlyRefused | app/chat/page.tsx:125 | a picture sent without text passes the page's guard but is refused by the messages route with 400, storing nothing |
| ItemsPage.Query | app/items/page.tsx:51-56 | at most five parameters are sent and none has an empty value |
| ItemsPage.QueryKeepsFilled | app/items/page.tsx:51-56 | the parameters are exactly the filled filters, in the page's order |
| ItemsPage.Lookup | app/api/items/route.ts:7-12 | a value is found exactly when some parameter has that name, and is then one of that name's values |
| ItemsPage.LookupFilled | app/items/page.tsx:51-56 | each filter reaches the handler under its own name exactly when it is filled |
| ItemsPage.ServerSeesFilled | app/items/page.tsx:51-58 | the handler receives exactly the filled filters and never a status |
| ItemsPage.ClearFilters | app/items/page.tsx:87-94 | after clearing no filter is sent and the sort is back at newest first |
| ItemsPage.ClearedShowsEverything | app/items/page.tsx:87-94 | after clearing the handler applies no filter beyond its default status, as on first load |
| ItemsPage.MenuSelectsMode | app/items/page.tsx:193-197 | each entry of the sort menu selects its own mode, and the initial value is newest first |
| ItemsPage.Arrange | app/items/page.tsx:62-72 | newest, oldest and most viewed give a permutation of the list sorted accordingly; the price orders keep exactly the items with a non-zero price, sorted by price; an unknown mode keeps the list; nothing shown was not fetched |
| ItemsPage.PriceOrdersAgree | app/items/page.tsx:68-71 | both price orders show the same items, and never one without a price |
| ItemsPage.NewestKeepsServerOrder | app/items/page.tsx:62-63 | the default sort keeps the server's newest-first order exactly |
| ItemsPage.Shown | app/items/page.tsx:58-72 | every item shown is in the store and matches the filters sent |
| ItemsPage.FirstLoadIsServerList | app/items/page.tsx:23-94 | on first load and after clearing the page shows the server's unfiltered list as it came |
| NewItemPage.AppendNew | app/items/new/page.tsx:50-52 | a new link is appended and a known one leaves the list unchanged, so no duplicate appears |
| NewItemPage.AddImage | app/items/new/page.tsx:47-55 | the list grows by the trimmed link, and the box is cleared, exactly when the link is not blank and not yet listed; otherwise nothing changes; only the image list changes and it stays free of duplicates |
| NewItemPage.AddGenerated | app/items/new/page.tsx:291-299 | a generated link not yet listed is appended; an empty or known one changes nothing; the list stays free of duplicates |
| NewItemPage.DropIndex | app/items/new/page.tsx:57-62 | the entry at an index in range is removed and the rest kept in order; another index leaves the list unchanged |
| NewItemPage.RemoveImage | app/items/new/page.tsx:57-62 | removing shortens the list by one and drops exactly that entry from its contents; only the image list changes |
| NewItemPage.RemoveKeepsOrder | app/items/new/page.tsx:59 | entries before the removed one keep their place and later ones move up by one |
| NewItemPage.RemoveKeepsDistinct | app/items/new/page.tsx:57-62 | removal keeps the list free of duplicates |
| NewItemPage.RunKeepsDistinct | app/items/new/page.tsx:47-299 | any sequence of the page's actions keeps a duplicate-free list free of duplicates |
| NewItemPage.ImagesStayDistinct | app/items/new/page.tsx:13-62 | from a fresh page the image list never holds the same link twice |
| NewItemPage.Submitted | app/items/new/page.tsx:70-80 | the posted body carries every text field of the form as typed, the type, a price only for a sale and then the price as converted, the image links in order, no coordinates, and the user's id |
| NewItemPage.PostedItem | app/items/new/page.tsx:19-76 | the item created from the page has the chosen type (exchange when none), a price only for a sale, an image list and its poster as owner |
| NewItemPage.DefaultPostsNoPrice | app/items/new/page.tsx:19-76 | a form still at its initial type posts no price whatever was typed |
| ItemCard.FirstImage | components/ItemCard.tsx:90-101 | the item's own image when it is a non-empty string; else the first entry of the parsed list when the list parses to a non-empty array; null when there is no list, it does not parse, or it is empty or not an array |
| ItemCard.ShowsFirstPosted | components/ItemCard.tsx:90-101 | a card for an item posted with images shows the first link the user added |
| ItemCard.NoListNoPicture | components/ItemCard.tsx:95-100 | an empty list, or text that is not a list, shows no picture |
| ItemCard.TypeLabel | components/ItemCard.tsx:103-107 | "exchange", "gift" and "sell" get the labels "Đổi đồ", "Tặng miễn phí" and "Bán", and any other type is shown as it is |
| ItemCard.LabelsTranslate | components/ItemCard.tsx:103-107 | the three types get three different labels, none of which is itself a type name |
| ItemCard.TypeBadge | components/ItemCard.tsx:158-162 | a badge is drawn exactly when the item has a non-empty type, and it shows that type's label, which is never empty |
| ItemCard.ConditionColour | components/ItemCard.tsx:84-88 | "Mới" is green, "Còn tốt" blue, "Đã qua sử dụng" yellow, and anything else grey |
| ItemCard.ConditionsDistinguished | components/ItemCard.tsx:84-88 | the three conditions get three different colours, none of them grey |
| ItemCard.ToggleFavorite | components/ItemCard.tsx:52-72 | without a user nothing is sent and nothing changes; otherwise DELETE when saved and POST when not, and the heart flips once the request was made |
| ItemCard.HeartAgreesWithStore | components/ItemCard.tsx:52-72 | once the request arrives the heart shows whether the store holds the pair, even when the heart was out of date |
| Store.HashVerify | app/api/auth/login/route.ts:30 | the password compare accepts the hashed password and rejects every other (bcrypt's 72-byte cut-off is not modelled) |
| Collections.First | app/api/messages/route.ts:106-130 | the element found is in the table and satisfies the test, and nothing is found exactly when no element does |
| Store.FindUser | app/api/messages/route.ts:106-130 | a user found has that id, and none is found exactly when no user has it |
| Store.FindUserByEmail | app/api/auth/register/route.ts:18-20 | a user found has that email, and none is found exactly when no user has it |
| Store.FindItem | app/api/exchanges/route.ts:16-26 | an item found has that id, and none is found exactly when no item has it |
| Store.EmptyValid | app/api/reviews/route.ts:84-95 | the empty store satisfies every invariant the handlers keep |
| Collections.SortDesc | app/items/page.tsx:62-67 | a permutation of the input, sorted by key from highest to lowest |
| Collections.SortDescSortedUnchanged | app/items/page.tsx:62-63 | sorting a list already in descending order leaves it exactly as it was |
| Collections.SortAsc | app/items/page.tsx:64-69 | a permutation of the input, sorted by key from lowest to highest |
| Collections.Newest | app/api/ai-chat/route.ts:123-128 | at most `n` matching elements, newest first; any matching element left out is no newer than every chosen one |
| Text.Trim | app/items/new/page.tsx:48 | the result is the input with the white space at both ends removed, and none left at either end |
| Text.Split | app/api/ai/generate-image/route.ts:121 | at least one part, none holding the separator, and joining the parts with it gives the text back |
| Text.NatToStringRoundTrip | app/api/transactions/route.ts:113 | reading the decimal rendering of a number back gives the number |
| Notifications.MarkReadSetsFlag | app/api/notifications/route.ts:54-57 | a successful mark-read changes the store only by setting that notification's read flag |

## Left out

- **Database and HTTP.** The Prisma client, HTTP and JSON transport are replaced by the immutable store and by `Json` values. Each handler runs alone. The read-then-write races of favourites, registration and seeding are not modelled.
- **Failed inserts.** The database schema is not part of this model. A create that references a missing user or item is modelled as the insert failing, which the handler answers with 500 and no change.
- **Passwords.** bcrypt is an ideal salted hash: `Store.Verify` accepts exactly the password that was hashed. Its cost factor and timing are not modelled, and neither is its cut-off: bcryptjs reads only the first 72 bytes of a password, so two passwords that agree on those bytes both verify.
- **Store.HashVerify:** "rejects every other" holds for the ideal hash; with bcrypt's 72-byte cut-off a longer password sharing the first 72 bytes is accepted too.
- **Auth.RegisterStoresHash:** "no other" password verifies holds for the ideal hash, up to the same 72-byte cut-off.
- **Clock and random values.** `Date.now()`, `crypto.randomBytes` QR codes and `Math.random` job ids are parameters (`now`, `qrCode`, `qr`, `token`, `salt`). Timestamps are integers, and ids are naturals handed out by a counter rather than random strings.
- **Numbers.** Floating point is not modelled. JSON numbers and prices are integers, averages are reals, and `parseFloat` is a parameter whose `None` stands for NaN.
- **Unicode.** Lower-casing covers ASCII and the Vietnamese alphabet. Decomposition covers the precomposed Vietnamese vowels. Other scripts and UTF-16 surrogate pairs are not modelled.
- **Case-insensitive regular expressions.** These are modelled as substring tests on the lower-cased text.
- **Fixed answer texts.** The answers of `AiChat` and `AiGateway` are stated for any phrase book (`Phrases`). `SourcePhrases` holds the handlers' wording, but no contract depends on it.
- **Upstream services.** The Gemini SDK, the upstream text API and its response shapes are parameters: `upstream`, and the `Option<string>` answer in `AiChat.Reply`. The same goes for the picture and video services behind the mock generators.
- **Logging and timestamps.** Console logging and the `timestamp` fields of the gateway's replies are left out.
- **Relations embedded in replies.** The `include`/`select` of related rows (sender, receiver, buyer, item owner) is left out. Only the fields the handlers read or the properties need are modelled.
- **The separate mark-read call.** `Messages.List` models the mark-read on the store. The separate `POST /api/messages/read` call that the chat page also makes is not part of this model.
- **Transaction confirmation by QR code, the item view counter, and item editing and deletion.** The routes that implement them are not part of this model.
- **React rendering.** Hooks, `localStorage` sessions, polling intervals, alerts, scrolling and the remaining UI-only pages and components are not modelled.
- **ItemsPage.Views:** the `|| 0` fallback never applies, because every stored item has a view count.
- **ItemsPage.Arrange:** its contract states sortedness and the permutation, not stability. The sort it uses (`Collections.SortDesc`, `Collections.SortAsc`) is a stable insertion sort, while `Array.prototype.sort` is stable only since ES2019.
- **Seed.Run:** it requires at least one sample account, as the route always has three. Item owners are indexes into the sample accounts.
- **AiChat.Respond:** it and `AiChat.Reply` give the corrected answer: `AiChat.Normalize` reads `đ` as `d` and the keywords are normalised like the message (see Findings). The handler as written is `AiChat.ReplyAsWritten` over `AiChat.RespondAsWritten`.
- **ItemCard.TypeLabel:** a type that names a property every JavaScript object inherits, such as "constructor", would be looked up on the prototype; the model shows it as it is.
- **ItemCard.ConditionColour:** likewise, a condition such as "constructor" would pick up an inherited property; the model colours it grey.
- **AiChat.Handle:** the 500 reply also carries a `response` field with an apology ("Xin lỗi, tôi gặp sự cố. Vui lòng thử lại sau.") next to `error`; the model's error form holds the error text only, so that field is left out.
- **Media.GenerateImage:** a truthy prompt that is not a string, a size that is not a string, and a `null` body throw TypeErrors. None of their messages contains an overload word, so the model answers them with 500 directly.

## Findings

| source | as written | input that shows it | evidently intended | confidence | as-written member | corrected member |
|---|---|---|---|---|---|---|
| app/api/ai-chat/route.ts:29-52 | the message is stripped of every diacritic before the keyword lookup, but the keywords keep theirs, and `đ` has no decomposition, so it survives | "tìm sách" normalises to "tim sach", which never contains "sách", so no message ever finds the category "Sách"; the suggested query "tìm đồ điện tử" normalises to "tim đo đien tu", which contains neither "đồ điện tử" nor "dien tu", so it gets the ask-for-a-category answer | keywords normalised like the message, with `đ` read as `d`, so every keyword of the table is recognised | not executed | AiChat.ElectronicsQueryFindsNothing | AiChat.EveryKeywordRecognised |
| app/api/ai-chat/route.ts:154 | the intent keywords are spelled without accents, but `đ` survives normalisation, so the intent keywords "doi" (line 154), "co do" (line 119) and "danh gia" (line 173) never match a message typed with `đ` | "đổi đồ" normalises to "đoi đo", which contains no intent keyword at all, so it gets the fallback answer instead of the kinds of trade | `đ` read as `d`, so "đổi đồ" asks about trading | not executed | AiChat.TradeQueryFallsThroughAsWritten | AiChat.Reply |
| app/api/ai/chat/route.ts:68 | `/quota\|rate\|429/i` matches "rate" inside any word, and the same alternative appears at line 106 and in app/api/ai/generate-video/route.ts:53 and app/api/ai/generate-image/route.ts:40 | a model call failing with the message "generateContent" is reported as an exhausted quota, because "generate" contains "rate"; errors containing "separate" or "accurate" are read the same way, and the outer handlers answer them with 429; whether the SDK's own messages name the method is not part of this model | "rate" as the start of a word, as in "rate limit" | not executed | AiGateway.ChatReadsGenerateAsQuota | AiGateway.ChatCorrected |

=== FILE: aichat.dfy ===
/**
 * POST /api/ai-chat: the keyword assistant. The message is normalised
 * (lower case, diacritics removed, trimmed); an upstream model answer wins
 * when there is one, and otherwise the first matching intent picks a canned
 * answer. A search answer names the newest available items of the category
 * the message mentions.
 */
module AiChat {
  import opened Wrappers
  import opened Json
  import opened Store
  import Text
  import Collections

  const MissingMessage := "Thiếu tin nhắn"
  const Failure := "Có lỗi xảy ra"
  const SearchLimit := 5

  // ---------------------------------------------------------------------
  // Normalisation

  /** The combining diacritical marks U+0300 to U+036F, which the source's regular expression deletes. */
  predicate IsMark(c: char) {
    '\U{0300}' <= c <= '\U{036F}'
  }

  /**
   * The precomposed lower-case Vietnamese vowels, one family per base
   * letter: the forms canonical decomposition (NFD) turns into that letter
   * followed by marks. They are the Latin-1 letters à á â ã è é ê ì í ò ó ô
   * õ ù ú ý, the letters ă ĩ ũ ơ ư, and the odd code points of U+1EA1 (ạ) to
   * U+1EF9 (ỹ), which run through the vowels a, e, i, o, u, y in turn. `đ` is
   * a letter of its own and has no decomposition.
   */
  predicate OverA(c: char) {
    var n := c as int;
    (0xE0 <= n <= 0xE3) || n == 0x103 || (0x1EA1 <= n <= 0x1EB7 && n % 2 == 1)
  }

  predicate OverE(c: char) {
    var n := c as int;
    (0xE8 <= n <= 0xEA) || (0x1EB9 <= n <= 0x1EC7 && n % 2 == 1)
  }

  predicate OverI(c: char) {
    var n := c as int;
    n == 0xEC || n == 0xED || n == 0x129 || n == 0x1EC9 || n == 0x1ECB
  }

  predicate OverO(c: char) {
    var n := c as int;
    (0xF2 <= n <= 0xF5) || n == 0x1A1 || (0x1ECD <= n <= 0x1EE3 && n % 2 == 1)
  }

  predicate OverU(c: char) {
    var n := c as int;
    n == 0xF9 || n == 0xFA || n == 0x169 || n == 0x1B0 || (0x1EE5 <= n <= 0x1EF1 && n % 2 == 1)
  }

  predicate OverY(c: char) {
    var n := c as int;
    n == 0xFD || (0x1EF3 <= n <= 0x1EF9 && n % 2 == 1)
  }

  predicate Precomposed(c: char) {
    OverA(c) || OverE(c) || OverI(c) || OverO(c) || OverU(c) || OverY(c)
  }

  /** The base letter a precomposed vowel keeps once its marks are deleted. */
  function BaseLetter(c: char): (r: char)
    requires Precomposed(c)
    ensures r in "aeiouy"
  {
    if OverA(c) then 'a'
    else if OverE(c) then 'e'
    else if OverI(c) then 'i'
    else if OverO(c) then 'o'
    else if OverU(c) then 'u'
    else 'y'
  }

  /** A character that decomposition followed by mark deletion leaves as it is. */
  predicate Plain(c: char) {
    !IsMark(c) && !Precomposed(c)
  }

  /** `normalize('NFD')` followed by deleting every character from U+0300 to U+036F. */
  function StripMarks(s: string): (r: string)
    ensures |r| <= |s|
    ensures forall i :: 0 <= i < |r| ==> Plain(r[i])
    ensures forall i :: 0 <= i < |r| ==> r[i] in s || r[i] in "aeiouy"
    ensures (forall i :: 0 <= i < |s| ==> Plain(s[i])) ==> r == s
  {
    if |s| == 0 then []
    else if IsMark(s[0]) then StripMarks(s[1..])
    else
      var c := if Precomposed(s[0]) then BaseLetter(s[0]) else s[0];
      [c] + StripMarks(s[1..])
  }

  /** What normalisation produces: no upper-case ASCII letter, no mark, no precomposed vowel. */
  predicate Normal(c: char) {
    Plain(c) && !Text.IsAsciiUpper(c)
  }

  predicate AllNormal(s: string) {
    forall i :: 0 <= i < |s| ==> Normal(s[i])
  }

  /** Neither end of `s` is white space, as after `trim()`. */
  predicate Trimmed(s: string) {
    s == [] || (!Text.IsSpace(s[0]) && !Text.IsSpace(s[|s| - 1]))
  }

  /** `normalizeMessage` as written: lower-case, decompose, delete the marks, trim. */
  function NormalizeAsWritten(message: string): (r: string)
    ensures AllNormal(r) && Trimmed(r)
  {
    var lowered := Text.Lower(message);
    var stripped := StripMarks(lowered);
    StrippedNormal(lowered);
    NormalTrimmed(stripped);
    Text.Trim(stripped)
  }

  /** Deleting marks from lower-cased text leaves only normal characters. */
  lemma StrippedNormal(lowered: string)
    requires forall k :: 0 <= k < |lowered| ==> !Text.IsAsciiUpper(lowered[k])
    ensures AllNormal(StripMarks(lowered))
  {
    var stripped := StripMarks(lowered);
    forall k | 0 <= k < |stripped| ensures Normal(stripped[k]) {
      var c := stripped[k];
      if c in lowered {
        var j :| 0 <= j < |lowered| && lowered[j] == c;
      } else {
        VowelNotUpper(c);
      }
    }
  }

  lemma VowelNotUpper(c: char)
    requires c in "aeiouy"
    ensures !Text.IsAsciiUpper(c)
  {
  }

  /** Trimming only drops characters, so it keeps text normal, and it leaves no white space at either end. */
  lemma NormalTrimmed(s: string)
    requires AllNormal(s)
    ensures AllNormal(Text.Trim(s)) && Trimmed(Text.Trim(s))
  {
    var r := Text.Trim(s);
    var i, j :| 0 <= i <= j <= |s| && r == s[i..j] && Text.IsBlank(s[..i]) && Text.IsBlank(s[j..]);
    forall k | 0 <= k < |r| ensures Normal(r[k]) {
      assert r[k] == s[i + k];
    }
  }

  /** `đ` read as the `d` it is written with when diacritics are left off. */
  function FoldStroke(s: string): (r: string)
    ensures |r| == |s|
    ensures forall i :: 0 <= i < |s| ==> r[i] == if s[i] == 'đ' then 'd' else s[i]
  {
    seq(|s|, i requires 0 <= i < |s| => if s[i] == 'đ' then 'd' else s[i])
  }

  /** No `đ` left in the text. */
  predicate Unstroked(s: string) {
    forall i :: 0 <= i < |s| ==> s[i] != 'đ'
  }

  /**
   * The normalisation the rest of this model uses: `normalizeMessage` with
   * `đ` also read as `d`, so that "đồ" and "do" normalise alike.
   */
  function Normalize(message: string): (r: string)
    ensures AllNormal(r) && Trimmed(r) && Unstroked(r)
    ensures |r| == |NormalizeAsWritten(message)|
  {
    var x := NormalizeAsWritten(message);
    FoldKeepsNormal(x);
    FoldStroke(x)
  }

  /** Reading `đ` as `d` keeps text normal and its ends free of white space, and leaves no `đ`. */
  lemma FoldKeepsNormal(x: string)
    requires AllNormal(x) && Trimmed(x)
    ensures AllNormal(FoldStroke(x)) && Trimmed(FoldStroke(x)) && Unstroked(FoldStroke(x))
  {
    var r := FoldStroke(x);
    assert Normal('d') && !Text.IsSpace('d');
    forall i | 0 <= i < |r| ensures Normal(r[i]) {
      assert r[i] == 'd' || r[i] == x[i];
    }
  }

  /** Lower-case ASCII without surrounding white space: the keyword tables are written this way. */
  predicate AsciiKeyword(s: string) {
    && (forall i :: 0 <= i < |s| ==> s[i] as int < 0x80 && !Text.IsAsciiUpper(s[i]))
    && (s == [] || (!Text.IsSpace(s[0]) && !Text.IsSpace(s[|s| - 1])))
  }

  /** Both normalisations leave such a string as it is, so every ASCII keyword can match. */
  lemma NormalizeKeepsAscii(s: string)
    requires AsciiKeyword(s)
    ensures NormalizeAsWritten(s) == s
    ensures Normalize(s) == s
  {
    AsciiUnchanged(s);
    Text.TrimUnchanged(s);
    assert NormalizeAsWritten(s) == s;
    assert forall i :: 0 <= i < |s| ==> s[i] != 'đ';
    assert FoldStroke(s) == s;
  }

  /** Lower-casing and deleting marks leave lower-case ASCII as it is. */
  lemma AsciiUnchanged(s: string)
    requires forall i :: 0 <= i < |s| ==> s[i] as int < 0x80 && !Text.IsAsciiUpper(s[i])
    ensures Text.Lower(s) == s && StripMarks(s) == s
  {
    assert forall i :: 0 <= i < |s| ==> !Text.IsVietnameseUpper(s[i]) && Plain(s[i]);
    assert Text.Lower(s) == s;
  }

  // ---------------------------------------------------------------------
  // Categories

  /** The six categories the keyword table leads to. */
  datatype Category = Electronics | Clothing | Household | Books | Toys | Furniture

  /** The category name as items carry it and as the answer prints it. */
  function Label(c: Category): string {
    match c
    case Electronics => "Đồ điện tử"
    case Clothing => "Quần áo"
    case Household => "Đồ gia dụng"
    case Books => "Sách"
    case Toys => "Đồ chơi"
    case Furniture => "Nội thất"
  }

  /** The category keywords in the order the source's object literal lists them, with their category. */
  const CategoryMap: seq<(string, Category)> := [
    ("đồ điện tử", Electronics),
    ("dien tu", Electronics),
    ("quần áo", Clothing),
    ("quan ao", Clothing),
    ("áo quần", Clothing),
    ("ao quan", Clothing),
    ("đồ gia dụng", Household),
    ("do gia dung", Household),
    ("gia dụng", Household),
    ("gia dung", Household),
    ("sách", Books),
    ("do choi", Toys),
    ("đồ chơi", Toys),
    ("noi that", Furniture),
    ("nội thất", Furniture)
  ]

  /** The category of the first keyword in `table` that occurs in `message`. */
  function FirstCategory(message: string, table: seq<(string, Category)>): (r: Option<Category>)
    ensures r.None? <==> forall i :: 0 <= i < |table| ==> !Text.Contains(message, table[i].0)
    ensures r.Some? ==> exists i :: (0 <= i < |table| && Text.Contains(message, table[i].0) && r.value == table[i].1
      && forall j :: 0 <= j < i ==> !Text.Contains(message, table[j].0))
  {
    match Collections.FirstIndex(table, (e: (string, Category)) => Text.Contains(message, e.0))
    case None => None
    case Some(i) => Some(table[i].1)
  }

  /**
   * `extractCategory` as written: the keywords are compared as they are
   * spelled in the table, and the first one, in table order, that occurs in
   * the message decides.
   */
  function ExtractCategoryAsWritten(message: string): (r: Option<Category>)
    ensures r.None? <==> forall i :: 0 <= i < |CategoryMap| ==> !Text.Contains(message, CategoryMap[i].0)
    ensures r.Some? ==> exists i :: (0 <= i < |CategoryMap| && Text.Contains(message, CategoryMap[i].0)
      && r.value == CategoryMap[i].1 && forall j :: 0 <= j < i ==> !Text.Contains(message, CategoryMap[j].0))
  {
    FirstCategory(message, CategoryMap)
  }

  /** The category table with every keyword put through the same normalisation as the message. */
  function NormalizedMap(): (r: seq<(string, Category)>)
    ensures |r| == |CategoryMap|
    ensures forall i :: 0 <= i < |r| ==> r[i] == (Normalize(CategoryMap[i].0), CategoryMap[i].1)
  {
    seq(|CategoryMap|, i requires 0 <= i < |CategoryMap| => (Normalize(CategoryMap[i].0), CategoryMap[i].1))
  }

  /**
   * `extractCategory` with the keywords normalised like the message they are
   * looked up in: the first keyword, in table order, whose normal form occurs
   * in the message decides.
   */
  function ExtractCategory(message: string): (r: Option<Category>)
    ensures r.None? <==> forall i :: 0 <= i < |CategoryMap| ==> !Text.Contains(message, Normalize(CategoryMap[i].0))
    ensures r.Some? ==> exists i :: (0 <= i < |CategoryMap| && Text.Contains(message, Normalize(CategoryMap[i].0))
      && r.value == CategoryMap[i].1 && forall j :: 0 <= j < i ==> !Text.Contains(message, Normalize(CategoryMap[j].0)))
  {
    FirstNormalized(message, CategoryMap, NormalizedMap());
    FirstCategory(message, NormalizedMap())
  }

  /** Looking a message up in a table of normalised keywords reads as looking up the keywords' normal forms. */
  lemma FirstNormalized(message: string, base: seq<(string, Category)>, table: seq<(string, Category)>)
    requires |table| == |base|
    requires forall i :: 0 <= i < |table| ==> table[i] == (Normalize(base[i].0), base[i].1)
    ensures var r := FirstCategory(message, table);
      && (r.None? <==> forall i :: 0 <= i < |base| ==> !Text.Contains(message, Normalize(base[i].0)))
      && (r.Some? ==> exists i :: (0 <= i < |base| && Text.Contains(message, Normalize(base[i].0))
        && r.value == base[i].1 && forall j :: 0 <= j < i ==> !Text.Contains(message, Normalize(base[j].0))))
  {
    var r := FirstCategory(message, table);
    if r.Some? {
      var i :| 0 <= i < |table| && Text.Contains(message, table[i].0) && r.value == table[i].1
        && forall j :: 0 <= j < i ==> !Text.Contains(message, table[j].0);
      assert Text.Contains(message, Normalize(base[i].0)) && r.value == base[i].1;
    }
  }

  /** The keyword for books keeps an accented letter, which no normalised text contains. */
  lemma BooksKeywordAccented(n: string)
    requires AllNormal(n)
    ensures !Text.Contains(n, CategoryMap[10].0)
  {
    var key := CategoryMap[10].0;
    assert key[1] == 'á';
    if Text.Contains(n, key) {
      Text.ContainedCharsOccur(n, key, 1);
      assert false;
    }
  }

  /** "sách" is the only keyword for books. */
  lemma OnlyBooksKeyword(i: nat)
    requires i < |CategoryMap| && CategoryMap[i].1 == Books
    ensures i == 10
  {
  }

  /**
   * As written, the keyword "sách" keeps its accent while the message it is
   * looked up in has lost every accent, so no message ever yields the
   * category "Sách".
   */
  lemma BooksNeverExtractedAsWritten(message: string)
    ensures ExtractCategoryAsWritten(NormalizeAsWritten(message)) != Some(Books)
  {
    var n := NormalizeAsWritten(message);
    BooksKeywordAccented(n);
    var r := FirstCategory(n, CategoryMap);
    if r == Some(Books) {
      var i :| 0 <= i < |CategoryMap| && Text.Contains(n, CategoryMap[i].0) && r.value == CategoryMap[i].1;
      OnlyBooksKeyword(i);
      assert false;
    }
  }

  /** The letters every plain keyword of the table needs one of: each has a "d", "g", "h" or "q". */
  predicate KeyLetter(c: char) {
    c == 'd' || c == 'g' || c == 'h' || c == 'q'
  }

  /**
   * A normalised text without those letters contains no keyword as the
   * table spells it: each accented keyword has a letter normalisation
   * removes, and each plain one one of the four letters.
   */
  lemma KeywordsNeedKeyLetter(n: string)
    requires Clean(n)
    ensures forall i :: 0 <= i < |CategoryMap| ==> !Text.Contains(n, CategoryMap[i].0)
  {
    TableUnmatchable();
    NoKeyOccurs(n, CategoryMap);
  }

  /** Normal text without the four letters, one character at a time. */
  predicate Clean(n: string) {
    |n| == 0 || (Normal(n[0]) && !KeyLetter(n[0]) && Clean(n[1..]))
  }

  lemma {:induction false} CleanIff(n: string)
    ensures Clean(n) <==> AllNormal(n) && forall i :: 0 <= i < |n| ==> !KeyLetter(n[i])
  {
    if |n| > 0 {
      CleanIff(n[1..]);
      assert forall i :: 0 < i < |n| ==> n[i] == n[1..][i - 1];
    }
  }

  /** Each keyword of the table has an unmatchable letter somewhere. */
  predicate HasUnmatchable(key: string) {
    exists k :: 0 <= k < |key| && Unmatchable(key[k])
  }

  lemma TableUnmatchable()
    ensures forall i :: 0 <= i < |CategoryMap| ==> HasUnmatchable(CategoryMap[i].0)
  {
    forall i | 0 <= i < |CategoryMap| ensures HasUnmatchable(CategoryMap[i].0) {
      var k := KeyWitness(CategoryMap[i].0, i);
    }
  }

  /** No keyword with an unmatchable letter occurs in a normalised text without the four letters. */
  lemma NoKeyOccurs(n: string, table: seq<(string, Category)>)
    requires Clean(n)
    requires forall i :: 0 <= i < |table| ==> HasUnmatchable(table[i].0)
    ensures forall i :: 0 <= i < |table| ==> !Text.Contains(n, table[i].0)
  {
    CleanIff(n);
    forall i | 0 <= i < |table| ensures !Text.Contains(n, table[i].0) {
      var k :| 0 <= k < |table[i].0| && Unmatchable(table[i].0[k]);
      LetterAbsent(n, table[i].0, k);
    }
  }

  /** A letter that normalisation removes, or one of the four letters. */
  predicate Unmatchable(c: char) {
    !Normal(c) || KeyLetter(c)
  }

  /** A position of keyword `i` holding an unmatchable letter. */
  lemma KeyWitness(key: string, i: nat) returns (k: nat)
    requires i < |CategoryMap| && key == CategoryMap[i].0
    ensures k < |key| && Unmatchable(key[k])
  {
    k := [1, 0, 2, 0, 0, 3, 1, 0, 5, 0, 1, 0, 1, 5, 1][i];
    if i == 0 { assert key[k] == 'ồ'; }
    else if i == 1 { assert key[k] == 'd'; }
    else if i == 2 { assert key[k] == 'ầ'; }
    else if i == 3 { assert key[k] == 'q'; }
    else if i == 4 { assert key[k] == 'á'; }
    else if i == 5 { assert key[k] == 'q'; }
    else if i == 6 { assert key[k] == 'ồ'; }
    else if i == 7 { assert key[k] == 'd'; }
    else if i == 8 { assert key[k] == 'ụ'; }
    else if i == 9 { assert key[k] == 'g'; }
    else if i == 10 { assert key[k] == 'á'; }
    else if i == 11 { assert key[k] == 'd'; }
    else if i == 12 { assert key[k] == 'ồ'; }
    else if i == 13 { assert key[k] == 'h'; }
    else { assert key[k] == 'ộ'; }
  }

  /** A string whose `k`-th letter cannot occur in `n` does not occur in `n`. */
  lemma LetterAbsent(n: string, key: string, k: nat)
    requires AllNormal(n) && forall i :: 0 <= i < |n| ==> !KeyLetter(n[i])
    requires k < |key| && Unmatchable(key[k])
    ensures !Text.Contains(n, key)
  {
    if Text.Contains(n, key) {
      Text.ContainedCharsOccur(n, key, k);
    }
  }

  /**
   * As written, a message in lower case without a "d", "g", "h" or "q" finds
   * no category, whatever accented keyword it spells out: "đ" is not "d".
   */
  lemma NoCategoryWithoutKeyLetter(message: string)
    requires forall i :: 0 <= i < |message| ==>
      !Text.IsAsciiUpper(message[i]) && !Text.IsVietnameseUpper(message[i]) && !KeyLetter(message[i])
    ensures ExtractCategoryAsWritten(NormalizeAsWritten(message)) == None
  {
    NormalizedClean(message);
    KeywordsNeedKeyLetter(NormalizeAsWritten(message));
  }

  /** Normalising such a message keeps it free of the four letters. */
  lemma NormalizedClean(message: string)
    requires forall i :: 0 <= i < |message| ==>
      !Text.IsAsciiUpper(message[i]) && !Text.IsVietnameseUpper(message[i]) && !KeyLetter(message[i])
    ensures Clean(NormalizeAsWritten(message))
  {
    var lowered := Text.Lower(message);
    assert lowered == message;
    var stripped := StripMarks(lowered);
    assert forall i :: 0 <= i < |stripped| ==> !KeyLetter(stripped[i]) by {
      forall i | 0 <= i < |stripped| ensures !KeyLetter(stripped[i]) {
        if stripped[i] in message {
          var j :| 0 <= j < |message| && message[j] == stripped[i];
        }
      }
    }
    var n := NormalizeAsWritten(message);
    var a, b :| 0 <= a <= b <= |stripped| && n == stripped[a..b];
    assert forall i :: 0 <= i < |n| ==> n[i] == stripped[a + i];
    CleanIff(n);
  }

  /**
   * The query the assistant itself suggests, "tìm đồ điện tử", finds no
   * category as written: it normalises to "tim đo đien tu", which holds
   * neither "đồ điện tử" nor "dien tu".
   */
  lemma ElectronicsQueryFindsNothing()
    ensures ExtractCategoryAsWritten(NormalizeAsWritten("tìm đồ điện tử")) == None
  {
    var m := "tìm đồ điện tử";
    assert forall i :: 0 <= i < |m| ==> m[i] in {'t', 'ì', 'm', ' ', 'đ', 'ồ', 'i', 'ệ', 'n', 'ử'};
    NoCategoryWithoutKeyLetter(m);
  }

  /** With normalised keywords every keyword of the table, written as a user would, selects a category. */
  lemma EveryKeywordRecognised(i: nat)
    requires i < |CategoryMap|
    ensures ExtractCategory(Normalize(CategoryMap[i].0)).Some?
  {
    Text.ContainsSelf(Normalize(CategoryMap[i].0));
    assert NormalizedMap()[i].0 == Normalize(CategoryMap[i].0);
  }

  /** A normalised message that contains a normalised keyword yields a category. */
  lemma MentionedCategoryFound(message: string, i: nat)
    requires i < |CategoryMap|
    requires Text.Contains(Normalize(message), Normalize(CategoryMap[i].0))
    ensures ExtractCategory(Normalize(message)).Some?
  {
    assert NormalizedMap()[i].0 == Normalize(CategoryMap[i].0);
  }

  // ---------------------------------------------------------------------
  // Intents

  datatype Intent = Greeting | Help | Search | Trade | QrCode | Reputation | Other

  /** The intents in the order they are tried, each with its keywords. */
  const IntentTable: seq<(Intent, seq<string>)> := [
    (Greeting, ["xin chao", "hello", "chao"]),
    (Help, ["giup", "help", "huong dan"]),
    (Search, ["tim", "search", "co do"]),
    (Trade, ["doi", "tang", "ban"]),
    (QrCode, ["qr", "ma"]),
    (Reputation, ["danh gia", "uy tin", "review"])
  ]

  predicate MentionsAny(message: string, keywords: seq<string>) {
    exists k :: 0 <= k < |keywords| && Text.Contains(message, keywords[k])
  }

  /** The first intent, in table order, one of whose keywords occurs in the message; `Other` when none does. */
  function Classify(message: string): (r: Intent)
    ensures r == Other <==> forall i :: 0 <= i < |IntentTable| ==> !MentionsAny(message, IntentTable[i].1)
    ensures r != Other ==> exists i :: (0 <= i < |IntentTable| && IntentTable[i].0 == r
      && MentionsAny(message, IntentTable[i].1)
      && forall j :: 0 <= j < i ==> !MentionsAny(message, IntentTable[j].1))
  {
    match Collections.FirstIndex(IntentTable, (e: (Intent, seq<string>)) => MentionsAny(message, e.1))
    case None => Other
    case Some(i) => IntentTable[i].0
  }

  /** A greeting keyword decides the intent whatever else the message says. */
  lemma GreetingComesFirst(message: string, k: nat)
    requires k < |IntentTable[0].1| && Text.Contains(message, IntentTable[0].1[k])
    ensures Classify(message) == Greeting
  {
    assert MentionsAny(message, IntentTable[0].1);
  }

  /** A search keyword selects the search intent unless a greeting or help keyword occurs too. */
  lemma SearchUnlessGreetingOrHelp(message: string, k: nat)
    requires k < |IntentTable[2].1| && Text.Contains(message, IntentTable[2].1[k])
    requires !MentionsAny(message, IntentTable[0].1) && !MentionsAny(message, IntentTable[1].1)
    ensures Classify(message) == Search
  {
    assert MentionsAny(message, IntentTable[2].1);
  }

  // ---------------------------------------------------------------------
  // Answers

  /** Which answer the assistant gives; `Render` spells each one out. */
  datatype Answer =
    | Greeted
    | Guide
    | Listing(category: Category, items: seq<Item>)
    | AskCategory
    | TradeKinds
    | QrGuide
    | ReputationGuide
    | NotUnderstood(message: string)

  function CreatedAt(x: Item): int { x.createdAt }

  /** `where: { category: { contains: category }, status: 'available' }`. */
  predicate Listed(x: Item, category: string) {
    x.status == Available && Text.Contains(x.category, category)
  }

  /** The five newest available items whose category contains the given name. */
  function SearchResults(s: Store, category: string): (r: seq<Item>)
    ensures |r| <= SearchLimit
    ensures Collections.SortedDesc(r, CreatedAt)
    ensures forall x :: x in r ==> x in s.items && Listed(x, category)
    ensures forall x :: x in s.items && Listed(x, category) && x !in r ==>
      |r| == SearchLimit && forall k :: 0 <= k < |r| ==> r[k].createdAt >= x.createdAt
  {
    Collections.Newest(s.items, (x: Item) => Listed(x, category), CreatedAt, SearchLimit)
  }

  /**
   * The keyword answer once the message reads as `n` and `extract` finds the
   * category in it: the first intent `n` shows decides, and a search lists
   * the items of the category found, or asks for one.
   */
  function Choose(s: Store, message: string, n: string, extract: string -> Option<Category>): (a: Answer)
    ensures a == Greeted <==> Classify(n) == Greeting
    ensures a == Guide <==> Classify(n) == Help
    ensures a.Listing? <==> Classify(n) == Search && extract(n).Some?
    ensures a.Listing? ==> Some(a.category) == extract(n) && a.items == SearchResults(s, Label(a.category))
    ensures a == AskCategory <==> Classify(n) == Search && extract(n).None?
    ensures a == TradeKinds <==> Classify(n) == Trade
    ensures a == QrGuide <==> Classify(n) == QrCode
    ensures a == ReputationGuide <==> Classify(n) == Reputation
    ensures a.NotUnderstood? <==> Classify(n) == Other
    ensures a.NotUnderstood? ==> a.message == message
  {
    match Classify(n)
    case Greeting => Greeted
    case Help => Guide
    case Search =>
      (match extract(n)
       case Some(c) => Listing(c, SearchResults(s, Label(c)))
       case None => AskCategory)
    case Trade => TradeKinds
    case QrCode => QrGuide
    case Reputation => ReputationGuide
    case Other => NotUnderstood(message)
  }

  /**
   * The keyword answer as the handler gives it, once the upstream model has
   * not answered: `normalizeMessage` and `extractCategory` as written.
   */
  function RespondAsWritten(s: Store, message: string): (a: Answer)
    ensures var n := NormalizeAsWritten(message);
      && (a == Greeted <==> Classify(n) == Greeting)
      && (a == Guide <==> Classify(n) == Help)
      && (a.Listing? <==> Classify(n) == Search && ExtractCategoryAsWritten(n).Some?)
      && (a.Listing? ==> Some(a.category) == ExtractCategoryAsWritten(n) && a.items == SearchResults(s, Label(a.category)))
      && (a == AskCategory <==> Classify(n) == Search && ExtractCategoryAsWritten(n).None?)
      && (a == TradeKinds <==> Classify(n) == Trade)
      && (a == QrGuide <==> Classify(n) == QrCode)
      && (a == ReputationGuide <==> Classify(n) == Reputation)
      && (a.NotUnderstood? <==> Classify(n) == Other)
      && (a.NotUnderstood? ==> a.message == message)
  {
    Choose(s, message, NormalizeAsWritten(message), ExtractCategoryAsWritten)
  }

  /**
   * The keyword answer with the corrected normalisation: `đ` read as `d`,
   * and the keywords normalised like the message.
   */
  function Respond(s: Store, message: string): (a: Answer)
    ensures var n := Normalize(message);
      && (a == Greeted <==> Classify(n) == Greeting)
      && (a == Guide <==> Classify(n) == Help)
      && (a.Listing? <==> Classify(n) == Search && ExtractCategory(n).Some?)
      && (a.Listing? ==> Some(a.category) == ExtractCategory(n) && a.items == SearchResults(s, Label(a.category)))
      && (a == AskCategory <==> Classify(n) == Search && ExtractCategory(n).None?)
      && (a == TradeKinds <==> Classify(n) == Trade)
      && (a == QrGuide <==> Classify(n) == QrCode)
      && (a == ReputationGuide <==> Classify(n) == Reputation)
      && (a.NotUnderstood? <==> Classify(n) == Other)
      && (a.NotUnderstood? ==> a.message == message)
  {
    Choose(s, message, Normalize(message), ExtractCategory)
  }

  /**
   * Without a `đ` in the normalised message the two normalisations agree, so
   * the correction changes nothing but the category a search finds.
   */
  lemma CorrectionOnlyMovesSearch(s: Store, message: string)
    requires Unstroked(NormalizeAsWritten(message))
    ensures Normalize(message) == NormalizeAsWritten(message)
    ensures Classify(Normalize(message)) != Search ==> Respond(s, message) == RespondAsWritten(s, message)
  {
    var x := NormalizeAsWritten(message);
    assert forall i :: 0 <= i < |x| ==> FoldStroke(x)[i] == x[i];
  }

  /** An ASCII letter other than `o` and `i`: every intent keyword starts with one. */
  predicate KeywordLead(c: char) {
    'a' <= c <= 'z' && c != 'o' && c != 'i'
  }

  /** The letters the greeting, help and search keywords start with. */
  predicate EarlyLead(c: char) {
    c == 'c' || c == 'g' || c == 'h' || c == 's' || c == 't' || c == 'x'
  }

  /** Every intent keyword starts with such a letter; those of greeting, help and search with c, g, h, s, t or x. */
  lemma IntentKeywordLeads(i: nat, k: nat)
    requires i < |IntentTable| && k < |IntentTable[i].1|
    ensures |IntentTable[i].1[k]| > 0 && KeywordLead(IntentTable[i].1[k][0])
    ensures i < 3 ==> EarlyLead(IntentTable[i].1[k][0])
  {
  }

  /** A text without any of those letters shows no intent. */
  lemma NoLeadNoIntent(n: string)
    requires forall j :: 0 <= j < |n| ==> !KeywordLead(n[j])
    ensures Classify(n) == Other
  {
    forall i, k | 0 <= i < |IntentTable| && 0 <= k < |IntentTable[i].1|
      ensures !Text.Contains(n, IntentTable[i].1[k])
    {
      IntentKeywordLeads(i, k);
      if Text.Contains(n, IntentTable[i].1[k]) {
        Text.ContainedCharsOccur(n, IntentTable[i].1[k], 0);
      }
    }
  }

  /** Greeting, help and search keywords all start with c, g, h, s, t or x. */
  lemma EarlyIntentsAbsent(n: string)
    requires forall j :: 0 <= j < |n| ==> !EarlyLead(n[j])
    ensures forall i :: 0 <= i < 3 ==> !MentionsAny(n, IntentTable[i].1)
  {
    forall i | 0 <= i < 3 ensures !MentionsAny(n, IntentTable[i].1) {
      forall k | 0 <= k < |IntentTable[i].1| ensures !Text.Contains(n, IntentTable[i].1[k]) {
        IntentKeywordLeads(i, k);
        if Text.Contains(n, IntentTable[i].1[k]) {
          Text.ContainedCharsOccur(n, IntentTable[i].1[k], 0);
        }
      }
    }
  }

  lemma TradeKeyword(n: string)
    requires Text.Contains(n, "doi")
    ensures MentionsAny(n, IntentTable[3].1)
  {
    assert IntentTable[3].1[0] == "doi";
  }

  /** When the first three intents show no keyword and the fourth does, the fourth decides. */
  lemma FourthIntentFirst(n: string)
    requires forall i :: 0 <= i < 3 ==> !MentionsAny(n, IntentTable[i].1)
    requires MentionsAny(n, IntentTable[3].1)
    ensures Classify(n) == Trade
  {
    var r := Classify(n);
    var i :| 0 <= i < |IntentTable| && IntentTable[i].0 == r && MentionsAny(n, IntentTable[i].1)
      && forall j :: 0 <= j < i ==> !MentionsAny(n, IntentTable[j].1);
    assert i == 3;
    assert IntentTable[3].0 == Trade;
  }

  /** "đổi đồ" ("swap things") normalises to "đoi đo" as written, and to "doi do" corrected. */
  lemma TradeQueryNormalised()
    ensures NormalizeAsWritten("đổi đồ") == "đoi đo"
    ensures Normalize("đổi đồ") == "doi do"
  {
    TradeQueryAsWritten();
    TradeQueryFolded();
  }

  lemma TradeQueryAsWritten()
    ensures NormalizeAsWritten("đổi đồ") == "đoi đo"
  {
    TradeQueryLower();
    TradeQueryStripped();
    TradeQueryTrimmed();
  }

  lemma TradeQueryTrimmed()
    ensures Text.Trim("đoi đo") == "đoi đo"
  {
    var n := "đoi đo";
    assert n[0] == 'đ' && n[|n| - 1] == 'o';
    Text.TrimUnchanged(n);
  }

  lemma TradeQueryFolded()
    ensures FoldStroke("đoi đo") == "doi do"
  {
  }

  lemma TradeQueryLower()
    ensures Text.Lower("đổi đồ") == "đổi đồ"
  {
    var m := "đổi đồ";
    TradeCharsLower();
    assert forall i :: 0 <= i < |m| ==> m[i] == 'đ' || m[i] == 'ổ' || m[i] == 'i' || m[i] == ' ' || m[i] == 'ồ';
    LowerKeeps(m);
  }

  lemma TradeCharsLower()
    ensures forall c :: c == 'đ' || c == 'ổ' || c == 'i' || c == ' ' || c == 'ồ' ==> !Text.IsAsciiUpper(c) && !Text.IsVietnameseUpper(c)
  {
  }

  /** Text without upper-case letters is its own lower case. */
  lemma LowerKeeps(s: string)
    requires forall i :: 0 <= i < |s| ==> !Text.IsAsciiUpper(s[i]) && !Text.IsVietnameseUpper(s[i])
    ensures Text.Lower(s) == s
  {
  }

  lemma TradeQueryStripped()
    ensures StripMarks("đổi đồ") == "đoi đo"
  {
    var m := "đổi đồ";
    assert StripMarks(m[5..]) == "o";
    assert StripMarks(m[4..]) == "đo";
    assert StripMarks(m[3..]) == " đo";
    assert StripMarks(m[2..]) == "i đo";
    assert StripMarks(m[1..]) == "oi đo";
  }

  /**
   * As written, "đổi đồ" matches no intent keyword, since "doi" is spelled
   * with `d` and the message keeps its `đ`: it gets the fallback. Corrected,
   * it gets the answer about the kinds of trade.
   */
  lemma TradeQueryFallsThroughAsWritten(p: Phrases, s: Store)
    ensures ReplyAsWritten(p, s, JStr("đổi đồ"), None) == Ok(200, ChatReply(Render(p, s, NotUnderstood("đổi đồ")), None, None))
    ensures Reply(p, s, JStr("đổi đồ"), None) == Ok(200, ChatReply(p.trade, None, None))
  {
    TradeQueryOtherAsWritten();
    TradeQueryTradeCorrected();
    OtherAndTradeReplies(p, s, "đổi đồ");
  }

  /** A message read as no intent as written and as trade corrected gets the fallback and the trade answer. */
  lemma OtherAndTradeReplies(p: Phrases, s: Store, m: string)
    requires m != ""
    requires Classify(NormalizeAsWritten(m)) == Other && Classify(Normalize(m)) == Trade
    ensures ReplyAsWritten(p, s, JStr(m), None) == Ok(200, ChatReply(Render(p, s, NotUnderstood(m)), None, None))
    ensures Reply(p, s, JStr(m), None) == Ok(200, ChatReply(p.trade, None, None))
  {
    OtherReply(p, s, m);
    TradeReply(p, s, m);
  }

  lemma OtherReply(p: Phrases, s: Store, m: string)
    requires m != "" && Classify(NormalizeAsWritten(m)) == Other
    ensures ReplyAsWritten(p, s, JStr(m), None) == Ok(200, ChatReply(Render(p, s, NotUnderstood(m)), None, None))
  {
    RespondAsWrittenOther(s, m);
    KeywordReply(p, s, m, RespondAsWritten, NotUnderstood(m));
  }

  lemma RespondAsWrittenOther(s: Store, m: string)
    requires Classify(NormalizeAsWritten(m)) == Other
    ensures RespondAsWritten(s, m) == NotUnderstood(m)
  {
  }

  /** Without an upstream answer, a message is answered with the rendered keyword answer. */
  lemma KeywordReply(p: Phrases, s: Store, m: string, respond: (Store, string) -> Answer, a: Answer)
    requires m != "" && respond(s, m) == a
    ensures Handle(p, s, JStr(m), None, respond) == Ok(200, ChatReply(Render(p, s, a), None, None))
  {
  }

  lemma TradeReply(p: Phrases, s: Store, m: string)
    requires m != "" && Classify(Normalize(m)) == Trade
    ensures Reply(p, s, JStr(m), None) == Ok(200, ChatReply(p.trade, None, None))
  {
    RespondTrade(s, m);
    KeywordReply(p, s, m, Respond, TradeKinds);
  }

  lemma RespondTrade(s: Store, m: string)
    requires Classify(Normalize(m)) == Trade
    ensures Respond(s, m) == TradeKinds
  {
  }

  lemma TradeQueryOtherAsWritten()
    ensures Classify(NormalizeAsWritten("đổi đồ")) == Other
  {
    TradeQueryLettersAsWritten();
    NoLeadNoIntent(NormalizeAsWritten("đổi đồ"));
  }

  lemma TradeQueryLettersAsWritten()
    ensures var n := NormalizeAsWritten("đổi đồ"); forall j :: 0 <= j < |n| ==> !KeywordLead(n[j])
  {
    TradeQueryAsWritten();
    TradeWordsLetters();
  }

  /** The letters of the two normalised forms of "đổi đồ". */
  lemma TradeWordsLetters()
    ensures var n := "đoi đo"; forall j :: 0 <= j < |n| ==> !KeywordLead(n[j])
    ensures var n := "doi do"; forall j :: 0 <= j < |n| ==> !EarlyLead(n[j])
    ensures Text.Contains("doi do", "doi")
  {
    assert "doi do" == "doi" + " do";
    Text.ContainsSelf("doi");
    Text.ContainsBefore("doi", " do", "doi");
  }

  lemma TradeQueryTradeCorrected()
    ensures Classify(Normalize("đổi đồ")) == Trade
  {
    var n := Normalize("đổi đồ");
    TradeQueryLettersCorrected();
    EarlyIntentsAbsent(n);
    TradeKeyword(n);
    FourthIntentFirst(n);
  }

  lemma TradeQueryLettersCorrected()
    ensures var n := Normalize("đổi đồ");
      && (forall j :: 0 <= j < |n| ==> !EarlyLead(n[j]))
      && Text.Contains(n, "doi")
  {
    TradeQueryNormalised();
    TradeWordsLetters();
  }

  /** Only a search that found a category looks at the store. */
  lemma OnlySearchReadsStore(s: Store, s': Store, message: string)
    requires !Respond(s, message).Listing?
    ensures Respond(s', message) == Respond(s, message)
  {
  }

  /** A greeting keyword in the normalised message always gets the greeting. */
  lemma GreetingAnswered(s: Store, message: string, k: nat)
    requires k < |IntentTable[0].1| && Text.Contains(Normalize(message), IntentTable[0].1[k])
    ensures Respond(s, message) == Greeted
  {
    GreetingComesFirst(Normalize(message), k);
  }

  /**
   * The fixed texts of the answers. The rendering and the reply are stated
   * for any phrase book; `SourcePhrases` holds the handler's own wording.
   */
  datatype Phrases = Phrases(
    greeting: string,
    help: string,
    askCategory: string,
    trade: string,
    qr: string,
    reputation: string,
    footer: string,
    fallbackHead: string,
    fallbackTail: string)

  const SourcePhrases := Phrases(
    "Xin chào! Tôi là trợ lý AI của ứng dụng Đổi đồ cũ. Tôi có thể giúp bạn:\n• Tìm đồ theo danh mục\n• Tư vấn về cách đăng đồ\n• Hướng dẫn sử dụng ứng dụng\n• Trả lời câu hỏi về giao dịch\n\nBạn cần hỗ trợ gì?",
    "Tôi có thể giúp bạn:\n1. **Tìm đồ**: Hãy nói \"tìm đồ điện tử\" hoặc \"tìm quần áo\"\n2. **Đăng đồ**: Vào trang \"Đăng đồ\" và điền thông tin\n3. **Giao dịch**: Đổi đồ, Tặng miễn phí, Bán giá rẻ\n4. **Chat**: Nhắn tin trực tiếp với người bán\n5. **QR Code**: Mỗi đồ có QR code để quét và xác nhận\n\nBạn muốn biết thêm về điều gì?",
    "Bạn muốn tìm đồ gì? Hãy nói rõ danh mục như:\n• Đồ điện tử\n• Quần áo\n• Đồ gia dụng\n• Sách\n• Đồ chơi\n• Nội thất",
    "Ứng dụng hỗ trợ 3 hình thức giao dịch:\n1. **Đổi đồ**: Trao đổi đồ 1-1 với người khác\n2. **Tặng miễn phí**: Cho đồ miễn phí cho người cần\n3. **Bán giá rẻ**: Bán đồ với giá hợp lý\n\nKhi đăng đồ, bạn chọn hình thức phù hợp. Sau đó người khác có thể liên hệ qua chat hoặc yêu cầu giao dịch.",
    "QR Code giúp bạn:\n• Mỗi đồ có một QR code duy nhất\n• Quét QR để xem thông tin nhanh\n• Xác nhận giao dịch trực tiếp\n• Lưu lịch sử giao dịch tự động\n\nBạn có thể xem QR code trong trang chi tiết.",
    "Hệ thống đánh giá giúp:\n• Đánh giá người dùng sau giao dịch (1-5 sao)\n• Tính điểm uy tín tự động\n• Hiển thị trong hồ sơ người dùng\n• Giúp người khác tin tưởng hơn\n\nSau khi hoàn thành giao dịch, bạn có thể đánh giá đối tác.",
    "Bạn có thể xem chi tiết bằng cách click vào link hoặc tìm kiếm trên trang \"Tất cả đồ\".",
    "Tôi hiểu bạn đang hỏi về: \"",
    "\"\n\nTôi có thể giúp bạn:\n• Tìm đồ theo danh mục\n• Hướng dẫn sử dụng ứng dụng\n• Giải thích các tính năng\n• Tư vấn về giao dịch\n\nHãy thử hỏi: \"tìm đồ điện tử\" hoặc \"hướng dẫn đăng đồ\"")

  const AnonymousName := "Người dùng ẩn danh"
  const FoundHead := "Tôi tìm thấy "
  const FoundMiddle := " đồ trong danh mục \""
  const FoundTail := "\":\n"
  const NothingHead := "Hiện chưa có đồ nào trong danh mục \""
  const NothingTail := "\". Bạn có thể đăng đồ đầu tiên!"
  const PostedBy := "   Người đăng: "
  const SeeAt := "   Xem tại: "

  /** `item.user?.name || 'Người dùng ẩn danh'`. */
  function OwnerName(s: Store, x: Item): string {
    match FindUser(s.users, x.userId)
    case Some(u) => if u.name != "" then u.name else AnonymousName
    case None => AnonymousName
  }

  /** ` (city)` when the owner has a city, else nothing. */
  function OwnerCity(s: Store, x: Item): string {
    match FindUser(s.users, x.userId)
    case Some(u) => if Given(u.city) then " (" + u.city.value + ")" else ""
    case None => ""
  }

  /** The link the answer gives for an item. */
  function ItemLink(x: Item): string {
    "/items/" + Text.NatToString(x.id)
  }

  /** The three lines of the `number`-th listed item (counted from 1) and the blank line after them. */
  function Entry(s: Store, number: nat, x: Item): (r: string)
    ensures Text.Contains(r, ItemLink(x))
  {
    var head := Text.NatToString(number) + ". " + x.title + " - " + x.condition + "\n"
      + PostedBy + OwnerName(s, x) + OwnerCity(s, x) + "\n" + SeeAt;
    Text.ContainsInside(head, ItemLink(x), "\n\n");
    head + ItemLink(x) + "\n\n"
  }

  function Entries(s: Store, items: seq<Item>, first: nat): string
    decreases |items|
  {
    if |items| == 0 then "" else Entry(s, first, items[0]) + Entries(s, items[1..], first + 1)
  }

  /** Every listed item's link appears in the listing. */
  lemma {:induction false} EntriesLinkEveryItem(s: Store, items: seq<Item>, first: nat, k: nat)
    requires k < |items|
    ensures Text.Contains(Entries(s, items, first), ItemLink(items[k]))
    decreases |items|
  {
    var entry := Entry(s, first, items[0]);
    var rest := Entries(s, items[1..], first + 1);
    assert Entries(s, items, first) == entry + rest;
    if k == 0 {
      Text.ContainsBefore(entry, rest, ItemLink(items[0]));
    } else {
      EntriesLinkEveryItem(s, items[1..], first + 1, k - 1);
      assert items[1..][k - 1] == items[k];
      Text.ContainsAfter(entry, rest, ItemLink(items[k]));
    }
  }

  /** The first line of a listing: how many items were found in the category. */
  function ListingHead(c: Category, count: nat): string {
    FoundHead + Text.NatToString(count) + FoundMiddle + Label(c) + FoundTail
  }

  /**
   * The text of each answer. A listing names its category and, when it found
   * something, says how many items and links every one of them; the fallback
   * quotes the message as the user sent it; the other answers are their
   * fixed phrases.
   */
  function Render(p: Phrases, s: Store, a: Answer): (r: string)
    ensures a.Listing? ==> Text.Contains(r, Label(a.category))
    ensures a.Listing? && |a.items| > 0 ==> Text.Contains(r, Text.NatToString(|a.items|))
    ensures a.Listing? ==> forall k :: 0 <= k < |a.items| ==> Text.Contains(r, ItemLink(a.items[k]))
    ensures a.NotUnderstood? ==> Text.Contains(r, a.message)
    ensures a.Greeted? ==> r == p.greeting
    ensures a.Guide? ==> r == p.help
    ensures a.AskCategory? ==> r == p.askCategory
    ensures a.TradeKinds? ==> r == p.trade
    ensures a.QrGuide? ==> r == p.qr
    ensures a.ReputationGuide? ==> r == p.reputation
  {
    match a
    case Greeted => p.greeting
    case Guide => p.help
    case Listing(c, items) =>
      if |items| > 0 then
        ListingMentions(p, s, c, items);
        ListingHead(c, |items|) + Entries(s, items, 1) + p.footer
      else
        Text.ContainsInside(NothingHead, Label(c), NothingTail);
        NothingHead + Label(c) + NothingTail
    case AskCategory => p.askCategory
    case TradeKinds => p.trade
    case QrGuide => p.qr
    case ReputationGuide => p.reputation
    case NotUnderstood(message) =>
      Text.ContainsInside(p.fallbackHead, message, p.fallbackTail);
      p.fallbackHead + message + p.fallbackTail
  }

  /** A listing that found something names the category and the count, and links every item. */
  lemma ListingMentions(p: Phrases, s: Store, c: Category, items: seq<Item>)
    requires |items| > 0
    ensures var r := ListingHead(c, |items|) + Entries(s, items, 1) + p.footer;
      && Text.Contains(r, Label(c))
      && Text.Contains(r, Text.NatToString(|items|))
      && forall k :: 0 <= k < |items| ==> Text.Contains(r, ItemLink(items[k]))
  {
    var head := ListingHead(c, |items|);
    HeadMentions(c, |items|);
    HeadPart(head, Entries(s, items, 1), p.footer, Label(c));
    HeadPart(head, Entries(s, items, 1), p.footer, Text.NatToString(|items|));
    EntriesLinkAll(s, items, head, p.footer);
  }

  /** The first line of a listing names the category and the count. */
  lemma HeadMentions(c: Category, count: nat)
    ensures Text.Contains(ListingHead(c, count), Label(c))
    ensures Text.Contains(ListingHead(c, count), Text.NatToString(count))
  {
    var n := Text.NatToString(count);
    Text.ContainsInside(FoundHead + n + FoundMiddle, Label(c), FoundTail);
    Text.ContainsInside(FoundHead, n, FoundMiddle + Label(c) + FoundTail);
    assert FoundHead + n + FoundMiddle + Label(c) + FoundTail == FoundHead + n + (FoundMiddle + Label(c) + FoundTail);
  }

  /** What the head of a text contains, the whole text contains. */
  lemma HeadPart(head: string, body: string, tail: string, t: string)
    requires Text.Contains(head, t)
    ensures Text.Contains(head + body + tail, t)
  {
    Text.ContainsBefore(head, body + tail, t);
    assert head + body + tail == head + (body + tail);
  }

  /** Every item's link survives whatever is put around the entries. */
  lemma EntriesLinkAll(s: Store, items: seq<Item>, head: string, tail: string)
    ensures forall k :: 0 <= k < |items| ==> Text.Contains(head + Entries(s, items, 1) + tail, ItemLink(items[k]))
  {
    forall k | 0 <= k < |items|
      ensures Text.Contains(head + Entries(s, items, 1) + tail, ItemLink(items[k]))
    {
      EntriesLinkEveryItem(s, items, 1, k);
      Text.ContainsExtend(Entries(s, items, 1), ItemLink(items[k]), head, tail);
    }
  }

  datatype ChatReply = ChatReply(response: string, intent: Option<string>, source: Option<string>)

  /**
   * POST /api/ai-chat, given how the keyword answer is chosen. `upstream` is
   * the text the upstream model answered with, already turned into a string,
   * when the API key is configured and the call succeeded; `None` when there
   * is no key, the call failed or no candidate text was found. A message
   * that is not a string makes the normalisation throw, which the handler
   * turns into a 500.
   */
  function Handle(p: Phrases, s: Store, message: Json, upstream: Option<string>, respond: (Store, string) -> Answer): (r: Response<ChatReply>)
    ensures r.Err? && r.status == 400 <==> !Truthy(message)
    ensures r.Err? && r.status == 500 <==> Truthy(message) && !message.JStr?
    ensures r.Err? && r.status == 400 ==> r.error == MissingMessage
    ensures r.Err? && r.status == 500 ==> r.error == Failure
    ensures r.Err? ==> r.status == 400 || r.status == 500
    ensures r.Ok? ==> r.status == 200 && message.JStr?
    ensures r.Ok? && Given(upstream) ==> r.body == ChatReply(upstream.value, Some("ai"), Some("gemini"))
    ensures r.Ok? && !Given(upstream) ==> r.body == ChatReply(Render(p, s, respond(s, message.s)), None, None)
  {
    if !Truthy(message) then Err(400, MissingMessage)
    else if !message.JStr? then Err(500, Failure)
    else if Given(upstream) then Ok(200, ChatReply(upstream.value, Some("ai"), Some("gemini")))
    else Ok(200, ChatReply(Render(p, s, respond(s, message.s)), None, None))
  }

  /** POST /api/ai-chat as written. */
  function ReplyAsWritten(p: Phrases, s: Store, message: Json, upstream: Option<string>): (r: Response<ChatReply>)
    ensures r.Err? && r.status == 400 <==> !Truthy(message)
    ensures r.Err? && r.status == 500 <==> Truthy(message) && !message.JStr?
    ensures r.Err? ==> r.status == 400 || r.status == 500
    ensures r.Ok? ==> r.status == 200 && message.JStr?
    ensures r.Ok? && Given(upstream) ==> r.body == ChatReply(upstream.value, Some("ai"), Some("gemini"))
    ensures r.Ok? && !Given(upstream) ==> r.body == ChatReply(Render(p, s, RespondAsWritten(s, message.s)), None, None)
  {
    Handle(p, s, message, upstream, RespondAsWritten)
  }

  /** POST /api/ai-chat with the corrected normalisation. */
  function Reply(p: Phrases, s: Store, message: Json, upstream: Option<string>): (r: Response<ChatReply>)
    ensures r.Err? && r.status == 400 <==> !Truthy(message)
    ensures r.Err? && r.status == 500 <==> Truthy(message) && !message.JStr?
    ensures r.Err? ==> r.status == 400 || r.status == 500
    ensures r.Ok? ==> r.status == 200 && message.JStr?
    ensures r.Ok? && Given(upstream) ==> r.body == ChatReply(upstream.value, Some("ai"), Some("gemini"))
    ensures r.Ok? && !Given(upstream) ==> r.body == ChatReply(Render(p, s, Respond(s, message.s)), None, None)
  {
    Handle(p, s, message, upstream, Respond)
  }

  /** An upstream answer is passed on unchanged, whatever the message asks for. */
  lemma UpstreamShortCircuits(p: Phrases, s: Store, message: string, text: string)
    requires message != "" && text != ""
    ensures Reply(p, s, JStr(message), Some(text)) == Ok(200, ChatReply(text, Some("ai"), Some("gemini")))
  {
  }
}

=== FILE: aigateway.dfy ===
/**
 * POST /api/ai/chat: the gateway to the upstream chat model. It checks the
 * message, needs an API key, sends the conversation history behind a fixed
 * system-prompt exchange, and turns the model's failures into replies: a
 * key problem, an exhausted quota, or a helpful fallback guide.
 */
module AiGateway {
  import opened Wrappers
  import opened Json
  import Text
  import Collections

  const EmptyMessage := "Tin nhắn rỗng"
  const MissingKey := "Missing GEMINI_API_KEY"
  const KeyError := "API key không hợp lệ hoặc thiếu quyền"
  const QuotaError := "Vượt hạn mức hoặc bị giới hạn tốc độ"
  const Overloaded := "AI_OVERLOADED"
  const SystemError := "Lỗi hệ thống AI"

  /**
   * The fixed texts the gateway answers and prompts with. The route is
   * stated for any phrase book; `SourcePhrases` holds the handler's wording.
   */
  datatype Phrases = Phrases(
    config: string,
    systemPrompt: string,
    acknowledged: string,
    keyProblem: string,
    overload: string,
    fallbackGuide: string,
    sorry: string)

  const SourcePhrases := Phrases(
    "Cấu hình AI chưa đầy đủ. Vui lòng thiết lập API key và khởi động lại server.",
    "Bạn là trợ lý AI thân thiện của ứng dụng \"Đổi đồ cũ\" tại Việt Nam. Trả lời bằng tiếng Việt, ngắn gọn, thân thiện (có thể dùng emoji nhẹ). Ưu tiên hướng dẫn cụ thể: đăng đồ, tìm kiếm, đổi đồ, QR code, đánh giá. Không trả lời ngoài chủ đề ứng dụng.",
    "Đã hiểu.",
    "API key không hợp lệ hoặc chưa bật quyền cho model. Vui lòng kiểm tra cấu hình và thử lại.",
    "Hệ thống AI đang quá tải hoặc vượt hạn mức. Vui lòng thử lại sau.",
    "Hiện hệ thống AI đang gặp sự cố. Bạn có thể thử lại sau.\n\nTrong lúc chờ, đây là hướng dẫn nhanh:\n1) Đăng đồ: Vào mục Items > New, điền tiêu đề, mô tả, hình ảnh, chọn danh mục rồi đăng.\n2) Tìm kiếm: Dùng thanh tìm kiếm trên trang Items, lọc theo danh mục/giá/tình trạng.\n3) Quy trình đổi đồ: Nhắn người đăng qua Chat, thống nhất, tạo giao dịch và xác nhận bằng QR khi hoàn tất.\n4) QR Code: Mỗi giao dịch có mã QR riêng để xác nhận khi trao đổi xong.\n5) Đánh giá/Uy tín: Sau khi giao dịch, hãy để lại đánh giá để tăng độ uy tín.",
    "Xin lỗi, AI đang gặp trục trặc. Hãy thử lại sau.")

  // ---------------------------------------------------------------------
  // History

  datatype Role = UserRole | ModelRole

  /** One entry of the history handed to the model: `{ role, parts: [{ text }] }`. */
  datatype Turn = Turn(role: Role, text: string)

  /** `h && typeof h.content === "string" && h.content.trim()`. */
  predicate Usable(h: Json) {
    Truthy(h) && Get(h, "content").JStr? && Text.Trim(Get(h, "content").s) != ""
  }

  /** `role: h.role === "user" ? "user" : "model"`, with the content as the text. */
  function ToTurn(h: Json): Turn
    requires Get(h, "content").JStr?
  {
    Turn(if Get(h, "role") == JStr("user") then UserRole else ModelRole, Get(h, "content").s)
  }

  /**
   * `history.filter(usable).map(toTurn)`: the usable entries, each turned
   * into a turn, in their original order.
   */
  function Turns(history: seq<Json>): (r: seq<Turn>)
    ensures |r| == |Collections.Filter(history, Usable)|
    ensures forall k :: 0 <= k < |r| ==>
      Usable(Collections.Filter(history, Usable)[k]) && r[k] == ToTurn(Collections.Filter(history, Usable)[k])
  {
    if |history| == 0 then []
    else
      var init, last := history[..|history| - 1], history[|history| - 1];
      var rest := Turns(init);
      assert Collections.Filter(history, Usable) ==
        Collections.Filter(init, Usable) + (if Usable(last) then [last] else []);
      if Usable(last) then rest + [ToTurn(last)] else rest
  }

  /** A turn never carries blank text, and it speaks as the user exactly when its entry said so. */
  lemma TurnsAreUsable(history: seq<Json>, k: nat)
    requires k < |Turns(history)|
    ensures !Text.IsBlank(Turns(history)[k].text)
    ensures var h := Collections.Filter(history, Usable)[k];
      h in history && (Turns(history)[k].role == UserRole <==> Get(h, "role") == JStr("user"))
  {
    var f := Collections.Filter(history, Usable);
    assert f[k] in f;
  }

  /** An entry the filter drops leaves the turns as they were. */
  lemma UnusableIgnored(history: seq<Json>, h: Json)
    requires !Usable(h)
    ensures Turns(history + [h]) == Turns(history)
  {
    assert (history + [h])[..|history|] == history;
  }

  /**
   * The history the chat starts with: the system prompt as a user turn, the
   * model's acknowledgement, then the caller's history when it is an array.
   */
  function Conversation(p: Phrases, history: Json): (r: seq<Turn>)
    ensures |r| >= 2 && r[0] == Turn(UserRole, p.systemPrompt) && r[1] == Turn(ModelRole, p.acknowledged)
    ensures r[2..] == if history.JArr? then Turns(history.elems) else []
  {
    [Turn(UserRole, p.systemPrompt), Turn(ModelRole, p.acknowledged)] + (if history.JArr? then Turns(history.elems) else [])
  }

  // ---------------------------------------------------------------------
  // Error messages

  /** A case-insensitive regular expression made of alternatives: one of them occurs in the message. */
  predicate Mentions(message: string, patterns: seq<string>) {
    exists k :: 0 <= k < |patterns| && Text.Contains(Text.Lower(message), patterns[k])
  }

  const KeyPatterns: seq<string> := ["permission", "unauthorized", "invalid api key", "api key"]
  const QuotaPatterns: seq<string> := ["quota", "rate", "429"]
  const OverloadPatterns: seq<string> := ["quota", "rate", "429", "resource_exhausted", "unavailable", "overloaded", "capacity"]

  /** A character `\b` counts as part of a word. */
  predicate IsWordChar(c: char) {
    ('a' <= c <= 'z') || ('A' <= c <= 'Z') || ('0' <= c <= '9') || c == '_'
  }

  /** "rate" starts at index `i` of `s` and no word character comes before it. */
  predicate RateAt(s: string, i: int) {
    0 <= i && i + 4 <= |s| && s[i..i + 4] == "rate" && (i == 0 || !IsWordChar(s[i - 1]))
  }

  /** `\brate`: "rate" at the start of a word, as in "rate limit" but not in "generateContent". */
  predicate RateWord(s: string) {
    exists i | 0 <= i <= |s| - 4 :: RateAt(s, i)
  }

  /** `/quota|rate|429/i` as written: one of the three words occurs anywhere, in any case. */
  predicate QuotaAsWritten(message: string)
    ensures QuotaAsWritten(message) <==>
      var l := Text.Lower(message);
      Text.Contains(l, "quota") || Text.Contains(l, "rate") || Text.Contains(l, "429")
  {
    MentionsThree(message, QuotaPatterns);
    Mentions(message, QuotaPatterns)
  }

  lemma MentionsThree(message: string, patterns: seq<string>)
    requires |patterns| == 3
    ensures Mentions(message, patterns) <==>
      var l := Text.Lower(message);
      Text.Contains(l, patterns[0]) || Text.Contains(l, patterns[1]) || Text.Contains(l, patterns[2])
  {
  }

  /** An expression with more alternatives: it matches when either part does. */
  lemma MentionsConcat(message: string, a: seq<string>, b: seq<string>)
    ensures Mentions(message, a + b) <==> Mentions(message, a) || Mentions(message, b)
  {
    if Mentions(message, a + b) {
      var k :| 0 <= k < |a + b| && Text.Contains(Text.Lower(message), (a + b)[k]);
      if k >= |a| {
        assert b[k - |a|] == (a + b)[k];
      }
    }
    if Mentions(message, a) {
      var k :| 0 <= k < |a| && Text.Contains(Text.Lower(message), a[k]);
      assert (a + b)[k] == a[k];
    }
    if Mentions(message, b) {
      var k :| 0 <= k < |b| && Text.Contains(Text.Lower(message), b[k]);
      assert (a + b)[|a| + k] == b[k];
    }
  }

  /** The quota test with "rate" read as a word. */
  predicate Quota(message: string) {
    Mentions(message, ["quota", "429"]) || RateWord(Text.Lower(message))
  }

  /**
   * `/quota|rate|429|RESOURCE_EXHAUSTED|UNAVAILABLE|overloaded|capacity/i` as
   * written: the quota expression as written, or one of four more words.
   */
  predicate OverloadAsWritten(message: string)
    ensures OverloadAsWritten(message) <==>
      QuotaAsWritten(message) || Mentions(message, ["resource_exhausted", "unavailable", "overloaded", "capacity"])
  {
    assert OverloadPatterns == QuotaPatterns + ["resource_exhausted", "unavailable", "overloaded", "capacity"];
    MentionsConcat(message, QuotaPatterns, ["resource_exhausted", "unavailable", "overloaded", "capacity"]);
    Mentions(message, OverloadPatterns)
  }

  /** The overload test with "rate" read as a word. */
  predicate Overload(message: string) {
    Mentions(message, ["quota", "429", "resource_exhausted", "unavailable", "overloaded", "capacity"]) || RateWord(Text.Lower(message))
  }

  /**
   * The JSON reply: status, `error`, `response` and `source`. The timestamp
   * every reply but the 400 carries is left out.
   */
  datatype GatewayReply = GatewayReply(status: nat, error: Option<string>, response: string, source: Option<string>)

  /**
   * The reply to a failed model call with error message `message`, given
   * whether the quota test accepts it: a key problem first, then the quota,
   * otherwise the fallback guide with status 200.
   */
  function SdkFailureReply(p: Phrases, message: string, quota: bool): (r: GatewayReply)
    ensures r.status == 500 <==> Mentions(message, KeyPatterns) || quota
    ensures r.status == 500 || r.status == 200
    ensures Mentions(message, KeyPatterns) ==> r.error == Some(KeyError)
    ensures !Mentions(message, KeyPatterns) && quota ==> r.error == Some(QuotaError) && r.response == p.overload
    ensures r.status == 200 ==> r == GatewayReply(200, Some(message), p.fallbackGuide, Some("fallback"))
    ensures r.status == 500 ==> r.source == Some("gemini")
  {
    if Mentions(message, KeyPatterns) then GatewayReply(500, Some(KeyError), p.keyProblem, Some("gemini"))
    else if quota then GatewayReply(500, Some(QuotaError), p.overload, Some("gemini"))
    else GatewayReply(200, Some(message), p.fallbackGuide, Some("fallback"))
  }

  function SdkFailureAsWritten(p: Phrases, message: string): GatewayReply {
    SdkFailureReply(p, message, QuotaAsWritten(message))
  }

  function SdkFailure(p: Phrases, message: string): GatewayReply {
    SdkFailureReply(p, message, Quota(message))
  }

  /**
   * "generate" contains "rate": so any error text that names the SDK's
   * method `generateContent` and is not about the key is reported as an
   * exhausted quota.
   */
  lemma GenerateReadAsQuota(p: Phrases, a: string, b: string)
    requires !Mentions(a + "generate" + b, KeyPatterns)
    ensures SdkFailureAsWritten(p, a + "generate" + b).error == Some(QuotaError)
    ensures SdkFailureAsWritten(p, a + "generate" + b).status == 500
  {
    GenerateHasRate(a, b);
    assert QuotaPatterns[1] == "rate";
  }

  /** Whatever surrounds it, "generate" lower-cases to itself and so still contains "rate". */
  lemma GenerateHasRate(a: string, b: string)
    ensures Text.Contains(Text.Lower(a + "generate" + b), "rate")
  {
    LowerGenerate();
    LowerAround(a, "generate", b);
    RateInGenerate(Text.Lower(a), Text.Lower(b));
  }

  lemma LowerGenerate()
    ensures Text.Lower("generate") == "generate"
  {
    LowerKeepsLetters("generate");
  }

  lemma RateInGenerate(x: string, y: string)
    ensures Text.Contains(x + "generate" + y, "rate")
  {
    assert x + "generate" + y == (x + "gene") + "rate" + y;
    Text.ContainsInside(x + "gene", "rate", y);
  }

  /** A word that is its own lower case stays so in the middle of a string. */
  lemma LowerAround(a: string, w: string, b: string)
    requires Text.Lower(w) == w
    ensures Text.Lower(a + w + b) == Text.Lower(a) + w + Text.Lower(b)
  {
    Text.LowerConcat(a + w, b);
    Text.LowerConcat(a, w);
  }

  /** Lower-case ASCII letters are their own lower case. */
  lemma LowerKeepsLetters(s: string)
    requires forall i :: 0 <= i < |s| ==> 'a' <= s[i] <= 'z'
    ensures Text.Lower(s) == s
  {
  }

  /** A message that only names the SDK method falls through to the fallback guide once "rate" is read as a word. */
  lemma GenerateNotQuota(p: Phrases)
    ensures SdkFailure(p, "generateContent") == GatewayReply(200, Some("generateContent"), p.fallbackGuide, Some("fallback"))
    ensures SdkFailureAsWritten(p, "generateContent") == GatewayReply(500, Some(QuotaError), p.overload, Some("gemini"))
  {
    var l := "generatecontent";
    GenerateContentLower();
    KeyWordsAbsent();
    NoneOccur(l, KeyPatterns);
    QuotaWordsAbsent();
    NoneOccur(l, ["quota", "429"]);
    NoRateWord();
    GenerateContentJoined();
    GenerateReadAsQuota(p, "", "Content");
  }

  /** The overload test as written accepts the SDK method's name; with "rate" read as a word it does not. */
  lemma GenerateOverloadAsWritten()
    ensures OverloadAsWritten("generateContent")
    ensures !Overload("generateContent")
  {
    OverloadSeesGenerate();
    OverloadWordsMissGenerate();
  }

  lemma OverloadSeesGenerate()
    ensures OverloadAsWritten("generateContent")
  {
    GenerateContentJoined();
    GenerateHasRate("", "Content");
    assert OverloadPatterns[1] == "rate";
  }

  lemma OverloadWordsMissGenerate()
    ensures !Overload("generateContent")
  {
    GenerateContentLower();
    OverloadWordsAbsent();
    NoneOccur("generatecontent", ["quota", "429", "resource_exhausted", "unavailable", "overloaded", "capacity"]);
    NoRateWord();
  }

  lemma OverloadWordsAbsent()
    ensures var words := ["quota", "429", "resource_exhausted", "unavailable", "overloaded", "capacity"];
      forall k :: 0 <= k < |words| ==> Lacks("generatecontent", words[k])
  {
    var l := "generatecontent";
    var words := ["quota", "429", "resource_exhausted", "unavailable", "overloaded", "capacity"];
    assert 'q' !in l && '2' !in l && '_' !in l && 'u' !in l && 'v' !in l && 'p' !in l;
    assert words[0][0] == 'q' && words[1][1] == '2' && words[2][8] == '_' && words[3][0] == 'u';
    assert words[4][1] == 'v' && words[5][2] == 'p';
  }

  lemma GenerateContentLower()
    ensures Text.Lower("generateContent") == "generatecontent"
  {
    LowerGenerate();
    LowerContent();
    GenerateContentJoined();
    Text.LowerConcat("generate", "Content");
  }

  lemma LowerContent()
    ensures Text.Lower("Content") == "content"
  {
  }

  lemma GenerateContentJoined()
    ensures "" + "generate" + "Content" == "generate" + "Content" == "generateContent"
    ensures "generate" + "content" == "generatecontent"
  {
  }

  lemma KeyWordsAbsent()
    ensures forall k :: 0 <= k < |KeyPatterns| ==> Lacks("generatecontent", KeyPatterns[k])
  {
    var l := "generatecontent";
    assert 'p' !in l && 'u' !in l && 'v' !in l;
    assert KeyPatterns[0][0] == 'p' && KeyPatterns[1][0] == 'u' && KeyPatterns[2][2] == 'v' && KeyPatterns[3][1] == 'p';
  }

  lemma QuotaWordsAbsent()
    ensures forall k :: 0 <= k < 2 ==> Lacks("generatecontent", ["quota", "429"][k])
  {
    var l := "generatecontent";
    assert 'q' !in l && '4' !in l;
    assert ["quota", "429"][0][0] == 'q' && ["quota", "429"][1][1] == '2';
    assert '2' !in l;
  }

  lemma NoRateWord()
    ensures !RateWord("generatecontent")
  {
    var l := "generatecontent";
    forall i | 0 <= i <= |l| - 4
      ensures !RateAt(l, i)
    {
      if i == 4 {
        assert IsWordChar(l[3]);
      } else {
        assert l[i..i + 4][0] == l[i] != 'r';
      }
    }
  }

  /** Some character of `t` does not occur in `s`. */
  predicate Lacks(s: string, t: string) {
    exists j | 0 <= j < |t| :: t[j] !in s
  }

  /** None of the patterns occurs in `s`, each having a character `s` lacks. */
  lemma NoneOccur(s: string, patterns: seq<string>)
    requires forall k :: 0 <= k < |patterns| ==> Lacks(s, patterns[k])
    ensures forall k :: 0 <= k < |patterns| ==> !Text.Contains(s, patterns[k])
  {
    forall k | 0 <= k < |patterns| ensures !Text.Contains(s, patterns[k]) {
      var j :| 0 <= j < |patterns[k]| && patterns[k][j] !in s;
      if Text.Contains(s, patterns[k]) {
        Text.ContainedCharsOccur(s, patterns[k], j);
      }
    }
  }

  /** "rate" read as a word is in particular "rate" somewhere. */
  lemma RateWordContainsRate(s: string)
    requires RateWord(s)
    ensures Text.Contains(s, "rate")
  {
    var i :| 0 <= i <= |s| - 4 && RateAt(s, i);
    Text.ContainsIffOccurs(s, "rate");
    assert Text.OccursAt(s, "rate", i);
  }

  /** Reading "rate" as a word only narrows the quota test. */
  lemma QuotaNarrowsAsWritten(message: string)
    requires Quota(message)
    ensures QuotaAsWritten(message)
  {
    var l := Text.Lower(message);
    if RateWord(l) {
      RateWordContainsRate(l);
      assert QuotaPatterns[1] == "rate";
    } else {
      var k :| 0 <= k < 2 && Text.Contains(l, ["quota", "429"][k]);
      assert QuotaPatterns[if k == 0 then 0 else 2] == ["quota", "429"][k];
    }
  }

  /** Reading "rate" as a word only narrows the overload test. */
  lemma OverloadNarrowsAsWritten(message: string)
    requires Overload(message)
    ensures OverloadAsWritten(message)
  {
    var l := Text.Lower(message);
    var words := ["quota", "429", "resource_exhausted", "unavailable", "overloaded", "capacity"];
    if RateWord(l) {
      RateWordContainsRate(l);
      assert OverloadPatterns[1] == "rate";
    } else {
      var k :| 0 <= k < |words| && Text.Contains(l, words[k]);
      assert OverloadPatterns[if k == 0 then 0 else k + 1] == words[k];
    }
  }

  /** The reply to an error thrown outside the model call. */
  function OuterFailureReply(p: Phrases, message: string, overload: bool): (r: GatewayReply)
    ensures r.status == 429 <==> overload
    ensures r.status == 429 ==> r == GatewayReply(429, Some(Overloaded), p.overload, Some("gemini"))
    ensures r.status != 429 ==> r == GatewayReply(500, Some(SystemError), p.sorry, Some("error"))
  {
    if overload then GatewayReply(429, Some(Overloaded), p.overload, Some("gemini"))
    else GatewayReply(500, Some(SystemError), p.sorry, Some("error"))
  }

  // ---------------------------------------------------------------------
  // The route

  /**
   * `!message || typeof message !== "string" || !message.trim()` fails: a
   * valid message is a string with a character that is not white space.
   */
  predicate ValidMessage(m: Json)
    ensures ValidMessage(m) <==> m.JStr? && exists i :: 0 <= i < |m.s| && !Text.IsSpace(m.s[i])
  {
    Truthy(m) && m.JStr? && Text.Trim(m.s) != ""
  }

  /** What the chat call gives back: the model's text, or the message of the error it threw. */
  datatype Upstream = Answered(text: string) | Failed(message: string)

  /**
   * The route's steps, given how it classifies error messages: `quota`
   * decides a failed model call, `overload` an error thrown outside it. A
   * body that is not JSON, or is `null` and so cannot be destructured, ends
   * in the outer handler; the `null` case throws a TypeError whose message
   * names none of the overload words.
   */
  function Handle(p: Phrases, request: Body, apiKey: Option<string>, upstream: (seq<Turn>, string) -> Upstream,
                  quota: string -> bool, overload: string -> bool): (r: GatewayReply)
    ensures request.Malformed? ==> r == OuterFailureReply(p, request.error, overload(request.error))
    ensures request.Parsed? && request.value.JNull? ==> r == OuterFailureReply(p, "", false)
    ensures r.status == 400 <==> request.Parsed? && !request.value.JNull? && !ValidMessage(Get(request.value, "message"))
    ensures r.status == 400 ==> r == GatewayReply(400, Some(EmptyMessage), EmptyMessage, None)
    ensures r.source == Some("config") <==>
      request.Parsed? && !request.value.JNull? && ValidMessage(Get(request.value, "message")) && !Given(apiKey)
    ensures r.source == Some("config") ==> r.status == 500 && r.error == Some(MissingKey)
    ensures request.Parsed? && !request.value.JNull? && ValidMessage(Get(request.value, "message")) && Given(apiKey) ==>
      var message := Get(request.value, "message").s;
      match upstream(Conversation(p, Get(request.value, "conversationHistory")), message)
      case Answered(text) => r == GatewayReply(200, None, text, Some("gemini"))
      case Failed(error) => r == SdkFailureReply(p, error, quota(error))
  {
    match request
    case Malformed(error) => OuterFailureReply(p, error, overload(error))
    case Parsed(body) =>
      if body.JNull? then OuterFailureReply(p, "", false)
      else
        var message := Get(body, "message");
        if !ValidMessage(message) then GatewayReply(400, Some(EmptyMessage), EmptyMessage, None)
        else if !Given(apiKey) then GatewayReply(500, Some(MissingKey), p.config, Some("config"))
        else
          match upstream(Conversation(p, Get(body, "conversationHistory")), message.s)
          case Answered(text) => GatewayReply(200, None, text, Some("gemini"))
          case Failed(error) => SdkFailureReply(p, error, quota(error))
  }

  /**
   * POST /api/ai/chat as written. `apiKey` is the configured key, and
   * `upstream` the model: given the history and the message, it answers or
   * fails. A failed call is classified by `/quota|rate|429/i`, an outer
   * error by the overload expression, both as written.
   */
  function Chat(p: Phrases, request: Body, apiKey: Option<string>, upstream: (seq<Turn>, string) -> Upstream): (r: GatewayReply)
    ensures request.Malformed? ==> r == OuterFailureReply(p, request.error, OverloadAsWritten(request.error))
    ensures request.Parsed? && request.value.JNull? ==> r == OuterFailureReply(p, "", false)
    ensures r.status == 400 <==> request.Parsed? && !request.value.JNull? && !ValidMessage(Get(request.value, "message"))
    ensures r.status == 400 ==> r == GatewayReply(400, Some(EmptyMessage), EmptyMessage, None)
    ensures r.source == Some("config") <==>
      request.Parsed? && !request.value.JNull? && ValidMessage(Get(request.value, "message")) && !Given(apiKey)
    ensures r.source == Some("config") ==> r.status == 500 && r.error == Some(MissingKey)
    ensures request.Parsed? && !request.value.JNull? && ValidMessage(Get(request.value, "message")) && Given(apiKey) ==>
      var message := Get(request.value, "message").s;
      match upstream(Conversation(p, Get(request.value, "conversationHistory")), message)
      case Answered(text) => r == GatewayReply(200, None, text, Some("gemini"))
      case Failed(error) => r == SdkFailureAsWritten(p, error)
  {
    Handle(p, request, apiKey, upstream, QuotaAsWritten, OverloadAsWritten)
  }

  /** The route with "rate" read as a word in both tests, as the authors evidently meant. */
  function ChatCorrected(p: Phrases, request: Body, apiKey: Option<string>, upstream: (seq<Turn>, string) -> Upstream): (r: GatewayReply)
    ensures request.Malformed? ==> r == OuterFailureReply(p, request.error, Overload(request.error))
    ensures r.status == 400 <==> request.Parsed? && !request.value.JNull? && !ValidMessage(Get(request.value, "message"))
    ensures request.Parsed? && !request.value.JNull? && ValidMessage(Get(request.value, "message")) && Given(apiKey) ==>
      var message := Get(request.value, "message").s;
      match upstream(Conversation(p, Get(request.value, "conversationHistory")), message)
      case Answered(text) => r == GatewayReply(200, None, text, Some("gemini"))
      case Failed(error) => r == SdkFailure(p, error)
  {
    Handle(p, request, apiKey, upstream, Quota, Overload)
  }

  /**
   * The correction only moves failures out of the quota and overload
   * classes: whatever the route as written answers with 200 the corrected
   * route answers the same way, and a 429 of the corrected route is a 429
   * as written.
   */
  lemma CorrectionOnlyNarrows(p: Phrases, request: Body, apiKey: Option<string>, upstream: (seq<Turn>, string) -> Upstream)
    ensures Chat(p, request, apiKey, upstream).status == 200 ==>
      ChatCorrected(p, request, apiKey, upstream) == Chat(p, request, apiKey, upstream)
    ensures ChatCorrected(p, request, apiKey, upstream).status == 429 ==> Chat(p, request, apiKey, upstream).status == 429
  {
    match request
    case Malformed(error) =>
      if Overload(error) {
        OverloadNarrowsAsWritten(error);
      }
    case Parsed(body) =>
      if !body.JNull? && ValidMessage(Get(body, "message")) && Given(apiKey) {
        match upstream(Conversation(p, Get(body, "conversationHistory")), Get(body, "message").s)
        case Answered(_) =>
        case Failed(error) =>
          if Quota(error) {
            QuotaNarrowsAsWritten(error);
          }
      }
  }

  /**
   * The model call failing with a message that only names the SDK method:
   * as written the route blames the quota with 500, corrected it answers
   * with the fallback guide.
   */
  lemma ChatReadsGenerateAsQuota(p: Phrases, message: string, key: string)
    requires Text.Trim(message) != "" && key != ""
    ensures var body, fails := Parsed(JObj(map["message" := JStr(message)])), (h: seq<Turn>, m: string) => Failed("generateContent");
      && Chat(p, body, Some(key), fails) == GatewayReply(500, Some(QuotaError), p.overload, Some("gemini"))
      && ChatCorrected(p, body, Some(key), fails) == GatewayReply(200, Some("generateContent"), p.fallbackGuide, Some("fallback"))
  {
    var fails := (h: seq<Turn>, m: string) => Failed("generateContent");
    FailedCall(p, message, key, fails, "generateContent");
    GenerateNotQuota(p);
  }

  /** A valid message with a key whose model call fails gets the SDK failure reply of each classification. */
  lemma FailedCall(p: Phrases, message: string, key: string, upstream: (seq<Turn>, string) -> Upstream, error: string)
    requires Text.Trim(message) != "" && key != ""
    requires forall h, m :: upstream(h, m) == Failed(error)
    ensures var body := Parsed(JObj(map["message" := JStr(message)]));
      && Chat(p, body, Some(key), upstream) == SdkFailureAsWritten(p, error)
      && ChatCorrected(p, body, Some(key), upstream) == SdkFailure(p, error)
  {
    var body := JObj(map["message" := JStr(message)]);
    assert Get(body, "message") == JStr(message);
  }

  /** Every text of the phrase book the replies draw on is non-empty. */
  predicate Spoken(p: Phrases) {
    p.config != "" && p.keyProblem != "" && p.overload != "" && p.fallbackGuide != "" && p.sorry != ""
  }

  /** Every reply carries a response text; only a model answer can make it empty. */
  lemma ResponseAlwaysSet(p: Phrases, request: Body, apiKey: Option<string>, upstream: (seq<Turn>, string) -> Upstream)
    requires Spoken(p)
    ensures var r := Chat(p, request, apiKey, upstream);
      r.response == "" ==> r.status == 200 && r.source == Some("gemini")
  {
  }

  /** Without a key the model is never asked: every valid message gets the configuration reply. */
  lemma NoKeyNoCall(p: Phrases, body: Json, u1: (seq<Turn>, string) -> Upstream, u2: (seq<Turn>, string) -> Upstream)
    ensures Chat(p, Parsed(body), None, u1) == Chat(p, Parsed(body), None, u2)
  {
  }
}

=== FILE: auth.dfy ===
/**
 * POST /api/auth/register and POST /api/auth/login: registration with a
 * unique email and a hashed password, and a credential check that answers
 * an unknown email and a wrong password alike.
 */
module Auth {
  import opened Wrappers
  import opened Store

  const RegisterMissing := "Email, mật khẩu và tên là bắt buộc"
  const EmailTaken := "Email đã được sử dụng"
  const Registered := "Đăng ký thành công"
  const LoginMissing := "Email và mật khẩu là bắt buộc"
  const BadCredentials := "Email hoặc mật khẩu không đúng"
  const LoggedIn := "Đăng nhập thành công"

  /** The fields registration selects for its reply. */
  datatype NewAccount = NewAccount(id: Id, email: string, name: string, phone: Option<string>, address: Option<string>)

  /** A user record with the password field removed. */
  datatype Profile = Profile(
    id: Id,
    email: string,
    name: string,
    phone: Option<string>,
    address: Option<string>,
    city: Option<string>,
    latitude: Option<real>,
    longitude: Option<real>,
    reputation: real,
    totalReviews: nat,
    createdAt: int)

  datatype Reply<T> = Reply(message: string, user: T)

  datatype Registration = Registration(
    email: Option<string>,
    password: Option<string>,
    name: Option<string>,
    phone: Option<string>,
    address: Option<string>)

  predicate Complete(q: Registration) {
    Given(q.email) && Given(q.password) && Given(q.name)
  }

  predicate EmailInUse(s: Store, email: string) {
    exists i :: 0 <= i < |s.users| && s.users[i].email == email
  }

  /** The public part of a user: every field but the password. */
  function ProfileOf(u: User): (p: Profile)
    ensures p.id == u.id && p.email == u.email && p.name == u.name
    ensures u == User(p.id, p.email, u.password, p.name, p.phone, p.address, p.city, p.latitude, p.longitude,
                      p.reputation, p.totalReviews, p.createdAt)
  {
    Profile(u.id, u.email, u.name, u.phone, u.address, u.city, u.latitude, u.longitude,
            u.reputation, u.totalReviews, u.createdAt)
  }

  /**
   * POST /api/auth/register. `salt` stands for bcrypt's random salt and
   * `now` for the clock. The new user starts with no reviews.
   */
  function Register(s: Store, q: Registration, salt: nat, now: int): (r: Step<Reply<NewAccount>>)
    ensures r.response.Err? ==> r.store == s && r.response.status == 400
    ensures r.response.Err? && r.response.error == RegisterMissing <==> !Complete(q)
    ensures r.response.Err? && r.response.error == EmailTaken <==> Complete(q) && EmailInUse(s, q.email.value)
    ensures r.response.Ok? <==> Complete(q) && !EmailInUse(s, q.email.value)
    ensures r.response.Ok? ==>
      var a := r.response.body.user;
      && r.response.status == 201
      && r.response.body.message == Registered
      && a == NewAccount(s.nextId, q.email.value, q.name.value, OrNull(q.phone), OrNull(q.address))
      && |r.store.users| == |s.users| + 1
      && r.store.users[..|s.users|] == s.users
      && r.store == s.(users := r.store.users, nextId := s.nextId + 1)
      && var u := r.store.users[|s.users|];
         && u.id == a.id && u.email == a.email && u.name == a.name && u.phone == a.phone && u.address == a.address
         && u.password == Hash(q.password.value, salt)
         && u.reputation == 0.0 && u.totalReviews == 0
  {
    if !Complete(q) then Step(s, Err(400, RegisterMissing))
    else if FindUserByEmail(s.users, q.email.value).Some? then Step(s, Err(400, EmailTaken))
    else
      var u := User(s.nextId, q.email.value, Hash(q.password.value, salt), q.name.value, OrNull(q.phone),
                    OrNull(q.address), None, None, None, 0.0, 0, now);
      var users := s.users + [u];
      assert users[..|s.users|] == s.users;
      Step(s.(users := users, nextId := s.nextId + 1),
           Ok(201, Reply(Registered, NewAccount(u.id, u.email, u.name, u.phone, u.address))))
  }

  /** The stored credential is the hash of the password, and no other password verifies against it. */
  lemma RegisterStoresHash(s: Store, q: Registration, salt: nat, now: int, other: string)
    requires Register(s, q, salt, now).response.Ok?
    ensures var u := Register(s, q, salt, now).store.users[|s.users|];
      && Verify(q.password.value, u.password)
      && (other != q.password.value ==> !Verify(other, u.password))
  {
    HashVerify(q.password.value, other, salt);
  }

  /** Registering keeps every store invariant, email uniqueness included. */
  lemma RegisterPreservesValid(s: Store, q: Registration, salt: nat, now: int)
    requires Valid(s)
    ensures Valid(Register(s, q, salt, now).store)
  {
    var r := Register(s, q, salt, now);
    if r.response.Ok? {
      var s' := r.store;
      var u := s'.users[|s.users|];
      assert s' == s.(users := s.users + [u], nextId := s.nextId + 1);
      UserAppendedValid(s, u);
    }
  }

  datatype Credentials = Credentials(email: Option<string>, password: Option<string>)

  /** POST /api/auth/login. */
  function Login(s: Store, c: Credentials): (r: Response<Reply<Profile>>)
    ensures r.Err? && r.status == 400 <==> !Given(c.email) || !Given(c.password)
    ensures r.Err? ==> r.status == 400 || r.status == 401
    ensures r.Err? && r.status == 400 ==> r.error == LoginMissing
    ensures r == Err(401, BadCredentials) <==>
      && Given(c.email) && Given(c.password)
      && (FindUserByEmail(s.users, c.email.value).None? || !Verify(c.password.value, FindUserByEmail(s.users, c.email.value).value.password))
    ensures r.Ok? <==>
      && Given(c.email) && Given(c.password)
      && exists i :: 0 <= i < |s.users| && s.users[i].email == c.email.value && Verify(c.password.value, s.users[i].password)
           && FindUserByEmail(s.users, c.email.value) == Some(s.users[i])
    ensures r.Ok? ==>
      var u := FindUserByEmail(s.users, c.email.value).value;
      && r.status == 200
      && r == Ok(200, Reply(LoggedIn, ProfileOf(u)))
  {
    if !Given(c.email) || !Given(c.password) then Err(400, LoginMissing)
    else
      match FindUserByEmail(s.users, c.email.value)
      case None => Err(401, BadCredentials)
      case Some(u) =>
        if !Verify(c.password.value, u.password) then Err(401, BadCredentials)
        else
          var k :| 0 <= k < |s.users| && s.users[k] == u;
          Ok(200, Reply(LoggedIn, ProfileOf(u)))
  }

  /** An unknown email and a wrong password get the same reply, so the reply does not reveal which emails exist. */
  lemma LoginFailuresAlike(s: Store, unknown: string, known: string, password: string)
    requires unknown != "" && known != "" && password != ""
    requires !EmailInUse(s, unknown)
    requires FindUserByEmail(s.users, known).Some? && !Verify(password, FindUserByEmail(s.users, known).value.password)
    ensures Login(s, Credentials(Some(unknown), Some(password))) == Login(s, Credentials(Some(known), Some(password)))
    ensures Login(s, Credentials(Some(unknown), Some(password))) == Err(401, BadCredentials)
  {
  }

  /** After registering, logging in with the same email and password succeeds as the new user. */
  lemma RegisterThenLogin(s: Store, q: Registration, salt: nat, now: int)
    requires Register(s, q, salt, now).response.Ok?
    ensures var s' := Register(s, q, salt, now).store;
      var r := Login(s', Credentials(q.email, q.password));
      r.Ok? && r.body.user.id == s.nextId && r.body.user.email == q.email.value
  {
    var s' := Register(s, q, salt, now).store;
    var u := s'.users[|s.users|];
    FindByEmailAppended(s.users, u);
    HashVerify(q.password.value, q.password.value, salt);
  }
}

=== FILE: chatpage.dfy ===
/**
 * The chat page: the conversation list it builds from the messages of the
 * signed-in user, and the guard in front of sending a message. The list has
 * one conversation per other user, in the order they first appear, each with
 * the latest message and the number of that user's messages still unread.
 */
module ChatPage {
  import opened Wrappers
  import opened Store
  import Text
  import Messages

  /** One entry of the list: the other user, the latest message, and how many unread messages they sent. */
  datatype Conversation = Conversation(userId: Id, lastMessage: Message, unread: nat)

  /** The other side of a message: its receiver when `me` sent it, its sender otherwise. */
  function Partner(me: Id, m: Message): Id {
    if m.senderId == me then m.receiverId else m.senderId
  }

  /** A message to `me` that has not been read. */
  predicate UnreadBy(me: Id, m: Message) {
    m.receiverId == me && !m.isRead
  }

  // ---------------------------------------------------------------------
  // The grouping as the page computes it

  /** `conversationMap.has(otherId)` / `get(otherId)`: the position of the conversation with `other`. */
  function FindConversation(convs: seq<Conversation>, other: Id): (r: Option<nat>)
    ensures r.Some? ==> r.value < |convs| && convs[r.value].userId == other
    ensures r.None? ==> forall i :: 0 <= i < |convs| ==> convs[i].userId != other
  {
    if |convs| == 0 then None
    else if convs[0].userId == other then Some(0)
    else match FindConversation(convs[1..], other)
      case None => None
      case Some(i) => Some(i + 1)
  }

  /** The conversation a message with a new partner opens: one unread if the message is. */
  function Open(me: Id, m: Message): Conversation {
    Conversation(Partner(me, m), m, if UnreadBy(me, m) then 1 else 0)
  }

  /** A known conversation after one more message: a strictly later one replaces the latest. */
  function Refresh(me: Id, c: Conversation, m: Message): Conversation {
    Conversation(c.userId, if m.createdAt > c.lastMessage.createdAt then m else c.lastMessage,
                 c.unread + if UnreadBy(me, m) then 1 else 0)
  }

  /** One step of the `forEach`: a new partner opens a conversation at the end, a known one is refreshed. */
  function Absorb(me: Id, convs: seq<Conversation>, m: Message): seq<Conversation> {
    match FindConversation(convs, Partner(me, m))
    case None => convs + [Open(me, m)]
    case Some(i) => convs[i := Refresh(me, convs[i], m)]
  }

  // ---------------------------------------------------------------------
  // What the list is meant to say, stated over the messages directly

  predicate Mentioned(me: Id, msgs: seq<Message>, other: Id) {
    exists k :: 0 <= k < |msgs| && Partner(me, msgs[k]) == other
  }

  /** The number of unread messages to `me` in the conversation with `other`. */
  function UnreadFrom(me: Id, msgs: seq<Message>, other: Id): nat {
    if |msgs| == 0 then 0
    else
      var m := msgs[|msgs| - 1];
      UnreadFrom(me, msgs[..|msgs| - 1], other) + (if Partner(me, m) == other && UnreadBy(me, m) then 1 else 0)
  }

  /**
   * `msgs[j]` is the latest message with `other`: none is later, and every
   * earlier one is strictly earlier, so on a tie the first one seen wins.
   */
  predicate Latest(me: Id, msgs: seq<Message>, other: Id, j: int) {
    && 0 <= j < |msgs| && Partner(me, msgs[j]) == other
    && (forall k :: 0 <= k < |msgs| && Partner(me, msgs[k]) == other ==> msgs[k].createdAt <= msgs[j].createdAt)
    && (forall k :: 0 <= k < j && Partner(me, msgs[k]) == other ==> msgs[k].createdAt < msgs[j].createdAt)
  }

  /** `msgs[j]` is the first message with `other`. */
  predicate FirstSeen(me: Id, msgs: seq<Message>, other: Id, j: int) {
    0 <= j < |msgs| && Partner(me, msgs[j]) == other && forall k :: 0 <= k < j ==> Partner(me, msgs[k]) != other
  }

  predicate Distinct(convs: seq<Conversation>) {
    forall i, i' :: 0 <= i < i' < |convs| ==> convs[i].userId != convs[i'].userId
  }

  /** There is a conversation with exactly the users some message is with. */
  ghost predicate Covers(me: Id, msgs: seq<Message>, convs: seq<Conversation>) {
    forall other :: Mentioned(me, msgs, other) <==> exists i :: 0 <= i < |convs| && convs[i].userId == other
  }

  predicate CountsUnread(me: Id, msgs: seq<Message>, convs: seq<Conversation>) {
    forall i :: 0 <= i < |convs| ==> convs[i].unread == UnreadFrom(me, msgs, convs[i].userId)
  }

  ghost predicate KeepsLatest(me: Id, msgs: seq<Message>, convs: seq<Conversation>) {
    forall i :: 0 <= i < |convs| ==> exists j :: Latest(me, msgs, convs[i].userId, j) && msgs[j] == convs[i].lastMessage
  }

  /** Conversations come in the order their partners first appear. */
  ghost predicate InFirstOrder(me: Id, msgs: seq<Message>, convs: seq<Conversation>) {
    forall i, i', j, j' ::
      0 <= i < i' < |convs| && FirstSeen(me, msgs, convs[i].userId, j) && FirstSeen(me, msgs, convs[i'].userId, j') ==> j < j'
  }

  ghost predicate Summarises(me: Id, msgs: seq<Message>, convs: seq<Conversation>) {
    && Distinct(convs)
    && Covers(me, msgs, convs)
    && CountsUnread(me, msgs, convs)
    && KeepsLatest(me, msgs, convs)
    && InFirstOrder(me, msgs, convs)
  }

  /** `fetchConversations`: the messages folded, in order, into the conversation list. */
  function Group(me: Id, msgs: seq<Message>): (convs: seq<Conversation>)
    ensures Summarises(me, msgs, convs)
  {
    if |msgs| == 0 then []
    else
      var init, m := msgs[..|msgs| - 1], msgs[|msgs| - 1];
      var convs := Group(me, init);
      AbsorbSummarises(me, init, convs, m, msgs);
      Absorb(me, convs, m)
  }

  // ---------------------------------------------------------------------
  // Why one step keeps the summary

  lemma AbsorbSummarises(me: Id, msgs: seq<Message>, convs: seq<Conversation>, m: Message, msgs': seq<Message>)
    requires Summarises(me, msgs, convs)
    requires |msgs'| > 0 && msgs == msgs'[..|msgs'| - 1] && m == msgs'[|msgs'| - 1]
    ensures Summarises(me, msgs', Absorb(me, convs, m))
  {
    assert msgs' == msgs + [m];
    var other := Partner(me, m);
    match FindConversation(convs, other)
    case None =>
      NewPartner(me, msgs, convs, m);
    case Some(i) =>
      KnownPartner(me, msgs, convs, m, i);
  }

  lemma NewPartner(me: Id, msgs: seq<Message>, convs: seq<Conversation>, m: Message)
    requires Summarises(me, msgs, convs)
    requires FindConversation(convs, Partner(me, m)).None?
    ensures Summarises(me, msgs + [m], Absorb(me, convs, m))
  {
    var other := Partner(me, m);
    assert !Mentioned(me, msgs, other);
    CoversNew(me, msgs, convs, m);
    CountsNew(me, msgs, convs, m);
    LatestNew(me, msgs, convs, m);
    OrderNew(me, msgs, convs, m);
  }

  lemma CoversNew(me: Id, msgs: seq<Message>, convs: seq<Conversation>, m: Message)
    requires Covers(me, msgs, convs)
    ensures Covers(me, msgs + [m], convs + [Open(me, m)])
  {
    var msgs', convs' := msgs + [m], convs + [Open(me, m)];
    forall x ensures Mentioned(me, msgs', x) <==> exists i :: 0 <= i < |convs'| && convs'[i].userId == x {
      if Mentioned(me, msgs', x) {
        var k :| 0 <= k < |msgs'| && Partner(me, msgs'[k]) == x;
        if k < |msgs| {
          assert Mentioned(me, msgs, x);
          var i :| 0 <= i < |convs| && convs[i].userId == x;
          assert convs'[i].userId == x;
        } else {
          assert convs'[|convs|].userId == x;
        }
      }
      if exists i :: 0 <= i < |convs'| && convs'[i].userId == x {
        var i :| 0 <= i < |convs'| && convs'[i].userId == x;
        if i < |convs| {
          assert convs[i].userId == x;
          assert Mentioned(me, msgs, x);
          var k :| 0 <= k < |msgs| && Partner(me, msgs[k]) == x;
          assert msgs'[k] == msgs[k];
        } else {
          assert msgs'[|msgs|] == m;
        }
      }
    }
  }

  lemma CountsNew(me: Id, msgs: seq<Message>, convs: seq<Conversation>, m: Message)
    requires CountsUnread(me, msgs, convs) && !Mentioned(me, msgs, Partner(me, m))
    requires forall i :: 0 <= i < |convs| ==> convs[i].userId != Partner(me, m)
    ensures CountsUnread(me, msgs + [m], convs + [Open(me, m)])
  {
    var msgs', convs' := msgs + [m], convs + [Open(me, m)];
    assert msgs'[..|msgs|] == msgs;
    NotMentionedNoUnread(me, msgs, Partner(me, m));
    forall i | 0 <= i < |convs'| ensures convs'[i].unread == UnreadFrom(me, msgs', convs'[i].userId) {
      if i < |convs| {
        assert convs'[i] == convs[i];
      }
    }
  }

  lemma LatestNew(me: Id, msgs: seq<Message>, convs: seq<Conversation>, m: Message)
    requires KeepsLatest(me, msgs, convs) && !Mentioned(me, msgs, Partner(me, m))
    requires forall i :: 0 <= i < |convs| ==> convs[i].userId != Partner(me, m)
    ensures KeepsLatest(me, msgs + [m], convs + [Open(me, m)])
  {
    var msgs', convs' := msgs + [m], convs + [Open(me, m)];
    forall i | 0 <= i < |convs'|
      ensures exists j :: Latest(me, msgs', convs'[i].userId, j) && msgs'[j] == convs'[i].lastMessage
    {
      if i < |convs| {
        assert convs'[i] == convs[i];
        var j :| Latest(me, msgs, convs[i].userId, j) && msgs[j] == convs[i].lastMessage;
        LatestKept(me, msgs, m, convs[i].userId, j);
      } else {
        LatestFirst(me, msgs, m);
        assert Latest(me, msgs', convs'[i].userId, |msgs|) && msgs'[|msgs|] == convs'[i].lastMessage;
      }
    }
    assert forall i :: 0 <= i < |convs'| ==> exists j :: Latest(me, msgs', convs'[i].userId, j) && msgs'[j] == convs'[i].lastMessage;
  }

  /** The first message with a partner is the latest one with them. */
  lemma LatestFirst(me: Id, msgs: seq<Message>, m: Message)
    requires !Mentioned(me, msgs, Partner(me, m))
    ensures Latest(me, msgs + [m], Partner(me, m), |msgs|)
  {
  }

  lemma OrderNew(me: Id, msgs: seq<Message>, convs: seq<Conversation>, m: Message)
    requires InFirstOrder(me, msgs, convs) && Covers(me, msgs, convs) && !Mentioned(me, msgs, Partner(me, m))
    ensures InFirstOrder(me, msgs + [m], convs + [Open(me, m)])
  {
    var msgs', convs' := msgs + [m], convs + [Open(me, m)];
    forall i, i', j, j' |
      0 <= i < i' < |convs'| && FirstSeen(me, msgs', convs'[i].userId, j) && FirstSeen(me, msgs', convs'[i'].userId, j')
      ensures j < j'
    {
      assert convs'[i] == convs[i];
      MentionedOfKnown(me, msgs, convs, i);
      FirstSeenOld(me, msgs, m, convs[i].userId, j);
      if i' < |convs| {
        assert convs'[i'] == convs[i'];
        MentionedOfKnown(me, msgs, convs, i');
        FirstSeenOld(me, msgs, m, convs[i'].userId, j');
        assert FirstSeen(me, msgs, convs[i].userId, j) && FirstSeen(me, msgs, convs[i'].userId, j');
      }
    }
  }

  lemma KnownPartner(me: Id, msgs: seq<Message>, convs: seq<Conversation>, m: Message, i: nat)
    requires Summarises(me, msgs, convs)
    requires FindConversation(convs, Partner(me, m)) == Some(i)
    ensures Summarises(me, msgs + [m], Absorb(me, convs, m))
  {
    var convs' := convs[i := Refresh(me, convs[i], m)];
    assert forall n :: 0 <= n < |convs| ==> convs'[n].userId == convs[n].userId;
    CoversKnown(me, msgs, convs, convs', m, i);
    CountsKnown(me, msgs, convs, m, i);
    LatestKnown(me, msgs, convs, m, i);
    OrderKnown(me, msgs, convs, convs', m);
  }

  lemma CountsKnown(me: Id, msgs: seq<Message>, convs: seq<Conversation>, m: Message, i: nat)
    requires CountsUnread(me, msgs, convs) && Distinct(convs)
    requires i < |convs| && convs[i].userId == Partner(me, m)
    ensures CountsUnread(me, msgs + [m], convs[i := Refresh(me, convs[i], m)])
  {
    var msgs', convs' := msgs + [m], convs[i := Refresh(me, convs[i], m)];
    assert msgs'[..|msgs|] == msgs;
    forall n | 0 <= n < |convs'| ensures convs'[n].unread == UnreadFrom(me, msgs', convs'[n].userId) {
      if n != i {
        assert convs'[n] == convs[n];
        assert convs[n].userId != convs[i].userId;
      }
    }
  }

  lemma LatestKnown(me: Id, msgs: seq<Message>, convs: seq<Conversation>, m: Message, i: nat)
    requires KeepsLatest(me, msgs, convs) && Distinct(convs)
    requires i < |convs| && convs[i].userId == Partner(me, m)
    ensures KeepsLatest(me, msgs + [m], convs[i := Refresh(me, convs[i], m)])
  {
    var msgs', convs' := msgs + [m], convs[i := Refresh(me, convs[i], m)];
    forall n | 0 <= n < |convs'|
      ensures exists j :: Latest(me, msgs', convs'[n].userId, j) && msgs'[j] == convs'[n].lastMessage
    {
      var j :| Latest(me, msgs, convs[n].userId, j) && msgs[j] == convs[n].lastMessage;
      if n != i {
        assert convs'[n] == convs[n];
        assert convs[n].userId != convs[i].userId;
        LatestKept(me, msgs, m, convs[n].userId, j);
      } else {
        LatestUpdated(me, msgs, m, j);
        var j' := if m.createdAt > msgs[j].createdAt then |msgs| else j;
        assert Latest(me, msgs', convs'[n].userId, j') && msgs'[j'] == convs'[n].lastMessage;
      }
    }
    assert forall n :: 0 <= n < |convs'| ==> exists j :: Latest(me, msgs', convs'[n].userId, j) && msgs'[j] == convs'[n].lastMessage;
  }

  lemma OrderKnown(me: Id, msgs: seq<Message>, convs: seq<Conversation>, convs': seq<Conversation>, m: Message)
    requires InFirstOrder(me, msgs, convs) && Covers(me, msgs, convs)
    requires |convs'| == |convs| && forall n :: 0 <= n < |convs| ==> convs'[n].userId == convs[n].userId
    ensures InFirstOrder(me, msgs + [m], convs')
  {
    var msgs' := msgs + [m];
    forall n, n', j, j' |
      0 <= n < n' < |convs'| && FirstSeen(me, msgs', convs'[n].userId, j) && FirstSeen(me, msgs', convs'[n'].userId, j')
      ensures j < j'
    {
      MentionedOfKnown(me, msgs, convs, n);
      MentionedOfKnown(me, msgs, convs, n');
      FirstSeenOld(me, msgs, m, convs[n].userId, j);
      FirstSeenOld(me, msgs, m, convs[n'].userId, j');
    }
  }

  lemma CoversKnown(me: Id, msgs: seq<Message>, convs: seq<Conversation>, convs': seq<Conversation>, m: Message, i: nat)
    requires Covers(me, msgs, convs)
    requires i < |convs| && convs[i].userId == Partner(me, m)
    requires |convs'| == |convs| && forall n :: 0 <= n < |convs| ==> convs'[n].userId == convs[n].userId
    ensures Covers(me, msgs + [m], convs')
  {
    var msgs' := msgs + [m];
    forall x ensures Mentioned(me, msgs', x) <==> exists n :: 0 <= n < |convs'| && convs'[n].userId == x {
      if Mentioned(me, msgs', x) {
        var k :| 0 <= k < |msgs'| && Partner(me, msgs'[k]) == x;
        if k < |msgs| {
          assert Mentioned(me, msgs, x);
          var n :| 0 <= n < |convs| && convs[n].userId == x;
          assert convs'[n].userId == x;
        } else {
          assert convs'[i].userId == x;
        }
      }
      if exists n :: 0 <= n < |convs'| && convs'[n].userId == x {
        var n :| 0 <= n < |convs'| && convs'[n].userId == x;
        assert convs[n].userId == x;
        assert Mentioned(me, msgs, x);
        var k :| 0 <= k < |msgs| && Partner(me, msgs[k]) == x;
        assert msgs'[k] == msgs[k];
      }
    }
  }

  /** Every partner with a conversation is the partner of some message. */
  lemma MentionedOfKnown(me: Id, msgs: seq<Message>, convs: seq<Conversation>, i: nat)
    requires Covers(me, msgs, convs) && i < |convs|
    ensures Mentioned(me, msgs, convs[i].userId)
  {
  }

  lemma NotMentionedNoUnread(me: Id, msgs: seq<Message>, other: Id)
    requires !Mentioned(me, msgs, other)
    ensures UnreadFrom(me, msgs, other) == 0
    decreases |msgs|
  {
    if |msgs| > 0 {
      var init := msgs[..|msgs| - 1];
      assert !Mentioned(me, init, other) by {
        forall k | 0 <= k < |init| ensures Partner(me, init[k]) != other {
          assert init[k] == msgs[k];
        }
      }
      NotMentionedNoUnread(me, init, other);
    }
  }

  /** A message with someone else leaves the latest message with `x` where it was. */
  lemma LatestKept(me: Id, msgs: seq<Message>, m: Message, x: Id, j: int)
    requires Latest(me, msgs, x, j) && Partner(me, m) != x
    ensures Latest(me, msgs + [m], x, j) && (msgs + [m])[j] == msgs[j]
  {
    var msgs' := msgs + [m];
    forall k | 0 <= k < |msgs'| && Partner(me, msgs'[k]) == x
      ensures msgs'[k].createdAt <= msgs'[j].createdAt
    {
      assert k < |msgs| && msgs'[k] == msgs[k];
    }
  }

  /** A message with `x` becomes the latest exactly when it is strictly later than the current one. */
  lemma LatestUpdated(me: Id, msgs: seq<Message>, m: Message, j: int)
    requires Latest(me, msgs, Partner(me, m), j)
    ensures var msgs' := msgs + [m];
      var j' := if m.createdAt > msgs[j].createdAt then |msgs| else j;
      Latest(me, msgs', Partner(me, m), j') && msgs'[j'] == (if m.createdAt > msgs[j].createdAt then m else msgs[j])
  {
    var x, msgs' := Partner(me, m), msgs + [m];
    var later := m.createdAt > msgs[j].createdAt;
    var j' := if later then |msgs| else j;
    forall k | 0 <= k < |msgs'| && Partner(me, msgs'[k]) == x
      ensures msgs'[k].createdAt <= msgs'[j'].createdAt
    {
      if k < |msgs| {
        assert msgs'[k] == msgs[k];
      }
    }
    forall k | 0 <= k < j' && Partner(me, msgs'[k]) == x
      ensures msgs'[k].createdAt < msgs'[j'].createdAt
    {
      assert msgs'[k] == msgs[k];
    }
  }

  /** A partner already seen keeps the index of its first message. */
  lemma FirstSeenOld(me: Id, msgs: seq<Message>, m: Message, x: Id, j: int)
    requires Mentioned(me, msgs, x) && FirstSeen(me, msgs + [m], x, j)
    ensures j < |msgs| && FirstSeen(me, msgs, x, j)
  {
    var k :| 0 <= k < |msgs| && Partner(me, msgs[k]) == x;
    assert (msgs + [m])[k] == msgs[k];
    forall k' | 0 <= k' < j ensures Partner(me, msgs[k']) != x {
      assert (msgs + [m])[k'] == msgs[k'];
    }
    assert (msgs + [m])[j] == msgs[j];
  }

  // ---------------------------------------------------------------------
  // Sending

  /**
   * `sendMessage`: the request it posts (`content: newMessage || ''`,
   * `image: imageUrl || null`), or nothing when both fields are blank or no
   * conversation is open.
   */
  function SendDraft(me: Id, selected: Option<Id>, text: string, imageUrl: string): (d: Option<Messages.Draft>)
    ensures d.None? <==> (Text.IsBlank(text) && Text.IsBlank(imageUrl)) || selected.None?
    ensures d.Some? ==>
      && d.value.senderId == Some(me) && d.value.receiverId == selected
      && d.value.content == Some(text)
      && d.value.image == (if imageUrl == "" then None else Some(imageUrl))
  {
    if Text.Trim(text) == "" && Text.Trim(imageUrl) == "" then None
    else if selected.None? then None
    else Some(Messages.Draft(Some(me), selected, Some(text), if imageUrl == "" then None else Some(imageUrl), None))
  }

  /**
   * The page lets a picture go without text, but the messages route insists
   * on text: such a send is refused with 400 and stores nothing.
   */
  lemma ImageOnlyRefused(s: Store, me: Id, other: Id, imageUrl: string, now: int)
    requires !Text.IsBlank(imageUrl)
    ensures var d := SendDraft(me, Some(other), "", imageUrl);
      && d.Some?
      && Messages.Send(s, d.value, now).response.Err?
      && Messages.Send(s, d.value, now).response.status == 400
      && Messages.Send(s, d.value, now).store == s
  {
  }
}

=== FILE: collections.dfy ===
/**
 * Sequence operations behind the store queries and the client-side lists:
 * `where` filters, `take`, and the ordering by a numeric key that both
 * `orderBy` and `Array.prototype.sort` with a difference comparator provide.
 */
module Collections {
  import opened Wrappers

  /** `s.filter(p)`: the elements satisfying `p`, in their original order. */
  function Filter<T(!new)>(s: seq<T>, p: T -> bool): (r: seq<T>)
    ensures |r| <= |s|
    ensures forall x :: x in r <==> x in s && p(x)
    ensures multiset(r) <= multiset(s)
  {
    if |s| == 0 then []
    else
      var rest := Filter(s[..|s| - 1], p);
      assert s == s[..|s| - 1] + [s[|s| - 1]];
      if p(s[|s| - 1]) then rest + [s[|s| - 1]] else rest
  }

  /** The filter keeps every copy of an element that passes and none of one that does not. */
  lemma {:induction false} FilterMultiplicity<T(!new)>(s: seq<T>, p: T -> bool)
    ensures forall x :: multiset(Filter(s, p))[x] == if p(x) then multiset(s)[x] else 0
  {
    if |s| > 0 {
      var init := s[..|s| - 1];
      FilterMultiplicity(init, p);
      assert s == init + [s[|s| - 1]];
    }
  }

  /** The number of elements satisfying `p`. */
  function Count<T(!new)>(s: seq<T>, p: T -> bool): nat
  {
    |Filter(s, p)|
  }

  lemma {:induction false} FilterAppend<T(!new)>(a: seq<T>, b: seq<T>, p: T -> bool)
    ensures Filter(a + b, p) == Filter(a, p) + Filter(b, p)
    decreases |b|
  {
    if |b| == 0 {
      assert a + b == a;
    } else {
      var b' := b[..|b| - 1];
      assert (a + b)[..|a + b| - 1] == a + b';
      FilterAppend(a, b', p);
    }
  }

  /** Replacing one element changes the count by what the old and the new element contribute. */
  lemma {:induction false} CountReplace<T(!new)>(s: seq<T>, k: nat, y: T, p: T -> bool)
    requires k < |s|
    ensures Count(s[k := y], p) + (if p(s[k]) then 1 else 0) == Count(s, p) + (if p(y) then 1 else 0)
  {
    var a, b := s[..k], s[k + 1..];
    assert s == a + [s[k]] + b;
    assert s[k := y] == a + [y] + b;
    FilterAppend(a + [s[k]], b, p);
    FilterAppend(a, [s[k]], p);
    FilterAppend(a + [y], b, p);
    FilterAppend(a, [y], p);
    assert [s[k]][..0] == [] && [y][..0] == [];
  }

  /** Filtering with a predicate that holds everywhere changes nothing. */
  lemma {:induction false} FilterAll<T(!new)>(s: seq<T>, p: T -> bool)
    requires forall i :: 0 <= i < |s| ==> p(s[i])
    ensures Filter(s, p) == s
  {
    if |s| > 0 {
      var init := s[..|s| - 1];
      assert forall i :: 0 <= i < |init| ==> init[i] == s[i];
      assert s == init + [s[|s| - 1]];
      FilterAll(init, p);
    }
  }

  /** Filtering with a predicate that fails everywhere leaves nothing. */
  lemma {:induction false} FilterNone<T(!new)>(s: seq<T>, p: T -> bool)
    requires forall i :: 0 <= i < |s| ==> !p(s[i])
    ensures Filter(s, p) == []
  {
    if |s| > 0 {
      var init := s[..|s| - 1];
      assert forall i :: 0 <= i < |init| ==> init[i] == s[i];
      assert s == init + [s[|s| - 1]];
      FilterNone(init, p);
    }
  }

  /** Two predicates that agree on every element filter alike. */
  lemma {:induction false} FilterCongruent<T(!new)>(s: seq<T>, p: T -> bool, q: T -> bool)
    requires forall i :: 0 <= i < |s| ==> p(s[i]) == q(s[i])
    ensures Filter(s, p) == Filter(s, q)
  {
    if |s| > 0 {
      var init := s[..|s| - 1];
      assert forall i :: 0 <= i < |init| ==> init[i] == s[i];
      assert s == init + [s[|s| - 1]];
      FilterCongruent(init, p, q);
    }
  }

  /** No two elements share a key. */
  predicate DistinctBy<T, K(==)>(s: seq<T>, key: T -> K) {
    forall i, j :: 0 <= i < j < |s| ==> key(s[i]) != key(s[j])
  }

  /** Filtering keeps keys distinct. */
  lemma {:induction false} FilterDistinct<T(!new), K>(s: seq<T>, key: T -> K, p: T -> bool)
    requires DistinctBy(s, key)
    ensures DistinctBy(Filter(s, p), key)
  {
    if |s| > 0 {
      var init := s[..|s| - 1];
      var last := s[|s| - 1];
      FilterDistinct(init, key, p);
      var rest := Filter(init, p);
      if p(last) {
        var r := rest + [last];
        forall i, j | 0 <= i < j < |r| ensures key(r[i]) != key(r[j]) {
          if j == |r| - 1 {
            assert r[i] in init;
            var k :| 0 <= k < |init| && init[k] == r[i];
            assert s[k] == r[i];
          }
        }
      }
    }
  }

  /** The index of the first element satisfying `p`, the element a first-match loop stops at. */
  function FirstIndex<T>(s: seq<T>, p: T -> bool): (r: Option<nat>)
    ensures r.None? <==> forall i :: 0 <= i < |s| ==> !p(s[i])
    ensures r.Some? ==> r.value < |s| && p(s[r.value]) && forall j :: 0 <= j < r.value ==> !p(s[j])
  {
    if |s| == 0 then None
    else if p(s[0]) then Some(0)
    else
      match FirstIndex(s[1..], p)
      case None => None
      case Some(k) => Some(k + 1)
  }

  /** The first element satisfying `p`: `findFirst`/`findUnique` on a table. */
  function First<T>(s: seq<T>, p: T -> bool): (r: Option<T>)
    ensures r.Some? ==> r.value in s && p(r.value)
    ensures r.None? <==> forall i :: 0 <= i < |s| ==> !p(s[i])
  {
    match FirstIndex(s, p)
    case None => None
    case Some(i) => Some(s[i])
  }

  /** `take: n`: the first `n` elements, or all of them when there are fewer. */
  function Take<T>(s: seq<T>, n: nat): (r: seq<T>)
    ensures |r| == if |s| <= n then |s| else n
    ensures r == s[..|r|]
  {
    if |s| <= n then s else s[..n]
  }

  /** Keys never increase from left to right. */
  predicate SortedDesc<T>(s: seq<T>, key: T -> int) {
    forall i, j :: 0 <= i < j < |s| ==> key(s[i]) >= key(s[j])
  }

  /** Keys never decrease from left to right. */
  predicate SortedAsc<T>(s: seq<T>, key: T -> int) {
    forall i, j :: 0 <= i < j < |s| ==> key(s[i]) <= key(s[j])
  }

  /**
   * Inserts `x` into a list sorted by descending key, after every element
   * whose key is at least `key(x)`; this keeps the sort stable.
   */
  function InsertDesc<T(!new)>(s: seq<T>, x: T, key: T -> int): (r: seq<T>)
    ensures multiset(r) == multiset(s) + multiset{x}
    ensures |r| == |s| + 1
  {
    if |s| == 0 then [x]
    else
      var last := s[|s| - 1];
      assert s == s[..|s| - 1] + [last];
      if key(x) > key(last) then InsertDesc(s[..|s| - 1], x, key) + [last]
      else s + [x]
  }

  lemma {:induction false} InsertDescSorted<T(!new)>(s: seq<T>, x: T, key: T -> int)
    requires SortedDesc(s, key)
    ensures SortedDesc(InsertDesc(s, x, key), key)
  {
    if |s| > 0 {
      var last := s[|s| - 1];
      var init := s[..|s| - 1];
      if key(x) > key(last) {
        InsertDescSorted(init, x, key);
        var r' := InsertDesc(init, x, key);
        forall i | 0 <= i < |r'| ensures key(r'[i]) >= key(last) {
          InsertedFrom(init, x, key, r'[i]);
          if r'[i] != x {
            var k :| 0 <= k < |init| && init[k] == r'[i];
            assert s[k] == r'[i];
          }
        }
        AppendLowest(r', last, key);
      } else {
        AppendLowest(s, x, key);
      }
    }
  }

  /** Appending an element whose key is at most every key of a descending list keeps it descending. */
  lemma AppendLowest<T>(s: seq<T>, x: T, key: T -> int)
    requires SortedDesc(s, key) && forall i :: 0 <= i < |s| ==> key(s[i]) >= key(x)
    ensures SortedDesc(s + [x], key)
  {
    var r := s + [x];
    forall i, j | 0 <= i < j < |r| ensures key(r[i]) >= key(r[j]) {
      if j == |s| {
        assert r[i] == s[i];
      }
    }
  }

  /** Every element of an insertion result is the inserted one or came from the list. */
  lemma InsertedFrom<T(!new)>(s: seq<T>, x: T, key: T -> int, y: T)
    requires y in InsertDesc(s, x, key)
    ensures y == x || y in s
  {
    assert y in multiset(InsertDesc(s, x, key));
  }

  /** A prefix of a prefix is a prefix. */
  lemma PrefixOfPrefix<T>(a: seq<T>, b: seq<T>, c: seq<T>)
    requires |a| <= |b| <= |c| && b[..|a|] == a && c[..|b|] == b
    ensures c[..|a|] == a
  {
    assert c[..|a|] == c[..|b|][..|a|];
  }

  lemma ConcatAssoc<T>(a: seq<T>, b: seq<T>, c: seq<T>)
    ensures a + (b + c) == (a + b) + c
  {
  }

  /** A non-empty list is its head followed by its tail. */
  lemma HeadTail<T>(s: seq<T>)
    requires |s| > 0
    ensures s == [s[0]] + s[1..]
  {
  }

  /** A list is its prefix before `k`, the element at `k` and the rest. */
  lemma SplitAround<T>(s: seq<T>, k: nat)
    requires k < |s|
    ensures s == s[..k] + [s[k]] + s[k + 1..]
  {
  }

  /** Removing the last element of `a` and an equal element of its permutation `b` leaves permutations. */
  lemma RemoveMatched<T>(a: seq<T>, b: seq<T>, k: nat)
    requires multiset(a) == multiset(b) && |a| > 0 && k < |b| && b[k] == a[|a| - 1]
    ensures multiset(a[..|a| - 1]) == multiset(b[..k] + b[k + 1..])
  {
    var x, p, q := b[k], b[..k], b[k + 1..];
    assert a == a[..|a| - 1] + [x];
    SplitAround(b, k);
    assert multiset(a) == multiset(a[..|a| - 1]) + multiset{x};
    assert multiset(b) == multiset(p) + multiset{x} + multiset(q);
    assert multiset(p + q) == multiset(p) + multiset(q);
    calc {
      multiset(a[..|a| - 1]);
      multiset(a) - multiset{x};
      multiset(b) - multiset{x};
      multiset(p + q);
    }
  }

  /** Stable sort by descending key, the order of `orderBy: 'desc'` and of `(a, b) => key(b) - key(a)`. */
  function SortDesc<T(!new)>(s: seq<T>, key: T -> int): (r: seq<T>)
    ensures SortedDesc(r, key)
    ensures multiset(r) == multiset(s)
    ensures |r| == |s|
  {
    if |s| == 0 then []
    else
      assert s == s[..|s| - 1] + [s[|s| - 1]];
      var sorted := SortDesc(s[..|s| - 1], key);
      InsertDescSorted(sorted, s[|s| - 1], key);
      InsertDesc(sorted, s[|s| - 1], key)
  }

  /** Sorting a list that is already in descending order gives it back unchanged: the sort is stable. */
  lemma {:induction false} SortDescSortedUnchanged<T(!new)>(s: seq<T>, key: T -> int)
    requires SortedDesc(s, key)
    ensures SortDesc(s, key) == s
  {
    if |s| > 0 {
      var init, last := s[..|s| - 1], s[|s| - 1];
      assert SortedDesc(init, key);
      SortDescSortedUnchanged(init, key);
      assert SortDesc(s, key) == InsertDesc(init, last, key);
      InsertLowest(init, last, key);
    }
  }

  /** Inserting an element whose key is at most the last key appends it. */
  lemma InsertLowest<T(!new)>(s: seq<T>, x: T, key: T -> int)
    requires |s| > 0 ==> key(s[|s| - 1]) >= key(x)
    ensures InsertDesc(s, x, key) == s + [x]
  {
  }

  /** Two lists that are permutations of each other hold the same elements. */
  lemma SameMembers<T>(a: seq<T>, b: seq<T>)
    requires multiset(a) == multiset(b)
    ensures forall x :: x in a <==> x in b
  {
    forall x ensures x in a <==> x in b {
      assert x in a <==> x in multiset(a);
      assert x in b <==> x in multiset(b);
    }
  }

  /** Stable sort by ascending key: descending by the negated key. */
  function SortAsc<T(!new)>(s: seq<T>, key: T -> int): (r: seq<T>)
    ensures SortedAsc(r, key)
    ensures multiset(r) == multiset(s)
    ensures |r| == |s|
  {
    var r := SortDesc(s, (x: T) => -key(x));
    assert forall i, j :: 0 <= i < j < |r| ==> -key(r[i]) >= -key(r[j]);
    r
  }

  /**
   * `findMany({ where: p, orderBy: key desc, take: n })`: the elements of `s`
   * satisfying `p`, largest key first, cut to at most `n`. An element left
   * out has a key no larger than any kept one, and is left out only when
   * `n` elements were kept.
   */
  function Newest<T(!new)>(s: seq<T>, p: T -> bool, key: T -> int, n: nat): (r: seq<T>)
    ensures |r| <= n
    ensures SortedDesc(r, key)
    ensures forall x :: x in r ==> x in s && p(x)
    ensures forall x :: x in s && p(x) && x !in r ==> |r| == n && forall k :: 0 <= k < |r| ==> key(r[k]) >= key(x)
  {
    var all := SortDesc(Filter(s, p), key);
    var r := Take(all, n);
    forall x | x in r ensures x in s && p(x) {
      assert x in multiset(all);
    }
    forall x | x in s && p(x) && x !in r
      ensures |r| == n && forall k :: 0 <= k < |r| ==> key(r[k]) >= key(x)
    {
      assert x in multiset(all);
      var j :| 0 <= j < |all| && all[j] == x;
      assert j >= |r|;
    }
    r
  }
}

=== FILE: exchanges.dfy ===
/**
 * POST /api/exchanges: a request to exchange for an item that is still
 * available and belongs to someone else.
 */
module Exchanges {
  import opened Wrappers
  import opened Store

  const MissingFields := "Thiếu thông tin bắt buộc"
  const ItemNotFound := "Không tìm thấy đồ"
  const NotAvailable := "Đồ này không còn khả dụng"
  const OwnItem := "Bạn không thể đổi đồ của chính mình"

  datatype Request = Request(itemId: Option<Id>, userId: Option<Id>, message: Option<string>)

  /**
   * POST /api/exchanges. The checks run in order: both ids present, the item
   * exists (404), it is available, it is not the requester's own; a requester
   * that does not exist then fails the insert (500).
   */
  function Create(s: Store, q: Request, now: int): (r: Step<Exchange>)
    ensures r.response.Err? ==> r.store == s
    ensures r.response.Err? && r.response.status == 400 && r.response.error == MissingFields <==> q.itemId.None? || q.userId.None?
    ensures r.response.Err? && r.response.status == 404 && r.response.error == ItemNotFound <==>
      q.itemId.Some? && q.userId.Some? && FindItem(s.items, q.itemId.value).None?
    ensures r.response.Err? && r.response.status == 400 && r.response.error == NotAvailable <==>
      q.itemId.Some? && q.userId.Some? && FindItem(s.items, q.itemId.value).Some?
      && FindItem(s.items, q.itemId.value).value.status != Available
    ensures r.response.Err? && r.response.status == 400 && r.response.error == OwnItem <==>
      q.itemId.Some? && q.userId.Some? && FindItem(s.items, q.itemId.value).Some?
      && FindItem(s.items, q.itemId.value).value.status == Available
      && FindItem(s.items, q.itemId.value).value.userId == q.userId.value
    ensures r.response.Err? && r.response.status == 500 && r.response.error == ServerError <==>
      q.itemId.Some? && q.userId.Some? && FindItem(s.items, q.itemId.value).Some?
      && FindItem(s.items, q.itemId.value).value.status == Available
      && FindItem(s.items, q.itemId.value).value.userId != q.userId.value
      && !HasUser(s, q.userId.value)
    ensures r.response.Err? ==> r.response.status in {400, 404, 500}
    ensures r.response.Ok? <==>
      && q.itemId.Some? && q.userId.Some? && FindItem(s.items, q.itemId.value).Some?
      && FindItem(s.items, q.itemId.value).value.status == Available
      && FindItem(s.items, q.itemId.value).value.userId != q.userId.value
      && HasUser(s, q.userId.value)
    ensures r.response.Ok? ==>
      && r.response.status == 201
      && r.response.body == Exchange(s.nextId, q.itemId.value, q.userId.value, OrNull(q.message), now)
      && r.store == s.(exchanges := s.exchanges + [r.response.body], nextId := s.nextId + 1)
  {
    if q.itemId.None? || q.userId.None? then Step(s, Err(400, MissingFields))
    else
      match FindItem(s.items, q.itemId.value)
      case None => Step(s, Err(404, ItemNotFound))
      case Some(item) =>
        if item.status != Available then Step(s, Err(400, NotAvailable))
        else if item.userId == q.userId.value then Step(s, Err(400, OwnItem))
        else if !HasUser(s, q.userId.value) then Step(s, Err(500, ServerError))
        else
          var e := Exchange(s.nextId, item.id, q.userId.value, OrNull(q.message), now);
          Step(s.(exchanges := s.exchanges + [e], nextId := s.nextId + 1), Ok(201, e))
  }

  /** An accepted exchange request always concerns an available item of another user. */
  lemma CreatedOnlyForOthersAvailable(s: Store, q: Request, now: int)
    requires Create(s, q, now).response.Ok?
    ensures var e := Create(s, q, now).response.body;
      exists i :: 0 <= i < |s.items| && s.items[i].id == e.itemId && s.items[i].status == Available
        && s.items[i].userId != e.userId
  {
    var item := FindItem(s.items, q.itemId.value).value;
    var k :| 0 <= k < |s.items| && s.items[k] == item;
  }

  /** Requesting an exchange keeps every store invariant. */
  lemma CreatePreservesValid(s: Store, q: Request, now: int)
    requires Valid(s)
    ensures Valid(Create(s, q, now).store)
  {
    var r := Create(s, q, now);
    if r.response.Ok? {
      var e := r.response.body;
      var s' := r.store;
      AppendedFresh(s, s', e);
      var item := FindItem(s.items, q.itemId.value).value;
      var k :| 0 <= k < |s.items| && s.items[k] == item;
      AppendedReferences(s, s', e);
    }
  }

  lemma AppendedFresh(s: Store, s': Store, e: Exchange)
    requires AllIdsFresh(s) && e.id == s.nextId
    requires s' == s.(exchanges := s.exchanges + [e], nextId := s.nextId + 1)
    ensures AllIdsFresh(s')
  {
    AppendFresh(s.exchanges, (x: Exchange) => x.id, s.nextId, e);
    RaiseAllFresh(s, s');
  }

  lemma AppendedReferences(s: Store, s': Store, e: Exchange)
    requires References(s) && HasItem(s, e.itemId) && HasUser(s, e.userId)
    requires s' == s.(exchanges := s.exchanges + [e], nextId := s'.nextId)
    ensures References(s')
  {
    assert RowsKept(s, s');
    UntouchedReferences(s, s');
    KeptRowsResolve(s, s');
    forall i | 0 <= i < |s'.exchanges| ensures HasItem(s', s'.exchanges[i].itemId) && HasUser(s', s'.exchanges[i].userId) {
      if i < |s.exchanges| {
        assert s'.exchanges[i] == s.exchanges[i];
      }
    }
  }
}

=== FILE: favorites.dfy ===
/**
 * GET, POST and DELETE /api/favorites: a user's saved items, keyed by the
 * pair (user, item), which the schema makes unique.
 */
module Favorites {
  import opened Wrappers
  import opened Store
  import Collections

  const MissingUserId := "Thiếu userId"
  const MissingFields := "Thiếu thông tin"
  const AlreadyFavorite := "Đã yêu thích rồi"
  const Removed := "Đã bỏ yêu thích"

  function CreatedAt(f: Favorite): int { f.createdAt }

  function Pair(f: Favorite): (Id, Id) { (f.userId, f.itemId) }

  /** `findUnique({ where: { userId_itemId } })`. */
  function Find(favorites: seq<Favorite>, userId: Id, itemId: Id): (r: Option<Favorite>)
    ensures r.Some? ==> r.value in favorites && Pair(r.value) == (userId, itemId)
    ensures r.None? <==> forall i :: 0 <= i < |favorites| ==> Pair(favorites[i]) != (userId, itemId)
  {
    if |favorites| == 0 then None
    else if Pair(favorites[0]) == (userId, itemId) then Some(favorites[0])
    else Find(favorites[1..], userId, itemId)
  }

  /** The item is among the user's favorites. */
  predicate IsFavorite(s: Store, userId: Id, itemId: Id) {
    exists i :: 0 <= i < |s.favorites| && Pair(s.favorites[i]) == (userId, itemId)
  }

  /** GET /api/favorites?userId=…: the user's favorites, newest first. */
  function List(s: Store, userId: Option<Id>): (r: Response<seq<Favorite>>)
    ensures r.Err? <==> userId.None?
    ensures r.Err? ==> r.status == 400 && r.error == MissingUserId
    ensures r.Ok? ==>
      && r.status == 200
      && Collections.SortedDesc(r.body, CreatedAt)
      && (forall f :: f in r.body <==> f in s.favorites && f.userId == userId.value)
      && multiset(r.body) <= multiset(s.favorites)
  {
    if userId.None? then Err(400, MissingUserId)
    else
      var mine := Collections.Filter(s.favorites, (f: Favorite) => f.userId == userId.value);
      var sorted := Collections.SortDesc(mine, CreatedAt);
      assert forall f :: f in sorted <==> f in mine by {
        forall f ensures f in sorted <==> f in mine {
          assert f in sorted <==> f in multiset(sorted);
        }
      }
      Ok(200, sorted)
  }

  /**
   * POST /api/favorites. A pair already saved is refused with 400; a user
   * or item that does not exist fails the insert (500).
   */
  function Add(s: Store, userId: Option<Id>, itemId: Option<Id>, now: int): (r: Step<Favorite>)
    ensures r.response.Err? ==> r.store == s
    ensures r.response.Err? && r.response.status == 400 && r.response.error == MissingFields <==> userId.None? || itemId.None?
    ensures r.response.Err? && r.response.status == 400 && r.response.error == AlreadyFavorite <==>
      userId.Some? && itemId.Some? && IsFavorite(s, userId.value, itemId.value)
    ensures r.response.Err? && r.response.status == 500 && r.response.error == ServerError <==>
      && userId.Some? && itemId.Some? && !IsFavorite(s, userId.value, itemId.value)
      && (!HasUser(s, userId.value) || !HasItem(s, itemId.value))
    ensures r.response.Err? ==> r.response.status in {400, 500}
    ensures r.response.Ok? <==>
      && userId.Some? && itemId.Some? && !IsFavorite(s, userId.value, itemId.value)
      && HasUser(s, userId.value) && HasItem(s, itemId.value)
    ensures r.response.Ok? ==>
      && r.response.status == 201
      && r.response.body == Favorite(s.nextId, userId.value, itemId.value, now)
      && r.store == s.(favorites := s.favorites + [r.response.body], nextId := s.nextId + 1)
      && IsFavorite(r.store, userId.value, itemId.value)
  {
    if userId.None? || itemId.None? then Step(s, Err(400, MissingFields))
    else if Find(s.favorites, userId.value, itemId.value).Some? then Step(s, Err(400, AlreadyFavorite))
    else if !HasUser(s, userId.value) || !HasItem(s, itemId.value) then Step(s, Err(500, ServerError))
    else
      var f := Favorite(s.nextId, userId.value, itemId.value, now);
      var s' := s.(favorites := s.favorites + [f], nextId := s.nextId + 1);
      assert s'.favorites[|s.favorites|] == f;
      Step(s', Ok(201, f))
  }

  /**
   * DELETE /api/favorites?userId=…&itemId=…. Deleting a pair that is not
   * saved fails in the database (500).
   */
  function Remove(s: Store, userId: Option<Id>, itemId: Option<Id>): (r: Step<string>)
    ensures r.response.Err? ==> r.store == s
    ensures r.response.Err? && r.response.status == 400 && r.response.error == MissingFields <==> userId.None? || itemId.None?
    ensures r.response.Err? && r.response.status == 500 && r.response.error == ServerError <==>
      userId.Some? && itemId.Some? && !IsFavorite(s, userId.value, itemId.value)
    ensures r.response.Err? ==> r.response.status in {400, 500}
    ensures r.response.Ok? <==> userId.Some? && itemId.Some? && IsFavorite(s, userId.value, itemId.value)
    ensures r.response.Ok? ==>
      && r.response == Ok(200, Removed)
      && r.store == s.(favorites := r.store.favorites)
      && !IsFavorite(r.store, userId.value, itemId.value)
      && (forall f :: f in r.store.favorites <==> f in s.favorites && Pair(f) != (userId.value, itemId.value))
  {
    if userId.None? || itemId.None? then Step(s, Err(400, MissingFields))
    else if Find(s.favorites, userId.value, itemId.value).None? then Step(s, Err(500, ServerError))
    else
      var kept := Without(s.favorites, (userId.value, itemId.value));
      assert forall i :: 0 <= i < |kept| ==> kept[i] in kept;
      Step(s.(favorites := kept), Ok(200, Removed))
  }

  /** The favorites other than the given pair, in order. */
  function Without(favorites: seq<Favorite>, pair: (Id, Id)): (r: seq<Favorite>)
    ensures forall f :: f in r <==> f in favorites && Pair(f) != pair
  {
    Collections.Filter(favorites, (f: Favorite) => Pair(f) != pair)
  }

  /** Saving an item keeps every store invariant, the uniqueness of pairs included. */
  lemma AddPreservesValid(s: Store, userId: Option<Id>, itemId: Option<Id>, now: int)
    requires Valid(s)
    ensures Valid(Add(s, userId, itemId, now).store)
  {
    var r := Add(s, userId, itemId, now);
    if r.response.Ok? {
      AddedValid(s, r.response.body);
    }
  }

  /** Appending a favorite with a fresh id, an unsaved pair and existing user and item keeps every invariant. */
  lemma AddedValid(s: Store, f: Favorite)
    requires Valid(s) && f.id == s.nextId && HasUser(s, f.userId) && HasItem(s, f.itemId)
    requires !IsFavorite(s, f.userId, f.itemId)
    ensures Valid(s.(favorites := s.favorites + [f], nextId := s.nextId + 1))
  {
    var s' := s.(favorites := s.favorites + [f], nextId := s.nextId + 1);
    AppendFresh(s.favorites, (g: Favorite) => g.id, s.nextId, f);
    RaiseAllFresh(s, s');
    AddedReferences(s, s', f);
    AddedUnique(s.favorites, f);
  }

  lemma AddedReferences(s: Store, s': Store, f: Favorite)
    requires References(s) && HasUser(s, f.userId) && HasItem(s, f.itemId)
    requires s' == s.(favorites := s.favorites + [f], nextId := s'.nextId)
    ensures References(s')
  {
    assert RowsKept(s, s');
    UntouchedReferences(s, s');
    KeptRowsResolve(s, s');
    forall i | 0 <= i < |s'.favorites| ensures HasUser(s', s'.favorites[i].userId) && HasItem(s', s'.favorites[i].itemId) {
      if i < |s.favorites| {
        assert s'.favorites[i] == s.favorites[i];
      }
    }
  }

  lemma AddedUnique(favorites: seq<Favorite>, f: Favorite)
    requires UniqueFavorites(favorites)
    requires forall i :: 0 <= i < |favorites| ==> Pair(favorites[i]) != Pair(f)
    ensures UniqueFavorites(favorites + [f])
  {
    var fs := favorites + [f];
    forall i, j | 0 <= i < j < |fs| ensures Pair(fs[i]) != Pair(fs[j]) {
      if j == |favorites| {
        assert fs[i] == favorites[i];
      } else {
        assert fs[i] == favorites[i] && fs[j] == favorites[j];
      }
    }
  }

  /** Removing a favorite keeps every store invariant. */
  lemma RemovePreservesValid(s: Store, userId: Option<Id>, itemId: Option<Id>)
    requires Valid(s)
    ensures Valid(Remove(s, userId, itemId).store)
  {
    var r := Remove(s, userId, itemId);
    if r.response.Ok? {
      RemoveKeepsOthers(s, userId.value, itemId.value);
      FilteredValid(s, (userId.value, itemId.value));
    }
  }

  /** A successful removal stores exactly the favorites of the other pairs. */
  lemma RemoveKeepsOthers(s: Store, userId: Id, itemId: Id)
    requires Remove(s, Some(userId), Some(itemId)).response.Ok?
    ensures Remove(s, Some(userId), Some(itemId)).store == s.(favorites := Without(s.favorites, (userId, itemId)))
  {
  }

  /** Dropping the favorites of one pair keeps every invariant. */
  lemma FilteredValid(s: Store, pair: (Id, Id))
    requires Valid(s)
    ensures Valid(s.(favorites := Without(s.favorites, pair)))
  {
    FilteredFresh(s, pair);
    FilteredUnique(s.favorites, pair);
    FilteredReferences(s, pair);
  }

  lemma FilteredFresh(s: Store, pair: (Id, Id))
    requires AllIdsFresh(s)
    ensures AllIdsFresh(s.(favorites := Without(s.favorites, pair)))
  {
    var kept := Without(s.favorites, pair);
    Collections.FilterDistinct(s.favorites, (f: Favorite) => f.id, (f: Favorite) => Pair(f) != pair);
    forall i | 0 <= i < |kept| ensures kept[i].id < s.nextId {
      assert kept[i] in s.favorites;
    }
  }

  lemma FilteredUnique(favorites: seq<Favorite>, pair: (Id, Id))
    requires UniqueFavorites(favorites)
    ensures UniqueFavorites(Without(favorites, pair))
  {
    Collections.FilterDistinct(favorites, Pair, (f: Favorite) => Pair(f) != pair);
  }

  lemma FilteredReferences(s: Store, pair: (Id, Id))
    requires References(s)
    ensures References(s.(favorites := Without(s.favorites, pair)))
  {
    var kept := Without(s.favorites, pair);
    assert forall i :: 0 <= i < |kept| ==> kept[i] in s.favorites;
    SubsetReferences(s, kept);
  }

  /** Keeping only favorites that were already stored keeps every reference resolvable. */
  lemma SubsetReferences(s: Store, fs: seq<Favorite>)
    requires References(s) && forall i :: 0 <= i < |fs| ==> fs[i] in s.favorites
    ensures References(s.(favorites := fs))
  {
    var s' := s.(favorites := fs);
    assert RowsKept(s, s');
    UntouchedReferences(s, s');
    forall i | 0 <= i < |fs| ensures HasUser(s', fs[i].userId) && HasItem(s', fs[i].itemId) {
      var k :| 0 <= k < |s.favorites| && s.favorites[k] == fs[i];
      var u :| 0 <= u < |s.users| && s.users[u].id == fs[i].userId;
      var x :| 0 <= x < |s.items| && s.items[x].id == fs[i].itemId;
      assert s'.users[u] == s.users[u] && s'.items[x] == s.items[x];
    }
  }

  /** Saving an item and then removing it gives back the favorites as they were. */
  lemma AddThenRemove(s: Store, userId: Id, itemId: Id, now: int)
    requires Add(s, Some(userId), Some(itemId), now).response.Ok?
    ensures Remove(Add(s, Some(userId), Some(itemId), now).store, Some(userId), Some(itemId)).store.favorites == s.favorites
  {
    var s1 := Add(s, Some(userId), Some(itemId), now).store;
    var f := Favorite(s.nextId, userId, itemId, now);
    assert s1.favorites == s.favorites + [f];
    WithoutAppended(s.favorites, f);
    assert Remove(s1, Some(userId), Some(itemId)).store == s1.(favorites := Without(s1.favorites, (userId, itemId)));
  }

  /** Dropping the pair of a row just appended, when no earlier row had it, leaves the earlier rows. */
  lemma WithoutAppended(favorites: seq<Favorite>, f: Favorite)
    requires forall i :: 0 <= i < |favorites| ==> Pair(favorites[i]) != Pair(f)
    ensures Without(favorites + [f], Pair(f)) == favorites
  {
    var p := (g: Favorite) => Pair(g) != Pair(f);
    Collections.FilterAppend(favorites, [f], p);
    Collections.FilterAll(favorites, p);
    assert Collections.Filter([f], p) == Collections.Filter([], p);
  }

  /** Removing a pair and saving it again makes it a favorite once more: the toggle of the item card. */
  lemma RemoveThenAdd(s: Store, userId: Id, itemId: Id, now: int)
    requires Valid(s) && IsFavorite(s, userId, itemId)
    ensures var s1 := Remove(s, Some(userId), Some(itemId)).store;
      Add(s1, Some(userId), Some(itemId), now).response.Ok?
  {
    var s1 := Remove(s, Some(userId), Some(itemId)).store;
    var i :| 0 <= i < |s.favorites| && Pair(s.favorites[i]) == (userId, itemId);
    var k :| 0 <= k < |s.users| && s.users[k].id == userId;
    var j :| 0 <= j < |s.items| && s.items[j].id == itemId;
    assert s1.users == s.users && s1.items == s.items;
    assert HasUser(s1, userId) && HasItem(s1, itemId);
  }
}

=== FILE: geminiclient.dfy ===
/**
 * The chat page's client for the gateway: it posts the message with the
 * page's conversation, reads the reply body whatever its status and shape,
 * picks the text to show, and yields it as a single chunk.
 */
module GeminiClient {
  import opened Wrappers
  import opened Json
  import Text
  import AiGateway

  const OverloadText := "Hệ thống AI đang quá tải hoặc vượt hạn mức. Vui lòng thử lại sau."
  const FailedText := "Đã xảy ra lỗi. Vui lòng thử lại."
  const EmptyText := "Xin lỗi, phản hồi rỗng từ máy chủ."
  const ConnectionText := "Xin lỗi, có lỗi kết nối tới máy chủ AI."

  // ---------------------------------------------------------------------
  // The request

  /** One message of the page's conversation. */
  datatype Message = Message(role: string, content: string)

  /** `{ role: m.role, content: m.content }`. */
  function Entry(m: Message): Json {
    JObj(map["role" := JStr(m.role), "content" := JStr(m.content)])
  }

  /** `initialMessages.map((m) => ({ role: m.role, content: m.content }))`. */
  function HistoryJson(history: seq<Message>): (r: seq<Json>)
    ensures |r| == |history|
    ensures forall k :: 0 <= k < |history| ==> r[k] == Entry(history[k])
  {
    seq(|history|, k requires 0 <= k < |history| => Entry(history[k]))
  }

  /** The posted body: `{ message, conversationHistory }`. */
  function RequestBody(message: string, history: seq<Message>): Json {
    JObj(map["message" := JStr(message), "conversationHistory" := JArr(HistoryJson(history))])
  }

  /**
   * What the model is given of the page's conversation, stated directly: the
   * messages whose content is not blank, speaking as the user exactly when
   * their role is "user".
   */
  function Sent(history: seq<Message>): seq<AiGateway.Turn> {
    if |history| == 0 then []
    else
      var init, m := history[..|history| - 1], history[|history| - 1];
      if Text.IsBlank(m.content) then Sent(init)
      else Sent(init) + [AiGateway.Turn(if m.role == "user" then AiGateway.UserRole else AiGateway.ModelRole, m.content)]
  }

  /** The gateway turns the posted conversation into exactly the turns `Sent` describes. */
  lemma {:induction false} HistoryReachesModel(history: seq<Message>)
    ensures AiGateway.Turns(HistoryJson(history)) == Sent(history)
  {
    if |history| > 0 {
      var init, m := history[..|history| - 1], history[|history| - 1];
      HistoryReachesModel(init);
      var js := HistoryJson(history);
      assert js[..|js| - 1] == HistoryJson(init);
      EntryTurn(m);
    }
  }

  /** The gateway keeps a posted message exactly when its content is not blank, and reads its role back. */
  lemma EntryTurn(m: Message)
    ensures AiGateway.Usable(Entry(m)) <==> !Text.IsBlank(m.content)
    ensures AiGateway.Usable(Entry(m)) ==>
      AiGateway.ToTurn(Entry(m)) == AiGateway.Turn(if m.role == "user" then AiGateway.UserRole else AiGateway.ModelRole, m.content)
  {
    var h := Entry(m);
    assert Get(h, "content") == JStr(m.content) && Get(h, "role") == JStr(m.role);
  }

  /** The gateway reads the message and the conversation back out of the posted body. */
  lemma RequestReadBack(p: AiGateway.Phrases, message: string, history: seq<Message>)
    ensures Get(RequestBody(message, history), "message") == JStr(message)
    ensures AiGateway.Conversation(p, Get(RequestBody(message, history), "conversationHistory"))[2..]
      == Sent(history)
  {
    HistoryReachesModel(history);
  }

  // ---------------------------------------------------------------------
  // The reply

  /** What the request gives back: a status and the raw body text, or a failure to connect. */
  datatype Exchange = Delivered(status: int, raw: string) | ConnectionFailed

  /** `resp.ok`. */
  predicate Successful(status: int) {
    200 <= status <= 299
  }

  /**
   * `raw ? JSON.parse(raw) : {}`, a body that does not parse being kept as
   * `{ response: raw }`. `parse` stands for `JSON.parse`, `None` when it throws.
   */
  function ParseBody(raw: string, parse: string -> Option<Json>): (data: Json)
    ensures raw == "" ==> data == JObj(map[])
    ensures raw != "" && parse(raw).None? ==> Get(data, "response") == JStr(raw)
    ensures raw != "" && parse(raw).Some? ==> data == parse(raw).value
  {
    if raw == "" then JObj(map[])
    else match parse(raw)
      case Some(v) => v
      case None => JObj(map["response" := JStr(raw)])
  }

  /**
   * The text shown for a reply with status `status` and parsed body `data`:
   * on 429 the response or the overload text, on another failure the
   * response, the error or a generic text (`||`), and on success the first of
   * response, text and error that is neither null nor undefined (`??`), with
   * an apology in place of an empty text.
   */
  function Shown(status: int, data: Json): (full: string)
    ensures Successful(status) ==> full != ""
    ensures var resp := Get(data, "response"); resp.JStr? && resp.s != "" ==> full == resp.s
    ensures status == 429 && !Truthy(Get(data, "response")) ==> full == OverloadText
    ensures status != 429 && !Successful(status) && !Truthy(Get(data, "response")) ==>
      full == if Truthy(Get(data, "error")) then Display(Get(data, "error")) else FailedText
    ensures !Successful(status) && Truthy(Get(data, "response")) ==> full == Display(Get(data, "response"))
    ensures Successful(status) && !Nullish(Get(data, "response")) ==>
      full == if Display(Get(data, "response")) == "" then EmptyText else Display(Get(data, "response"))
    ensures Successful(status) && Nullish(Get(data, "response")) && !Nullish(Get(data, "text")) ==>
      full == if Display(Get(data, "text")) == "" then EmptyText else Display(Get(data, "text"))
    ensures Successful(status) && Nullish(Get(data, "response")) && Nullish(Get(data, "text")) && !Nullish(Get(data, "error")) ==>
      full == if Display(Get(data, "error")) == "" then EmptyText else Display(Get(data, "error"))
    ensures Successful(status) && Nullish(Get(data, "response")) && Nullish(Get(data, "text")) && Nullish(Get(data, "error")) ==>
      full == EmptyText
  {
    if status == 429 then Display(Or(Get(data, "response"), JStr(OverloadText)))
    else if !Successful(status) then Display(Or(Get(data, "response"), Or(Get(data, "error"), JStr(FailedText))))
    else
      var text := Display(Coalesce(Get(data, "response"), Coalesce(Get(data, "text"), Coalesce(Get(data, "error"), JStr("")))));
      if text == "" then EmptyText else text
  }

  /** The text of the one chunk: the connection apology, or what `Shown` picks from the parsed body. */
  function Reply(exchange: Exchange, parse: string -> Option<Json>): (full: string)
    ensures exchange.ConnectionFailed? ==> full == ConnectionText
    ensures exchange.Delivered? && exchange.raw == "" ==>
      full == if exchange.status == 429 then OverloadText else if Successful(exchange.status) then EmptyText else FailedText
    ensures exchange.Delivered? && exchange.raw != "" && parse(exchange.raw).Some? ==>
      full == Shown(exchange.status, parse(exchange.raw).value)
  {
    match exchange
    case ConnectionFailed => ConnectionText
    case Delivered(status, raw) => Shown(status, ParseBody(raw, parse))
  }

  /**
   * `sendMessageStream`: posts the message with the conversation through
   * `send`, which stands for `fetch` and `resp.text()`, and yields exactly
   * one chunk.
   */
  function Stream(message: string, history: seq<Message>, send: Json -> Exchange, parse: string -> Option<Json>): (chunks: seq<string>)
    ensures |chunks| == 1
    ensures chunks[0] == Reply(send(RequestBody(message, history)), parse)
  {
    [Reply(send(RequestBody(message, history)), parse)]
  }

  /** A body that is not JSON is shown verbatim, whatever the status. */
  lemma UnparsableShownVerbatim(status: int, raw: string, parse: string -> Option<Json>)
    requires raw != "" && parse(raw).None?
    ensures Reply(Delivered(status, raw), parse) == raw
  {
  }

  // ---------------------------------------------------------------------
  // The gateway's replies as the client reads them

  /** The JSON body the gateway sends; the timestamp, which the client never reads, is left out. */
  function ReplyJson(g: AiGateway.GatewayReply): (j: Json)
    ensures Get(j, "response") == JStr(g.response)
    ensures Get(j, "error") == if g.error.Some? then JStr(g.error.value) else JUndefined
    ensures Get(j, "text") == JUndefined
  {
    var base := map["response" := JStr(g.response)];
    var withError := if g.error.Some? then base["error" := JStr(g.error.value)] else base;
    JObj(if g.source.Some? then withError["source" := JStr(g.source.value)] else withError)
  }

  /**
   * A reply of the gateway that arrives intact is shown by its response
   * text, except that an empty answer from the model becomes the apology.
   */
  lemma ClientShowsGatewayText(g: AiGateway.GatewayReply, raw: string, parse: string -> Option<Json>)
    requires raw != "" && parse(raw) == Some(ReplyJson(g))
    requires g.response == "" ==> g.status == 200
    ensures Reply(Delivered(g.status, raw), parse) == if g.response == "" then EmptyText else g.response
  {
  }

  /** End to end: whatever the gateway does, the page shows its response text or, for an empty answer, the apology. */
  lemma ChatShown(p: AiGateway.Phrases, request: Body, apiKey: Option<string>,
                  upstream: (seq<AiGateway.Turn>, string) -> AiGateway.Upstream, raw: string, parse: string -> Option<Json>)
    requires AiGateway.Spoken(p)
    requires raw != "" && parse(raw) == Some(ReplyJson(AiGateway.Chat(p, request, apiKey, upstream)))
    ensures var g := AiGateway.Chat(p, request, apiKey, upstream);
      Reply(Delivered(g.status, raw), parse) == if g.response == "" then EmptyText else g.response
  {
    AiGateway.ResponseAlwaysSet(p, request, apiKey, upstream);
    ClientShowsGatewayText(AiGateway.Chat(p, request, apiKey, upstream), raw, parse);
  }
}

=== FILE: itemcard.dfy ===
/**
 * The catalogue card of one item: which picture it shows, how it labels
 * the transaction type and colours the condition, and what its heart
 * button does.
 */
module ItemCard {
  import opened Wrappers
  import opened Json
  import opened Store
  import Favorites
  import NewItemPage
  import Items

  /** What the card is given of an item; `images` is the stored JSON text of the image list. */
  datatype Card = Card(
    id: Id,
    image: Option<string>,
    images: Option<string>,
    transactionType: Option<string>,
    condition: string)

  /** The card for a stored item: items have no single `image`, and the list is stored as JSON text. */
  function CardOf(x: Item, stringify: Json -> string): Card {
    Card(x.id, None, if x.images.Some? then Some(stringify(x.images.value)) else None, Some(x.transactionType), x.condition)
  }

  // ---------------------------------------------------------------------
  // The picture

  /**
   * `firstImage`: the item's own image when it is a non-empty string, else
   * the first entry of the parsed list, else null. `parse` stands for
   * `JSON.parse`, `None` when it throws.
   */
  function FirstImage(card: Card, parse: string -> Option<Json>): (shown: Json)
    ensures Given(card.image) ==> shown == JStr(card.image.value)
    ensures !Given(card.image) && !Given(card.images) ==> shown == JNull
    ensures !Given(card.image) && Given(card.images) && parse(card.images.value).None? ==> shown == JNull
    ensures !Given(card.image) && Given(card.images) && parse(card.images.value).Some? ==>
      var parsed := parse(card.images.value).value;
      && (parsed.JArr? && |parsed.elems| > 0 ==> shown == parsed.elems[0])
      && (!parsed.JArr? || |parsed.elems| == 0 ==> shown == JNull)
    ensures !Given(card.image) && shown != JNull ==>
      Given(card.images) && var parsed := parse(card.images.value);
      parsed.Some? && parsed.value.JArr? && |parsed.value.elems| > 0 && shown == parsed.value.elems[0]
  {
    if Given(card.image) then JStr(card.image.value)
    else if Given(card.images) then
      match parse(card.images.value)
      case Some(JArr(imgs)) => if |imgs| > 0 then imgs[0] else JNull
      case _ => JNull
    else JNull
  }

  /**
   * A card built from an item posted with a non-empty image list shows the
   * first link the user added, provided the stored text parses back to the
   * list.
   */
  lemma ShowsFirstPosted(s: Store, form: NewItemPage.Form, userId: Id, parseFloat: string -> Option<int>,
                         qrCode: string, now: int, stringify: Json -> string, parse: string -> Option<Json>)
    requires |form.images| > 0
    requires Items.Create(s, NewItemPage.Submitted(form, userId, parseFloat), qrCode, now).response.Ok?
    requires var d := NewItemPage.Submitted(form, userId, parseFloat);
      stringify(d.images) != "" && parse(stringify(d.images)) == Some(d.images)
    ensures var x := Items.Create(s, NewItemPage.Submitted(form, userId, parseFloat), qrCode, now).response.body;
      FirstImage(CardOf(x, stringify), parse) == JStr(form.images[0])
  {
    NewItemPage.PostedItem(s, form, userId, parseFloat, qrCode, now);
  }

  /** A list that is empty, or text that is not a list, shows no picture. */
  lemma NoListNoPicture(card: Card, parse: string -> Option<Json>)
    requires !Given(card.image) && Given(card.images)
    requires var parsed := parse(card.images.value); parsed.Some? && (parsed.value == JArr([]) || !parsed.value.JArr?)
    ensures FirstImage(card, parse) == JNull
  {
  }

  // ---------------------------------------------------------------------
  // Labels and colours

  const ExchangeLabel := "Đổi đồ"
  const GiftLabel := "Tặng miễn phí"
  const SellLabel := "Bán"

  const Green := "bg-green-100 text-green-800"
  const Blue := "bg-blue-100 text-blue-800"
  const Yellow := "bg-yellow-100 text-yellow-800"
  const Grey := "bg-gray-100 text-gray-800"

  /** `transactionTypeLabels[t] || t`: a known type is translated, any other is shown as it is. */
  function TypeLabel(t: string): (caption: string)
    ensures t == "exchange" ==> caption == ExchangeLabel
    ensures t == "gift" ==> caption == GiftLabel
    ensures t == "sell" ==> caption == SellLabel
    ensures t !in {"exchange", "gift", "sell"} ==> caption == t
  {
    if t == "exchange" then ExchangeLabel
    else if t == "gift" then GiftLabel
    else if t == "sell" then SellLabel
    else t
  }

  /**
   * The three types the posting form offers get three different labels, and
   * no label is the raw name of a type, so a known type never shows as it
   * is stored.
   */
  lemma LabelsTranslate()
    ensures TypeLabel("exchange") != TypeLabel("gift") && TypeLabel("gift") != TypeLabel("sell")
    ensures TypeLabel("exchange") != TypeLabel("sell")
    ensures forall t :: t in {"exchange", "gift", "sell"} ==> TypeLabel(t) !in {"exchange", "gift", "sell"}
  {
    assert ExchangeLabel[0] == 'Đ' && GiftLabel[0] == 'T' && SellLabel[0] == 'B';
  }

  /** The type badge, drawn only when the item has a non-empty type. */
  function TypeBadge(card: Card): (badge: Option<string>)
    ensures badge.Some? <==> Given(card.transactionType)
    ensures badge.Some? ==> badge.value != "" && badge.value == TypeLabel(card.transactionType.value)
  {
    if Given(card.transactionType) then Some(TypeLabel(card.transactionType.value)) else None
  }

  /** `conditionColors[c] || grey`: each of the three conditions has its own colour, anything else is grey. */
  function ConditionColour(c: string): (colour: string)
    ensures c == "Mới" ==> colour == Green
    ensures c == "Còn tốt" ==> colour == Blue
    ensures c == "Đã qua sử dụng" ==> colour == Yellow
    ensures c !in {"Mới", "Còn tốt", "Đã qua sử dụng"} ==> colour == Grey
  {
    if c == "Mới" then Green
    else if c == "Còn tốt" then Blue
    else if c == "Đã qua sử dụng" then Yellow
    else Grey
  }

  /** The three conditions the posting form offers get three different colours, none of them grey. */
  lemma ConditionsDistinguished()
    ensures ConditionColour("Mới") != ConditionColour("Còn tốt")
    ensures ConditionColour("Còn tốt") != ConditionColour("Đã qua sử dụng")
    ensures ConditionColour("Mới") != ConditionColour("Đã qua sử dụng")
    ensures ConditionColour("Mới") != Grey && ConditionColour("Còn tốt") != Grey && ConditionColour("Đã qua sử dụng") != Grey
  {
    assert Green[3] == 'g' && Blue[3] == 'b' && Yellow[3] == 'y' && Grey[3] == 'g' && Grey[4] == 'r';
  }

  // ---------------------------------------------------------------------
  // The heart button

  /** The request the button sends, if any. */
  datatype Request = NoRequest | Unsave(userId: Id, itemId: Id) | Save(userId: Id, itemId: Id)

  /** The request sent and the heart's new state. */
  datatype Toggle = Toggle(request: Request, isFavorite: bool)

  /**
   * `toggleFavorite`: without a logged-in user nothing is sent and nothing
   * changes; otherwise it sends DELETE or POST and flips the heart, unless
   * the request could not be made at all (`reached` false), whatever the
   * response's status.
   */
  function ToggleFavorite(user: Option<Id>, itemId: Id, isFavorite: bool, reached: bool): (r: Toggle)
    ensures user.None? ==> r == Toggle(NoRequest, isFavorite)
    ensures user.Some? ==> r.request == if isFavorite then Unsave(user.value, itemId) else Save(user.value, itemId)
    ensures user.Some? ==> r.isFavorite == (if reached then !isFavorite else isFavorite)
  {
    if user.None? then Toggle(NoRequest, isFavorite)
    else
      var request := if isFavorite then Unsave(user.value, itemId) else Save(user.value, itemId);
      Toggle(request, if reached then !isFavorite else isFavorite)
  }

  /** The store after the server has handled the request. */
  function Handle(s: Store, request: Request, now: int): Store {
    match request
    case NoRequest => s
    case Unsave(u, i) => Favorites.Remove(s, Some(u), Some(i)).store
    case Save(u, i) => Favorites.Add(s, Some(u), Some(i), now).store
  }

  /**
   * Once the request arrives, the heart shows what the store holds,
   * even when the heart was out of date: a stale POST is refused because
   * the pair is saved, and a stale DELETE fails because it is not.
   */
  lemma HeartAgreesWithStore(s: Store, user: Id, itemId: Id, isFavorite: bool, now: int)
    requires HasUser(s, user) && HasItem(s, itemId)
    ensures var t := ToggleFavorite(Some(user), itemId, isFavorite, true);
      t.isFavorite == Favorites.IsFavorite(Handle(s, t.request, now), user, itemId)
  {
  }
}

=== FILE: items.dfy ===
/**
 * GET and POST /api/items: the catalogue query, built as a `where` clause
 * from the optional query parameters, and item creation with its defaults.
 */
module Items {
  import opened Wrappers
  import opened Json
  import opened Store
  import Text
  import Collections

  /** The query string of GET /api/items; an absent parameter is `None`. */
  datatype ListQuery = ListQuery(
    category: Option<string>,
    condition: Option<string>,
    search: Option<string>,
    city: Option<string>,
    transactionType: Option<string>,
    status: Option<string>)

  /** One conjunct of the `where` object the handler assembles. */
  datatype Condition =
    | StatusIs(status: string)
    | CategoryIs(category: string)
    | ConditionIs(condition: string)
    | CityContains(city: string)
    | TypeIs(transactionType: string)
    | TitleOrDescriptionContains(search: string)

  /**
   * Which conditions the `where` object holds: the status (default
   * "available"), and for each other parameter that is non-empty, the
   * condition on that parameter's value.
   */
  predicate Wanted(q: ListQuery, c: Condition) {
    match c
    case StatusIs(v) => v == OrElse(q.status, Available)
    case CategoryIs(v) => Given(q.category) && v == q.category.value
    case ConditionIs(v) => Given(q.condition) && v == q.condition.value
    case CityContains(v) => Given(q.city) && v == q.city.value
    case TypeIs(v) => Given(q.transactionType) && v == q.transactionType.value
    case TitleOrDescriptionContains(v) => Given(q.search) && v == q.search.value
  }

  /** The `where` object: the status first, then each filter whose parameter is non-empty, each at most once. */
  function BuildWhere(q: ListQuery): (r: seq<Condition>)
    ensures 1 <= |r| <= 6
    ensures r[0] == StatusIs(OrElse(q.status, Available))
    ensures forall c :: c in r <==> Wanted(q, c)
    ensures forall i, j :: 0 <= i < j < |r| ==> r[i] != r[j]
  {
    [StatusIs(OrElse(q.status, Available))]
    + (if Given(q.category) then [CategoryIs(q.category.value)] else [])
    + (if Given(q.condition) then [ConditionIs(q.condition.value)] else [])
    + (if Given(q.city) then [CityContains(q.city.value)] else [])
    + (if Given(q.transactionType) then [TypeIs(q.transactionType.value)] else [])
    + (if Given(q.search) then [TitleOrDescriptionContains(q.search.value)] else [])
  }

  /** How the database evaluates one condition; `contains` on a null column never matches. */
  predicate Holds(c: Condition, x: Item) {
    match c
    case StatusIs(v) => x.status == v
    case CategoryIs(v) => x.category == v
    case ConditionIs(v) => x.condition == v
    case CityContains(v) => x.city.Some? && Text.Contains(x.city.value, v)
    case TypeIs(v) => x.transactionType == v
    case TitleOrDescriptionContains(v) => Text.Contains(x.title, v) || Text.Contains(x.description, v)
  }

  predicate Satisfies(x: Item, where: seq<Condition>) {
    forall c :: c in where ==> Holds(c, x)
  }

  /**
   * What the catalogue query means, parameter by parameter: the status
   * (default "available"), exact category, condition and transaction type,
   * a city containing the given text, and a title or description containing
   * the search text. A parameter that is absent or empty does not filter.
   */
  predicate Matches(q: ListQuery, x: Item) {
    && (!Given(q.status) ==> x.status == Available)
    && (Given(q.status) ==> x.status == q.status.value)
    && (Given(q.category) ==> x.category == q.category.value)
    && (Given(q.condition) ==> x.condition == q.condition.value)
    && (Given(q.city) ==> x.city.Some? && Text.Contains(x.city.value, q.city.value))
    && (Given(q.transactionType) ==> x.transactionType == q.transactionType.value)
    && (Given(q.search) ==> Text.Contains(x.title, q.search.value) || Text.Contains(x.description, q.search.value))
  }

  /** The assembled `where` object selects exactly the items the parameters describe. */
  lemma WhereMeaning(q: ListQuery, x: Item)
    ensures Satisfies(x, BuildWhere(q)) <==> Matches(q, x)
  {
    var w := BuildWhere(q);
    if Satisfies(x, w) {
      assert StatusIs(OrElse(q.status, Available)) in w;
      if Given(q.category) { assert CategoryIs(q.category.value) in w; }
      if Given(q.condition) { assert ConditionIs(q.condition.value) in w; }
      if Given(q.city) { assert CityContains(q.city.value) in w; }
      if Given(q.transactionType) { assert TypeIs(q.transactionType.value) in w; }
      if Given(q.search) { assert TitleOrDescriptionContains(q.search.value) in w; }
    }
  }

  function CreatedAt(x: Item): int { x.createdAt }

  /** GET /api/items: the items satisfying the `where` object, newest first. */
  function List(s: Store, q: ListQuery): (r: seq<Item>)
    ensures Collections.SortedDesc(r, CreatedAt)
    ensures forall x :: x in r <==> x in s.items && Matches(q, x)
    ensures multiset(r) <= multiset(s.items)
  {
    var where := BuildWhere(q);
    var selected := Collections.Filter(s.items, (x: Item) => Satisfies(x, where));
    var r := Collections.SortDesc(selected, CreatedAt);
    assert forall x :: x in r <==> x in selected by {
      forall x ensures x in r <==> x in selected {
        assert x in r <==> x in multiset(r);
      }
    }
    forall x ensures Satisfies(x, where) <==> Matches(q, x) {
      WhereMeaning(q, x);
    }
    r
  }

  /** Without a status parameter only available items are listed. */
  lemma ListDefaultsToAvailable(s: Store, q: ListQuery, x: Item)
    requires !Given(q.status) && x in List(s, q)
    ensures x.status == Available
  {
  }

  /**
   * The body of POST /api/items. A missing or null field is `None`; an empty
   * text field, which the form posts as it stands, is `Some("")`, and
   * `Given` treats both as absent.
   */
  datatype Draft = Draft(
    title: Option<string>,
    description: Option<string>,
    category: Option<string>,
    condition: Option<string>,
    images: Json,
    transactionType: Option<string>,
    price: Option<int>,
    city: Option<string>,
    address: Option<string>,
    latitude: Option<real>,
    longitude: Option<real>,
    userId: Option<Id>)

  const MissingFields := "Vui lòng điền đầy đủ thông tin"
  const DefaultTransactionType := "exchange"
  const Sell := "sell"

  predicate Complete(d: Draft) {
    Given(d.title) && Given(d.description) && Given(d.category) && Given(d.condition) && d.userId.Some?
  }

  /** `x || null` on a coordinate: 0 is falsy and is stored as null. */
  function NonZero(o: Option<real>): (r: Option<real>)
    ensures r.Some? <==> o.Some? && o.value != 0.0
    ensures r.Some? ==> r == o
  {
    if o.Some? && o.value != 0.0 then o else None
  }

  /**
   * The row POST /api/items inserts for a complete draft: a new available
   * item with no views, owned by the draft's user; the transaction type
   * defaults to "exchange", a price is kept only for a sale, and empty optional
   * text, a missing or null image value and zero coordinates are stored as
   * null; any truthy image value, an empty list included, is stored.
   */
  function NewItem(d: Draft, id: Id, qrCode: string, now: int): (r: Item)
    requires Complete(d)
    ensures r.id == id && r.qrCode == qrCode && r.createdAt == now
    ensures r.status == Available && r.views == 0
    ensures r.userId == d.userId.value
    ensures Some(r.title) == d.title && Some(r.description) == d.description
    ensures Some(r.category) == d.category && Some(r.condition) == d.condition
    ensures r.transactionType == (if Given(d.transactionType) then d.transactionType.value else DefaultTransactionType)
    ensures r.price.Some? <==> d.transactionType == Some(Sell) && d.price.Some?
    ensures r.price.Some? ==> r.price == d.price
    ensures r.images.Some? <==> Truthy(d.images)
    ensures r.images.Some? ==> r.images.value == d.images
    ensures r.city.Some? <==> Given(d.city)
    ensures r.city.Some? ==> r.city == d.city
    ensures r.address.Some? <==> Given(d.address)
    ensures r.address.Some? ==> r.address == d.address
    ensures r.latitude.Some? <==> d.latitude.Some? && d.latitude.value != 0.0
    ensures r.longitude.Some? <==> d.longitude.Some? && d.longitude.value != 0.0
  {
    Item(
      id := id,
      title := d.title.value,
      description := d.description.value,
      category := d.category.value,
      condition := d.condition.value,
      images := if Truthy(d.images) then Some(d.images) else None,
      transactionType := OrElse(d.transactionType, DefaultTransactionType),
      price := if d.transactionType == Some(Sell) then d.price else None,
      city := OrNull(d.city),
      address := OrNull(d.address),
      latitude := NonZero(d.latitude),
      longitude := NonZero(d.longitude),
      qrCode := qrCode,
      status := Available,
      views := 0,
      userId := d.userId.value,
      createdAt := now)
  }

  /**
   * POST /api/items. `qrCode` is the fresh random token and `now` the clock.
   * A reference to a missing user fails the insert (500).
   */
  function Create(s: Store, d: Draft, qrCode: string, now: int): (r: Step<Item>)
    ensures r.response.Err? && r.response.status == 400 && r.response.error == MissingFields <==> !Complete(d)
    ensures r.response.Err? && r.response.status == 500 && r.response.error == ServerError <==>
      Complete(d) && !HasUser(s, d.userId.value)
    ensures r.response.Err? ==> r.response.status in {400, 500}
    ensures r.response.Err? ==> r.store == s
    ensures r.response.Ok? <==> Complete(d) && HasUser(s, d.userId.value)
    ensures r.response.Ok? ==>
      var x := r.response.body;
      && r.response.status == 201
      && r.store == s.(items := s.items + [x], nextId := s.nextId + 1)
      && x.id == s.nextId
      && x.title == d.title.value && x.description == d.description.value
      && x.category == d.category.value && x.condition == d.condition.value
      && x.userId == d.userId.value && x.qrCode == qrCode
      && x.status == Available && x.views == 0
      && (Given(d.transactionType) ==> x.transactionType == d.transactionType.value)
      && (!Given(d.transactionType) ==> x.transactionType == DefaultTransactionType)
      && (x.price.Some? ==> x.transactionType == Sell)
      && (d.transactionType == Some(Sell) ==> x.price == d.price)
      && (x.images.Some? <==> Truthy(d.images)) && (x.images.Some? ==> x.images.value == d.images)
      && (x.city.Some? <==> Given(d.city)) && (x.city.Some? ==> x.city == d.city)
      && (x.address.Some? <==> Given(d.address)) && (x.address.Some? ==> x.address == d.address)
      && x.latitude == NonZero(d.latitude) && x.longitude == NonZero(d.longitude)
      && x.createdAt == now
  {
    if !Complete(d) then
      Step(s, Err(400, MissingFields))
    else if !HasUser(s, d.userId.value) then
      Step(s, Err(500, ServerError))
    else
      var x := NewItem(d, s.nextId, qrCode, now);
      Step(s.(items := s.items + [x], nextId := s.nextId + 1), Ok(201, x))
  }

  /** Creating an item keeps every store invariant. */
  lemma CreatePreservesValid(s: Store, d: Draft, qrCode: string, now: int)
    requires Valid(s)
    ensures Valid(Create(s, d, qrCode, now).store)
  {
    var r := Create(s, d, qrCode, now);
    if r.response.Ok? {
      ItemAppendedValid(s, r.response.body);
    }
  }
}

=== FILE: itemspage.dfy ===
/**
 * The catalogue page: its filter form becomes the query string of
 * GET /api/items, and the list that comes back is re-ordered in the browser
 * by the chosen sort mode.
 */
module ItemsPage {
  import opened Wrappers
  import opened Store
  import Collections
  import Items

  /** The page's form state; every filter starts empty and the sort starts at "newest". */
  datatype Filters = Filters(
    search: string,
    category: string,
    condition: string,
    city: string,
    transactionType: string,
    sortBy: string)

  const Initial := Filters("", "", "", "", "", "newest")

  // ---------------------------------------------------------------------
  // The query string

  /** The filters' names in the query string. */
  datatype Field = Category | Condition | Search | City | TransactionType | Status

  function Name(field: Field): string {
    match field
    case Category => "category"
    case Condition => "condition"
    case Search => "search"
    case City => "city"
    case TransactionType => "transactionType"
    case Status => "status"
  }

  /** `if (value) params.append(key, value)`. */
  function Param(key: Field, value: string): seq<(Field, string)> {
    if value == "" then [] else [(key, value)]
  }

  /** The parameters the page appends, in the order it appends them. */
  function Query(f: Filters): (params: seq<(Field, string)>)
    ensures |params| <= 5
    ensures forall k :: 0 <= k < |params| ==> params[k].1 != ""
  {
    Param(Category, f.category) + Param(Condition, f.condition) + Param(Search, f.search)
      + Param(City, f.city) + Param(TransactionType, f.transactionType)
  }

  /** Every filter as a parameter, empty ones included, in the page's order. */
  function Candidates(f: Filters): seq<(Field, string)> {
    [(Category, f.category), (Condition, f.condition), (Search, f.search),
     (City, f.city), (TransactionType, f.transactionType)]
  }

  predicate Filled(p: (Field, string)) {
    p.1 != ""
  }

  /** The query string lists exactly the filled filters, in the page's order. */
  lemma QueryKeepsFilled(f: Filters)
    ensures Query(f) == Collections.Filter(Candidates(f), Filled)
  {
    var p0, p1, p2, p3, p4 := (Category, f.category), (Condition, f.condition), (Search, f.search),
      (City, f.city), (TransactionType, f.transactionType);
    assert Candidates(f) == [p0, p1, p2, p3] + [p4];
    assert [p0, p1, p2, p3] == [p0, p1, p2] + [p3];
    assert [p0, p1, p2] == [p0, p1] + [p2];
    assert [p0, p1] == [p0] + [p1];
    Collections.FilterAppend([p0, p1, p2, p3], [p4], Filled);
    Collections.FilterAppend([p0, p1, p2], [p3], Filled);
    Collections.FilterAppend([p0, p1], [p2], Filled);
    Collections.FilterAppend([p0], [p1], Filled);
    ParamFilters(p0);
    ParamFilters(p1);
    ParamFilters(p2);
    ParamFilters(p3);
    ParamFilters(p4);
  }

  /** Appending one parameter is filtering the one-element list holding it. */
  lemma ParamFilters(p: (Field, string))
    ensures Param(p.0, p.1) == Collections.Filter([p], Filled)
  {
    assert [p][..0] == [];
  }

  /** `searchParams.get(key)`: the value of the first parameter named `key`, if any. */
  function Lookup(params: seq<(Field, string)>, key: Field): (r: Option<string>)
    ensures r.Some? <==> exists k :: 0 <= k < |params| && params[k].0 == key
    ensures r.Some? ==> (key, r.value) in params
  {
    if |params| == 0 then None
    else if params[0].0 == key then Some(params[0].1)
    else
      var r := Lookup(params[1..], key);
      assert forall k :: 0 < k < |params| ==> params[k] == params[1..][k - 1];
      r
  }

  lemma {:induction false} LookupConcat(a: seq<(Field, string)>, b: seq<(Field, string)>, key: Field)
    ensures Lookup(a + b, key) == if Lookup(a, key).Some? then Lookup(a, key) else Lookup(b, key)
  {
    if |a| > 0 && a[0].0 != key {
      assert (a + b)[1..] == a[1..] + b;
      LookupConcat(a[1..], b, key);
    } else if |a| > 0 {
      assert (a + b)[0] == a[0];
    } else {
      assert a + b == b;
    }
  }

  /** A filter left empty is not sent; a filled one is. */
  function ParamValue(value: string): (r: Option<string>)
    ensures r.None? <==> value == ""
    ensures r.Some? ==> r.value == value
  {
    if value == "" then None else Some(value)
  }

  /** What GET /api/items reads out of the query string. */
  function ServerQuery(params: seq<(Field, string)>): Items.ListQuery {
    Items.ListQuery(Lookup(params, Category), Lookup(params, Condition), Lookup(params, Search),
      Lookup(params, City), Lookup(params, TransactionType), Lookup(params, Status))
  }

  /** The value the form holds for `key`; the form has no status field. */
  function FormValue(f: Filters, key: Field): string {
    match key
    case Category => f.category
    case Condition => f.condition
    case Search => f.search
    case City => f.city
    case TransactionType => f.transactionType
    case Status => ""
  }

  /** The query string carries each filter under its own name exactly when it is filled. */
  lemma LookupFilled(f: Filters, key: Field)
    ensures Lookup(Query(f), key) == ParamValue(FormValue(f, key))
  {
    var a, b, c, d, e := Param(Category, f.category), Param(Condition, f.condition), Param(Search, f.search),
      Param(City, f.city), Param(TransactionType, f.transactionType);
    LookupConcat(a + b + c + d, e, key);
    LookupConcat(a + b + c, d, key);
    LookupConcat(a + b, c, key);
    LookupConcat(a, b, key);
  }

  /**
   * The handler receives exactly the filters the user filled in, each under
   * its own name, and never a status: it falls back to its default status.
   */
  lemma ServerSeesFilled(f: Filters)
    ensures ServerQuery(Query(f)) ==
      Items.ListQuery(ParamValue(f.category), ParamValue(f.condition), ParamValue(f.search), ParamValue(f.city), ParamValue(f.transactionType), None)
  {
    LookupFilled(f, Category);
    LookupFilled(f, Condition);
    LookupFilled(f, Search);
    LookupFilled(f, City);
    LookupFilled(f, TransactionType);
    LookupFilled(f, Status);
  }

  /** Clearing the filters resets every field, whatever the form held. */
  function ClearFilters(f: Filters): (r: Filters)
    ensures Query(r) == []
    ensures r.sortBy == Initial.sortBy
  {
    Initial
  }

  /** After clearing, the handler applies no filter but its default status, just as on first load. */
  lemma ClearedShowsEverything(f: Filters)
    ensures ServerQuery(Query(ClearFilters(f))) == ServerQuery(Query(Initial))
    ensures ServerQuery(Query(Initial)) == Items.ListQuery(None, None, None, None, None, None)
  {
  }

  // ---------------------------------------------------------------------
  // Sorting in the browser

  /** `b.views || 0`; the store always holds a count, so the fallback never applies. */
  function Views(x: Item): int { x.views }

  /** `a.price || 0`. */
  function PriceOf(x: Item): int {
    if x.price.Some? then x.price.value else 0
  }

  /** `item.price` is truthy: present and not zero. */
  predicate Priced(x: Item) {
    x.price.Some? && x.price.value != 0
  }

  /** The options of the sort menu; any other value leaves the list as fetched. */
  datatype SortMode = Newest | Oldest | MostViewed | PriceLow | PriceHigh | Unknown

  /** The menu value `sortBy` as a sort mode. */
  function ModeOf(sortBy: string): SortMode {
    if sortBy == "newest" then Newest
    else if sortBy == "oldest" then Oldest
    else if sortBy == "views" then MostViewed
    else if sortBy == "price-low" then PriceLow
    else if sortBy == "price-high" then PriceHigh
    else Unknown
  }

  /** The value each entry of the sort menu submits. */
  function MenuValue(mode: SortMode): string {
    match mode
    case Newest => "newest"
    case Oldest => "oldest"
    case MostViewed => "views"
    case PriceLow => "price-low"
    case PriceHigh => "price-high"
    case Unknown => ""
  }

  /** Every entry of the sort menu selects its own mode, and the initial value is the newest-first entry. */
  lemma MenuSelectsMode(mode: SortMode)
    ensures ModeOf(MenuValue(mode)) == mode
    ensures ModeOf(Initial.sortBy) == Newest
  {
  }

  /**
   * The list the page shows in sort mode `mode`: newest and oldest by
   * creation time, most viewed first, the price orders over priced items only,
   * and an unknown mode leaves the server's order.
   */
  function Arrange(mode: SortMode, data: seq<Item>): (shown: seq<Item>)
    ensures mode == Newest ==> Collections.SortedDesc(shown, Items.CreatedAt) && multiset(shown) == multiset(data)
    ensures mode == Oldest ==> Collections.SortedAsc(shown, Items.CreatedAt) && multiset(shown) == multiset(data)
    ensures mode == MostViewed ==> Collections.SortedDesc(shown, Views) && multiset(shown) == multiset(data)
    ensures mode == PriceLow ==> Collections.SortedAsc(shown, PriceOf)
    ensures mode == PriceHigh ==> Collections.SortedDesc(shown, PriceOf)
    ensures mode == PriceLow || mode == PriceHigh ==>
      multiset(shown) == multiset(Collections.Filter(data, Priced)) && forall x :: x in shown <==> x in data && Priced(x)
    ensures mode == Unknown ==> shown == data
    ensures forall x :: x in shown ==> x in data
  {
    match mode
    case Newest =>
      Collections.SameMembers(Collections.SortDesc(data, Items.CreatedAt), data);
      Collections.SortDesc(data, Items.CreatedAt)
    case Oldest =>
      Collections.SameMembers(Collections.SortAsc(data, Items.CreatedAt), data);
      Collections.SortAsc(data, Items.CreatedAt)
    case MostViewed =>
      Collections.SameMembers(Collections.SortDesc(data, Views), data);
      Collections.SortDesc(data, Views)
    case PriceLow =>
      var priced := Collections.Filter(data, Priced);
      Collections.SameMembers(Collections.SortAsc(priced, PriceOf), priced);
      Collections.SortAsc(priced, PriceOf)
    case PriceHigh =>
      var priced := Collections.Filter(data, Priced);
      Collections.SameMembers(Collections.SortDesc(priced, PriceOf), priced);
      Collections.SortDesc(priced, PriceOf)
    case Unknown => data
  }

  /** Both price orders show the same items: those with a non-zero price. */
  lemma PriceOrdersAgree(data: seq<Item>)
    ensures multiset(Arrange(PriceLow, data)) == multiset(Arrange(PriceHigh, data))
    ensures forall x :: x in data && !Priced(x) ==> x !in Arrange(PriceLow, data)
  {
  }

  /** The server already returns the newest first, so the default sort keeps its order exactly. */
  lemma NewestKeepsServerOrder(s: Store, q: Items.ListQuery)
    ensures Arrange(Newest, Items.List(s, q)) == Items.List(s, q)
  {
    Collections.SortDescSortedUnchanged(Items.List(s, q), Items.CreatedAt);
  }

  /** What the page shows after fetching with the filters `f`. */
  function Shown(s: Store, f: Filters): (shown: seq<Item>)
    ensures forall x :: x in shown ==> x in s.items && Items.Matches(ServerQuery(Query(f)), x)
  {
    Arrange(ModeOf(f.sortBy), Items.List(s, ServerQuery(Query(f))))
  }

  /** On first load, and after clearing, the page shows the server's list as it came. */
  lemma FirstLoadIsServerList(s: Store, f: Filters)
    ensures Shown(s, Initial) == Shown(s, ClearFilters(f)) == Items.List(s, ServerQuery([]))
  {
    NewestKeepsServerOrder(s, ServerQuery([]));
  }
}

=== FILE: json.dfy ===
/**
 * JSON values as the request handlers see them after `request.json()`, with
 * the JavaScript notions they test: truthiness, `typeof`, `Array.isArray`,
 * property access through `?.`, and `String(x)`. Numbers are integers; NaN
 * and fractional numbers are not modelled.
 */
module Json {
  import Text

  datatype Json =
    | JUndefined
    | JNull
    | JBool(b: bool)
    | JNum(n: int)
    | JStr(s: string)
    | JArr(elems: seq<Json>)
    | JObj(fields: map<string, Json>)

  /** The JavaScript falsy values are `undefined`, `null`, `false`, `0` and `""`. */
  predicate Truthy(j: Json) {
    match j
    case JUndefined => false
    case JNull => false
    case JBool(b) => b
    case JNum(n) => n != 0
    case JStr(s) => s != ""
    case JArr(_) => true
    case JObj(_) => true
  }

  /** `null` or `undefined`: the values `??` and `?.` skip. */
  predicate Nullish(j: Json) {
    j.JUndefined? || j.JNull?
  }

  /** `j?.key`: the field of an object, `undefined` for anything else or a missing key. */
  function Get(j: Json, key: string): (r: Json)
    ensures !j.JObj? ==> r == JUndefined
    ensures j.JObj? && key in j.fields ==> r == j.fields[key]
    ensures j.JObj? && key !in j.fields ==> r == JUndefined
  {
    if j.JObj? && key in j.fields then j.fields[key] else JUndefined
  }

  /** `a || b`. */
  function Or(a: Json, b: Json): (r: Json)
    ensures Truthy(a) ==> r == a
    ensures !Truthy(a) ==> r == b
  {
    if Truthy(a) then a else b
  }

  /** `a ?? b`. */
  function Coalesce(a: Json, b: Json): (r: Json)
    ensures !Nullish(a) ==> r == a
    ensures Nullish(a) ==> r == b
  {
    if Nullish(a) then b else a
  }

  /**
   * `String(j)` (also `j.toString()` on anything but null and undefined):
   * arrays join their elements with commas, with null and undefined elements
   * printed as empty strings.
   */
  function Display(j: Json): string {
    match j
    case JUndefined => "undefined"
    case JNull => "null"
    case JBool(b) => if b then "true" else "false"
    case JNum(n) => Text.IntToString(n)
    case JStr(s) => s
    case JArr(es) => JoinDisplay(es)
    case JObj(_) => "[object Object]"
  }

  function JoinDisplay(es: seq<Json>): string
    decreases es
  {
    if |es| == 0 then ""
    else
      var first := if Nullish(es[0]) then "" else Display(es[0]);
      if |es| == 1 then first else first + "," + JoinDisplay(es[1..])
  }

  /** What `await request.json()` gives: the parsed body, or the message of the error it throws. */
  datatype Body = Parsed(value: Json) | Malformed(error: string)
}

=== FILE: media.dfy ===
/**
 * POST and GET /api/ai/generate-video and /api/ai/generate-image: the
 * placeholder media generators. Each POST validates its request and answers
 * with a job; each GET reports a job as completed. The generation itself is
 * a fixed URL, and the clock and random tokens that make up the job ids are
 * parameters.
 */
module Media {
  import opened Wrappers
  import opened Json
  import Text
  import AiGateway
  import opened Store

  const NeedImage := "Cần ít nhất 1 hình ảnh"
  const TooManyImages := "Tối đa 3 hình ảnh"
  const MaxImages := 3
  const VideoUrl := "https://commondatastorage.googleapis.com/gtv-videos-bucket/sample/BigBuckBunny.mp4"
  const VideoDuration := 12
  const VideoQueued := "Video đang được tạo. Vui lòng đợi..."
  const VideoFailed := "Lỗi khi tạo video"
  const MissingVideoId := "Thiếu videoId"

  const NeedPrompt := "Vui lòng nhập mô tả ảnh"
  const DefaultSize := "1024x1024"
  const DefaultStyle := "realistic"
  const ImageMade := "Ảnh đã được tạo thành công"
  const ImageFailed := "Lỗi khi tạo ảnh"
  const MissingImageId := "Thiếu imageId"
  const PicsumBase := "https://picsum.photos/"
  const ProductImage := "https://source.unsplash.com/1024x1024/?product"

  const Overloaded := "Hệ thống AI đang quá tải hoặc vượt hạn mức. Vui lòng thử lại sau."

  /**
   * The catch of both POST handlers: an error message the overload
   * expression accepts, as written, gives 429; anything else 500 with the
   * route's own text.
   */
  function Failure<T>(message: string, otherwise: string): (r: Response<T>)
    ensures r.Err?
    ensures r.status == 429 <==> AiGateway.OverloadAsWritten(message)
    ensures r.status == 429 ==> r.error == Overloaded
    ensures r.status != 429 ==> r.status == 500 && r.error == otherwise
  {
    if AiGateway.OverloadAsWritten(message) then Err(429, Overloaded) else Err(500, otherwise)
  }

  /** The catch with "rate" read as a word, as the authors evidently meant. */
  function FailureCorrected<T>(message: string, otherwise: string): (r: Response<T>)
    ensures r.Err?
    ensures r.status == 429 <==> AiGateway.Overload(message)
    ensures r.status == 429 ==> r.error == Overloaded
    ensures r.status != 429 ==> r.status == 500 && r.error == otherwise
  {
    if AiGateway.Overload(message) then Err(429, Overloaded) else Err(500, otherwise)
  }

  /**
   * The correction only turns 429s into 500s: a 429 of the corrected catch
   * is one as written, and an error naming the SDK method is a 429 as
   * written but a 500 corrected.
   */
  lemma FailureCorrectionNarrows<T>(message: string, otherwise: string)
    ensures FailureCorrected<T>(message, otherwise).status == 429 ==> Failure<T>(message, otherwise).status == 429
    ensures Failure<T>(message, otherwise).status == 500 ==> FailureCorrected<T>(message, otherwise) == Failure<T>(message, otherwise)
    ensures Failure<T>("generateContent", otherwise).status == 429
    ensures FailureCorrected<T>("generateContent", otherwise) == Err(500, otherwise)
  {
    if AiGateway.Overload(message) {
      AiGateway.OverloadNarrowsAsWritten(message);
    }
    AiGateway.GenerateOverloadAsWritten();
  }

  /**
   * `${prefix}_${Date.now()}_${token}`: the prefix, "_", the clock in decimal
   * digits, "_" and the token, each read back from its place.
   */
  function JobId(prefix: string, now: nat, token: string): (id: string)
    ensures |id| > |prefix|
    ensures id[..|prefix|] == prefix
    ensures var n := |Text.NatToString(now)|;
      && |id| == |prefix| + n + 2 + |token|
      && id[|prefix|] == '_' && id[|prefix| + n + 1] == '_'
      && id[|prefix| + n + 2..] == token
      && id[|prefix| + 1..|prefix| + n + 1] == Text.NatToString(now)
      && Text.DigitsValue(id[|prefix| + 1..|prefix| + n + 1]) == now
  {
    var digits := Text.NatToString(now);
    var id := prefix + "_" + digits + "_" + token;
    assert id[|prefix| + 1..|prefix| + |digits| + 1] == digits;
    assert id[|prefix| + |digits| + 2..] == token;
    Text.NatToStringRoundTrip(now);
    id
  }

  // ---------------------------------------------------------------------
  // Video

  datatype VideoJob = VideoJob(videoId: string, videoUrl: string, duration: nat, message: string, status: string)

  /** The images a video request carries: an array of one to three entries. */
  predicate ImagesAccepted(images: Json) {
    images.JArr? && 1 <= |images.elems| <= MaxImages
  }

  /**
   * POST /api/ai/generate-video. A body that is not JSON ends in the catch;
   * a `null` body cannot be destructured, and the TypeError that follows
   * ends there too with status 500.
   */
  function GenerateVideo(request: Body, now: nat, token: string): (r: Response<VideoJob>)
    ensures r.Ok? <==> request.Parsed? && !request.value.JNull? && ImagesAccepted(Get(request.value, "images"))
    ensures request.Malformed? ==> r == Failure(request.error, VideoFailed)
    ensures request.Parsed? && request.value.JNull? ==> r == Err(500, VideoFailed)
    ensures r.Err? && r.status == 400 <==>
      request.Parsed? && !request.value.JNull? && !ImagesAccepted(Get(request.value, "images"))
    ensures r.Err? && r.status == 400 ==>
      var images := Get(request.value, "images");
      r.error == if images.JArr? && |images.elems| > MaxImages then TooManyImages else NeedImage
    ensures r.Ok? ==>
      && r.status == 200
      && r.body == VideoJob(JobId("video", now, token), VideoUrl, VideoDuration, VideoQueued, "processing")
  {
    match request
    case Malformed(error) => Failure(error, VideoFailed)
    case Parsed(body) =>
      if body.JNull? then Err(500, VideoFailed)
      else
        var images := Get(body, "images");
        if !Truthy(images) || !images.JArr? || |images.elems| == 0 then Err(400, NeedImage)
        else if |images.elems| > MaxImages then Err(400, TooManyImages)
        else Ok(200, VideoJob(JobId("video", now, token), VideoUrl, VideoDuration, VideoQueued, "processing"))
  }

  /** Adding a fourth image to an accepted request turns it into the "at most three" error. */
  lemma FourthImageRejected(images: seq<Json>, extra: Json, now: nat, token: string)
    requires GenerateVideo(Parsed(JObj(map["images" := JArr(images)])), now, token).Ok?
    requires |images| == MaxImages
    ensures GenerateVideo(Parsed(JObj(map["images" := JArr(images + [extra])])), now, token) == Err(400, TooManyImages)
  {
    var body := JObj(map["images" := JArr(images)]);
    assert Get(body, "images") == JArr(images);
    var body' := JObj(map["images" := JArr(images + [extra])]);
    assert Get(body', "images") == JArr(images + [extra]);
  }

  datatype JobStatus = JobStatus(id: string, status: string, url: string, progress: nat)

  /** GET /api/ai/generate-video?videoId=…: a missing or empty id is refused, any other is reported complete. */
  function VideoStatus(videoId: Option<string>): (r: Response<JobStatus>)
    ensures r.Err? <==> videoId.None? || videoId.value == ""
    ensures r.Err? ==> r == Err(400, MissingVideoId)
    ensures r.Ok? ==> r.status == 200 && r.body.id == videoId.value && r.body.status == "completed" && r.body.progress == 100
  {
    if !Given(videoId) then Err(400, MissingVideoId)
    else Ok(200, JobStatus(videoId.value, "completed", VideoUrl, 100))
  }

  /** The id a successful POST hands out is reported complete, with the same video. */
  lemma CreatedVideoCompletes(request: Body, now: nat, token: string)
    requires GenerateVideo(request, now, token).Ok?
    ensures var job := GenerateVideo(request, now, token).body;
      VideoStatus(Some(job.videoId)) == Ok(200, JobStatus(job.videoId, "completed", job.videoUrl, 100))
  {
  }

  // ---------------------------------------------------------------------
  // Image

  datatype ImageJob = ImageJob(
    imageId: string,
    imageUrl: string,
    prompt: string,
    style: Json,
    size: string,
    message: string,
    status: string)

  /** `!prompt || prompt.trim().length === 0`, for a prompt that is falsy or a string. */
  predicate PromptMissing(prompt: Json) {
    !Truthy(prompt) || (prompt.JStr? && Text.Trim(prompt.s) == "")
  }

  /** `size = '1024x1024'` in the destructuring: the default replaces `undefined` only. */
  function SizeOf(body: Json): (size: Json)
    ensures Get(body, "size").JUndefined? ==> size == JStr(DefaultSize)
    ensures !Get(body, "size").JUndefined? ==> size == Get(body, "size")
  {
    var size := Get(body, "size");
    if size.JUndefined? then JStr(DefaultSize) else size
  }

  /**
   * `https://picsum.photos/${width}/${height}?random=${Date.now()}` with
   * `[width, height] = size.split('x')`: a size without an "x" leaves the
   * height `undefined`, and parts after the second are ignored.
   */
  function PicsumUrl(size: string, now: nat): (url: string)
  {
    var parts := Text.Split(size, 'x');
    var height := if |parts| >= 2 then parts[1] else "undefined";
    PicsumBase + parts[0] + "/" + height + "?random=" + Text.NatToString(now)
  }

  /** Splitting `w` + "x" + `h` at "x" gives back `w` and `h` when neither holds an "x". */
  lemma SplitPair(w: string, h: string)
    requires 'x' !in w && 'x' !in h
    ensures Text.Split(w + "x" + h, 'x') == [w, h]
  {
    var s := w + "x" + h;
    assert s[|w|] == 'x';
    assert forall k :: 0 <= k < |w| ==> s[k] == w[k];
    var i := Text.IndexOf(s, 'x');
    assert i == |w|;
    assert s[..i] == w;
    assert s[i + 1..] == h;
  }

  /** The width and height of a `W`x`H` size are the two path segments of the URL. */
  lemma SizeInUrl(w: string, h: string, now: nat)
    requires 'x' !in w && 'x' !in h
    ensures PicsumUrl(w + "x" + h, now) == PicsumBase + w + "/" + h + "?random=" + Text.NatToString(now)
  {
    SplitPair(w, h);
  }

  /**
   * POST /api/ai/generate-image. A prompt that is truthy but not a string
   * has no `trim`, and a size that is not a string has no `split`: both
   * throw a TypeError, which the catch answers with status 500, as it does a
   * `null` body.
   */
  function GenerateImage(request: Body, now: nat, token: string): (r: Response<ImageJob>)
    ensures request.Malformed? ==> r == Failure(request.error, ImageFailed)
    ensures r.Err? && r.status == 400 <==>
      request.Parsed? && !request.value.JNull? && PromptMissing(Get(request.value, "prompt"))
    ensures r.Err? && r.status == 400 ==> r.error == NeedPrompt
    ensures r.Ok? <==>
      && request.Parsed? && !request.value.JNull?
      && Get(request.value, "prompt").JStr? && !PromptMissing(Get(request.value, "prompt"))
      && SizeOf(request.value).JStr?
    ensures request.Parsed? && !r.Ok? && r.status != 400 ==> r == Err(500, ImageFailed)
    ensures r.Ok? ==>
      var body, size := request.value, SizeOf(request.value).s;
      && r.status == 200
      && r.body.imageId == JobId("img", now, token)
      && r.body.prompt == Get(body, "prompt").s
      && r.body.size == size
      && r.body.imageUrl == PicsumUrl(size, now)
      && (Truthy(Get(body, "style")) ==> r.body.style == Get(body, "style"))
      && (!Truthy(Get(body, "style")) ==> r.body.style == JStr(DefaultStyle))
      && r.body.status == "completed"
  {
    match request
    case Malformed(error) => Failure(error, ImageFailed)
    case Parsed(body) =>
      if body.JNull? then Err(500, ImageFailed)
      else
        var prompt, style, size := Get(body, "prompt"), Get(body, "style"), SizeOf(body);
        if !Truthy(prompt) then Err(400, NeedPrompt)
        else if !prompt.JStr? then Err(500, ImageFailed)
        else if Text.Trim(prompt.s) == "" then Err(400, NeedPrompt)
        else if !size.JStr? then Err(500, ImageFailed)
        else
          Ok(200, ImageJob(JobId("img", now, token), PicsumUrl(size.s, now), prompt.s, Or(style, JStr(DefaultStyle)),
                           size.s, ImageMade, "completed"))
  }

  /** A request with nothing but a prompt gets the default style and the default size, whose picture `DefaultSizeUrl` gives. */
  lemma PromptOnlyDefaults(prompt: string, now: nat, token: string)
    requires !Text.IsBlank(prompt)
    ensures var r := GenerateImage(Parsed(JObj(map["prompt" := JStr(prompt)])), now, token);
      && r.Ok?
      && r.body.style == JStr(DefaultStyle)
      && r.body.size == DefaultSize
      && r.body.imageUrl == PicsumUrl(DefaultSize, now)
  {
    var body := JObj(map["prompt" := JStr(prompt)]);
    assert Get(body, "prompt") == JStr(prompt);
    assert Get(body, "size") == JUndefined;
    assert Get(body, "style") == JUndefined;
  }

  /** The default size puts 1024 in both path segments. */
  lemma DefaultSizeUrl(now: nat)
    ensures PicsumUrl(DefaultSize, now) == PicsumBase + "1024/1024?random=" + Text.NatToString(now)
  {
    DefaultSizeJoined();
    SizeInUrl("1024", "1024", now);
  }

  lemma DefaultSizeJoined()
    ensures DefaultSize == "1024" + "x" + "1024"
    ensures forall t: string :: PicsumBase + "1024" + "/" + "1024" + "?random=" + t == PicsumBase + "1024/1024?random=" + t
  {
    assert "1024" + "/" + "1024" + "?random=" == "1024/1024?random=";
  }

  /** GET /api/ai/generate-image?imageId=…: a missing or empty id is refused, any other is reported complete. */
  function ImageStatus(imageId: Option<string>): (r: Response<JobStatus>)
    ensures r.Err? <==> imageId.None? || imageId.value == ""
    ensures r.Err? ==> r == Err(400, MissingImageId)
    ensures r.Ok? ==> r.status == 200 && r.body.id == imageId.value && r.body.status == "completed" && r.body.progress == 100
  {
    if !Given(imageId) then Err(400, MissingImageId)
    else Ok(200, JobStatus(imageId.value, "completed", ProductImage, 100))
  }

  /** The id a successful POST hands out is reported complete. */
  lemma CreatedImageCompletes(request: Body, now: nat, token: string)
    requires GenerateImage(request, now, token).Ok?
    ensures var id := GenerateImage(request, now, token).body.imageId;
      ImageStatus(Some(id)).Ok? && ImageStatus(Some(id)).body.id == id
  {
  }
}

=== FILE: messages.dfy ===
/**
 * GET and POST /api/messages: a user's messages (or one conversation, which
 * the read also marks as read), and sending a message, which notifies the
 * receiver.
 */
module Messages {
  import opened Wrappers
  import opened Store
  import Text
  import Collections

  const MissingUserId := "Thiếu userId"
  const MissingFields := "Thiếu thông tin bắt buộc"
  const NotificationKind := "chat"
  const NotificationTitle := "Tin nhắn mới"
  const PreviewLength := 50

  function CreatedAt(m: Message): int { m.createdAt }

  /** With a counterpart, the two directions of that conversation; without, everything the user sent or received. */
  predicate Selected(m: Message, userId: Id, other: Option<Id>) {
    if other.Some? then
      (m.senderId == userId && m.receiverId == other.value) || (m.senderId == other.value && m.receiverId == userId)
    else
      m.senderId == userId || m.receiverId == userId
  }

  /** What `updateMany` marks read: unread messages the counterpart sent to the user. */
  predicate Marked(m: Message, userId: Id, other: Id) {
    m.receiverId == userId && m.senderId == other && !m.isRead
  }

  function MarkConversationRead(messages: seq<Message>, userId: Id, other: Id): (r: seq<Message>)
    ensures |r| == |messages|
    ensures forall i :: 0 <= i < |messages| ==>
      r[i] == if Marked(messages[i], userId, other) then messages[i].(isRead := true) else messages[i]
  {
    seq(|messages|, i requires 0 <= i < |messages| =>
      if Marked(messages[i], userId, other) then messages[i].(isRead := true) else messages[i])
  }

  /**
   * GET /api/messages?userId=…&otherUserId=…: the selected messages, oldest
   * first, as they were before the read; with a counterpart, the messages it
   * sent to the user are then marked read.
   */
  function List(s: Store, userId: Option<Id>, other: Option<Id>): (r: Step<seq<Message>>)
    ensures r.response.Err? <==> userId.None?
    ensures r.response.Err? ==> r.response.status == 400 && r.response.error == MissingUserId && r.store == s
    ensures r.response.Ok? ==>
      && r.response.status == 200
      && Collections.SortedAsc(r.response.body, CreatedAt)
      && (forall m :: m in r.response.body <==> m in s.messages && Selected(m, userId.value, other))
      && multiset(r.response.body) <= multiset(s.messages)
    ensures r.response.Ok? && other.None? ==> r.store == s
    ensures r.response.Ok? && other.Some? ==>
      && r.store == s.(messages := r.store.messages)
      && |r.store.messages| == |s.messages|
      && (forall i :: 0 <= i < |s.messages| ==>
            r.store.messages[i] == s.messages[i].(isRead := s.messages[i].isRead || Marked(s.messages[i], userId.value, other.value)))
  {
    if userId.None? then Step(s, Err(400, MissingUserId))
    else
      var selected := Collections.Filter(s.messages, (m: Message) => Selected(m, userId.value, other));
      var sorted := Collections.SortAsc(selected, CreatedAt);
      assert forall m :: m in sorted <==> m in selected by {
        forall m ensures m in sorted <==> m in selected {
          assert m in sorted <==> m in multiset(sorted);
        }
      }
      var s' := if other.Some? then s.(messages := MarkConversationRead(s.messages, userId.value, other.value)) else s;
      Step(s', Ok(200, sorted))
  }

  /** After a conversation is read, nothing the counterpart sent to the user is unread. */
  lemma ListClearsUnread(s: Store, userId: Id, other: Id)
    ensures var s' := List(s, Some(userId), Some(other)).store;
      forall i :: 0 <= i < |s'.messages| ==> !Marked(s'.messages[i], userId, other)
  {
  }

  /** Reading a conversation twice changes the store no more than reading it once. */
  lemma ListIdempotent(s: Store, userId: Id, other: Id)
    ensures var s1 := List(s, Some(userId), Some(other)).store;
      List(s1, Some(userId), Some(other)).store == s1
  {
    var s1 := List(s, Some(userId), Some(other)).store;
    assert MarkConversationRead(s1.messages, userId, other) == s1.messages;
  }

  /** The body of POST /api/messages. */
  datatype Draft = Draft(
    senderId: Option<Id>,
    receiverId: Option<Id>,
    content: Option<string>,
    image: Option<string>,
    itemId: Option<Id>)

  /** An image alone is not enough: the text is required. */
  predicate Complete(d: Draft) {
    d.senderId.Some? && d.receiverId.Some? && Given(d.content)
  }

  const Ellipsis := "..."

  /**
   * The notification text: the sender's name and ": ", then at most the
   * first fifty characters of the message, then "..." whatever its length.
   */
  function Preview(senderName: string, content: string): (r: string)
    ensures |r| == |senderName| + 2 + (if |content| <= PreviewLength then |content| else PreviewLength) + 3
    ensures Text.IsPrefix(senderName + ": ", r)
    ensures Text.IsPrefix(r[|senderName| + 2..|r| - 3], content)
    ensures r[|r| - 3..] == Ellipsis
  {
    var shown := Text.Prefix(content, PreviewLength);
    var r := senderName + ": " + shown + Ellipsis;
    assert r[|senderName| + 2..|r| - 3] == shown;
    r
  }

  /** A message of at most fifty characters appears whole in the preview, and a longer one is cut to fifty. */
  lemma PreviewShowsShortMessage(senderName: string, content: string)
    ensures var r := Preview(senderName, content);
      && (|content| <= PreviewLength ==> r[|senderName| + 2..|r| - 3] == content)
      && (|content| > PreviewLength ==> r[|senderName| + 2..|r| - 3] == content[..PreviewLength])
  {
    var r := Preview(senderName, content);
    assert |r[|senderName| + 2..|r| - 3]| == if |content| <= PreviewLength then |content| else PreviewLength;
  }

  const ChatPath := "/chat/"

  /** The notification's link: the chat page of the sender, whose id reads back from the link. */
  function Link(senderId: Id): (r: string)
    ensures Text.IsPrefix(ChatPath, r)
    ensures forall i :: |ChatPath| <= i < |r| ==> '0' <= r[i] <= '9'
    ensures |r| > |ChatPath| && Text.DigitsValue(r[|ChatPath|..]) == senderId
  {
    var r := ChatPath + Text.NatToString(senderId);
    assert r[|ChatPath|..] == Text.NatToString(senderId);
    Text.NatToStringRoundTrip(senderId);
    r
  }

  /**
   * POST /api/messages. A sender or receiver that does not exist fails the
   * insert (500); otherwise the message and the receiver's notification are
   * both stored.
   */
  function Send(s: Store, d: Draft, now: int): (r: Step<Message>)
    ensures r.response.Err? ==> r.store == s
    ensures r.response.Err? && r.response.status == 400 && r.response.error == MissingFields <==> !Complete(d)
    ensures r.response.Err? && r.response.status == 500 && r.response.error == ServerError <==>
      Complete(d) && (FindUser(s.users, d.senderId.value).None? || !HasUser(s, d.receiverId.value))
    ensures r.response.Err? ==> r.response.status in {400, 500}
    ensures r.response.Ok? <==> Complete(d) && FindUser(s.users, d.senderId.value).Some? && HasUser(s, d.receiverId.value)
    ensures r.response.Ok? ==>
      var m := r.response.body;
      var sender := FindUser(s.users, d.senderId.value).value;
      && r.response.status == 201
      && m == Message(s.nextId, d.senderId.value, d.receiverId.value, d.content.value, OrNull(d.image), d.itemId, false, now)
      && r.store == s.(
           messages := s.messages + [m],
           notifications := s.notifications + [Notification(s.nextId + 1, m.receiverId, NotificationKind,
             NotificationTitle, Preview(sender.name, m.content), Link(m.senderId), false, now)],
           nextId := s.nextId + 2)
  {
    if !Complete(d) then Step(s, Err(400, MissingFields))
    else
      match FindUser(s.users, d.senderId.value)
      case None => Step(s, Err(500, ServerError))
      case Some(sender) =>
        if !HasUser(s, d.receiverId.value) then Step(s, Err(500, ServerError))
        else
          var m := Message(s.nextId, sender.id, d.receiverId.value, d.content.value, OrNull(d.image), d.itemId, false, now);
          var n := Notification(s.nextId + 1, m.receiverId, NotificationKind, NotificationTitle,
                                Preview(sender.name, m.content), Link(m.senderId), false, now);
          Step(s.(messages := s.messages + [m], notifications := s.notifications + [n], nextId := s.nextId + 2), Ok(201, m))
  }

  /** A sent message appears in the conversation as both of its parties read it. */
  lemma SentIsListed(s: Store, d: Draft, now: int)
    requires Send(s, d, now).response.Ok?
    ensures var r := Send(s, d, now);
      var m := r.response.body;
      && m in List(r.store, Some(m.senderId), Some(m.receiverId)).response.body
      && m in List(r.store, Some(m.receiverId), Some(m.senderId)).response.body
  {
    var r := Send(s, d, now);
    assert r.response.body in r.store.messages;
  }

  /** Reading messages keeps every store invariant. */
  lemma ListPreservesValid(s: Store, userId: Option<Id>, other: Option<Id>)
    requires Valid(s)
    ensures Valid(List(s, userId, other).store)
  {
    var s' := List(s, userId, other).store;
    if userId.Some? && other.Some? {
      assert s' == s.(messages := MarkConversationRead(s.messages, userId.value, other.value));
      MarkedFresh(s, userId.value, other.value);
      MarkedReferences(s, userId.value, other.value);
    }
  }

  lemma MarkedFresh(s: Store, userId: Id, other: Id)
    requires AllIdsFresh(s)
    ensures AllIdsFresh(s.(messages := MarkConversationRead(s.messages, userId, other)))
  {
    var ms := MarkConversationRead(s.messages, userId, other);
    assert forall i :: 0 <= i < |ms| ==> ms[i].id == s.messages[i].id;
  }

  lemma MarkedReferences(s: Store, userId: Id, other: Id)
    requires References(s)
    ensures References(s.(messages := MarkConversationRead(s.messages, userId, other)))
  {
    var s' := s.(messages := MarkConversationRead(s.messages, userId, other));
    assert forall i :: 0 <= i < |s'.messages| ==>
      s'.messages[i].senderId == s.messages[i].senderId && s'.messages[i].receiverId == s.messages[i].receiverId;
    assert RowsKept(s, s');
    UntouchedReferences(s, s');
    KeptRowsResolve(s, s');
  }

  /** Sending a message keeps every store invariant. */
  lemma SendPreservesValid(s: Store, d: Draft, now: int)
    requires Valid(s)
    ensures Valid(Send(s, d, now).store)
  {
    var r := Send(s, d, now);
    if r.response.Ok? {
      var m := r.response.body;
      var s' := r.store;
      var n := s'.notifications[|s.notifications|];
      assert s'.notifications == s.notifications + [n];
      assert HasUser(s, m.senderId);
      SentFresh(s, s', m, n);
      SentReferences(s, s', m, n);
    }
  }

  lemma SentFresh(s: Store, s': Store, m: Message, n: Notification)
    requires AllIdsFresh(s) && m.id == s.nextId && n.id == s.nextId + 1
    requires s' == s.(messages := s.messages + [m], notifications := s.notifications + [n], nextId := s.nextId + 2)
    ensures AllIdsFresh(s')
  {
    AppendFresh(s.messages, (x: Message) => x.id, s.nextId, m);
    RaiseFresh(s.messages + [m], (x: Message) => x.id, s.nextId + 1);
    RaiseFresh(s.notifications, (x: Notification) => x.id, s.nextId);
    AppendFresh(s.notifications, (x: Notification) => x.id, s.nextId + 1, n);
    RaiseAllFresh(s, s');
  }

  lemma SentReferences(s: Store, s': Store, m: Message, n: Notification)
    requires References(s)
    requires s' == s.(messages := s.messages + [m], notifications := s.notifications + [n], nextId := s'.nextId)
    requires HasUser(s, m.senderId) && HasUser(s, m.receiverId) && HasUser(s, n.userId)
    ensures References(s')
  {
    assert RowsKept(s, s');
    UntouchedReferences(s, s');
    KeptRowsResolve(s, s');
    forall i | 0 <= i < |s'.messages| ensures HasUser(s', s'.messages[i].senderId) && HasUser(s', s'.messages[i].receiverId) {
      if i < |s.messages| {
        assert s'.messages[i] == s.messages[i];
      }
    }
    forall i | 0 <= i < |s'.notifications| ensures HasUser(s', s'.notifications[i].userId) {
      if i < |s.notifications| {
        assert s'.notifications[i] == s.notifications[i];
      }
    }
  }
}

=== FILE: newitempage.dfy ===
/**
 * The "post an item" page: the image list the form builds up from typed
 * links and generated pictures, and the body it posts to POST /api/items.
 */
module NewItemPage {
  import opened Wrappers
  import opened Json
  import opened Store
  import Text
  import Items

  /** The form's fields; the price is the text typed into the price box. */
  datatype Form = Form(
    title: string,
    description: string,
    category: string,
    condition: string,
    images: seq<string>,
    transactionType: string,
    price: string,
    city: string,
    address: string)

  /** The form and the image-link box beside it. */
  datatype Page = Page(form: Form, imageInput: string)

  const InitialForm := Form("", "", "", "", [], Items.DefaultTransactionType, "", "", "")
  const InitialPage := Page(InitialForm, "")

  /** No link appears twice in the list. */
  predicate NoDuplicates(images: seq<string>) {
    forall i, j :: 0 <= i < j < |images| ==> images[i] != images[j]
  }

  // ---------------------------------------------------------------------
  // Building the image list

  /** `images.includes(url)` guards an append: the list grows by `url` only when it is new. */
  function AppendNew(images: seq<string>, url: string): (r: seq<string>)
    ensures NoDuplicates(images) ==> NoDuplicates(r)
    ensures url in images ==> r == images
    ensures url !in images ==> r == images + [url]
  {
    if url in images then images else images + [url]
  }

  /**
   * `addImage`: the trimmed link is added when it is not blank and not in the
   * list yet, and then the box is cleared; otherwise nothing changes.
   */
  function AddImage(page: Page): (r: Page)
    ensures r.form == page.form.(images := r.form.images)
    ensures |r.form.images| == |page.form.images| + 1 <==>
      !Text.IsBlank(page.imageInput) && Text.Trim(page.imageInput) !in page.form.images
    ensures |r.form.images| == |page.form.images| + 1 ==>
      r.form.images == page.form.images + [Text.Trim(page.imageInput)] && r.imageInput == ""
    ensures |r.form.images| != |page.form.images| + 1 ==> r == page
    ensures NoDuplicates(page.form.images) ==> NoDuplicates(r.form.images)
  {
    var url := Text.Trim(page.imageInput);
    if url != "" && url !in page.form.images then
      Page(page.form.(images := AppendNew(page.form.images, url)), "")
    else page
  }

  /**
   * The generator's callback: a non-empty link not yet in the list is
   * appended; the box is left alone.
   */
  function AddGenerated(page: Page, url: string): (r: Page)
    ensures r.imageInput == page.imageInput && r.form == page.form.(images := r.form.images)
    ensures url != "" && url !in page.form.images ==> r.form.images == page.form.images + [url]
    ensures url == "" || url in page.form.images ==> r == page
    ensures NoDuplicates(page.form.images) ==> NoDuplicates(r.form.images)
  {
    if url != "" then page.(form := page.form.(images := AppendNew(page.form.images, url))) else page
  }

  /** `images.filter((_, i) => i !== index)`, one element at a time from the end. */
  function DropIndex(images: seq<string>, index: int): (r: seq<string>)
    ensures 0 <= index < |images| ==> r == images[..index] + images[index + 1..]
    ensures !(0 <= index < |images|) ==> r == images
  {
    if |images| == 0 then []
    else
      var n := |images| - 1;
      var rest := DropIndex(images[..n], index);
      if n != index then
        assert images == images[..n] + [images[n]];
        rest + [images[n]]
      else
        assert images[..index] == images[..n];
        rest
  }

  /** `removeImage(index)`: only the image list changes. */
  function RemoveImage(page: Page, index: int): (r: Page)
    ensures r.imageInput == page.imageInput && r.form == page.form.(images := r.form.images)
    ensures 0 <= index < |page.form.images| ==>
      |r.form.images| == |page.form.images| - 1
      && multiset(r.form.images) + multiset{page.form.images[index]} == multiset(page.form.images)
    ensures !(0 <= index < |page.form.images|) ==> r == page
  {
    var images := page.form.images;
    var r := page.(form := page.form.(images := DropIndex(images, index)));
    assert 0 <= index < |images| ==> images == images[..index] + [images[index]] + images[index + 1..];
    r
  }

  /** Removing an entry keeps the others in their order: each one moves up past the gap. */
  lemma RemoveKeepsOrder(images: seq<string>, index: int, k: int)
    requires 0 <= index < |images| && 0 <= k < |images| - 1
    ensures DropIndex(images, index)[k] == if k < index then images[k] else images[k + 1]
  {
  }

  /** A list with no duplicates keeps none after an entry is removed. */
  lemma RemoveKeepsDistinct(images: seq<string>, index: int)
    requires NoDuplicates(images)
    ensures NoDuplicates(DropIndex(images, index))
  {
    if 0 <= index < |images| {
      var r := DropIndex(images, index);
      forall i, j | 0 <= i < j < |r| ensures r[i] != r[j] {
        RemoveKeepsOrder(images, index, i);
        RemoveKeepsOrder(images, index, j);
      }
    }
  }

  // ---------------------------------------------------------------------
  // The page's actions

  /** What the user does on the page; choosing a type or typing a price only sets that field. */
  datatype Action =
    | TypeLink(text: string)
    | AddLink
    | Remove(index: int)
    | Generated(url: string)
    | ChooseType(transactionType: string)
    | TypePrice(price: string)

  function Apply(page: Page, action: Action): Page {
    match action
    case TypeLink(text) => page.(imageInput := text)
    case AddLink => AddImage(page)
    case Remove(index) => RemoveImage(page, index)
    case Generated(url) => AddGenerated(page, url)
    case ChooseType(t) => page.(form := page.form.(transactionType := t))
    case TypePrice(p) => page.(form := page.form.(price := p))
  }

  function Run(page: Page, actions: seq<Action>): Page
    decreases |actions|
  {
    if |actions| == 0 then page else Run(Apply(page, actions[0]), actions[1..])
  }

  /** Whatever the user does, the image list never holds the same link twice. */
  lemma {:induction false} RunKeepsDistinct(page: Page, actions: seq<Action>)
    requires NoDuplicates(page.form.images)
    ensures NoDuplicates(Run(page, actions).form.images)
    decreases |actions|
  {
    if |actions| > 0 {
      var next := Apply(page, actions[0]);
      if actions[0].Remove? {
        RemoveKeepsDistinct(page.form.images, actions[0].index);
      }
      RunKeepsDistinct(next, actions[1..]);
    }
  }

  /** From a fresh page, the list stays free of duplicates. */
  lemma ImagesStayDistinct(actions: seq<Action>)
    ensures NoDuplicates(Run(InitialPage, actions).form.images)
  {
    RunKeepsDistinct(InitialPage, actions);
  }

  // ---------------------------------------------------------------------
  // Submitting

  /**
   * The body `handleSubmit` posts, as the handler reads it: the form's fields,
   * the image links as a JSON array, the user's id, and a price only for a
   * sale. `parseFloat` stands for the price conversion; `None` is NaN, which
   * is sent as null.
   */
  function Submitted(form: Form, userId: Id, parseFloat: string -> Option<int>): (d: Items.Draft)
    ensures d.price.Some? ==> form.transactionType == Items.Sell
    ensures form.transactionType == Items.Sell ==> d.price == parseFloat(form.price)
    ensures d.images.JArr? && |d.images.elems| == |form.images|
    ensures forall k :: 0 <= k < |form.images| ==> d.images.elems[k] == JStr(form.images[k])
    ensures d.userId == Some(userId) && d.latitude.None? && d.longitude.None?
    ensures d.title == Some(form.title) && d.description == Some(form.description)
    ensures d.category == Some(form.category) && d.condition == Some(form.condition)
    ensures d.transactionType == Some(form.transactionType)
    ensures d.city == Some(form.city) && d.address == Some(form.address)
  {
    Items.Draft(
      title := Some(form.title),
      description := Some(form.description),
      category := Some(form.category),
      condition := Some(form.condition),
      images := JArr(seq(|form.images|, k requires 0 <= k < |form.images| => JStr(form.images[k]))),
      transactionType := Some(form.transactionType),
      price := if form.transactionType == Items.Sell then parseFloat(form.price) else None,
      city := Some(form.city),
      address := Some(form.address),
      latitude := None,
      longitude := None,
      userId := Some(userId))
  }

  /**
   * An item posted from the page carries the type chosen on the form, and a
   * price only when that type is a sale; a form left at its default type
   * posts an exchange.
   */
  lemma PostedItem(s: Store, form: Form, userId: Id, parseFloat: string -> Option<int>, qrCode: string, now: int)
    requires Items.Create(s, Submitted(form, userId, parseFloat), qrCode, now).response.Ok?
    ensures var x := Items.Create(s, Submitted(form, userId, parseFloat), qrCode, now).response.body;
      && x.transactionType == (if form.transactionType == "" then Items.DefaultTransactionType else form.transactionType)
      && (x.price.Some? ==> form.transactionType == Items.Sell)
      && (form.transactionType == Items.Sell ==> x.price == parseFloat(form.price))
      && x.images.Some?
      && x.userId == userId
  {
  }

  /** A form still at its initial type posts no price, whatever was typed into the price box. */
  lemma DefaultPostsNoPrice(form: Form, userId: Id, parseFloat: string -> Option<int>)
    requires form.transactionType == InitialForm.transactionType
    ensures Submitted(form, userId, parseFloat).price.None?
  {
    assert Items.DefaultTransactionType[0] != Items.Sell[0];
  }
}

=== FILE: notifications.dfy ===
/**
 * GET and PUT /api/notifications: the newest fifty notifications of a user
 * (optionally only the unread ones) with the count of unread ones, and
 * marking one notification as read.
 */
module Notifications {
  import opened Wrappers
  import opened Store
  import Collections

  const MissingUserId := "Thiếu userId"
  const MissingFields := "Thiếu thông tin"
  const PageSize := 50

  datatype NotificationPage = NotificationPage(notifications: seq<Notification>, unreadCount: nat)

  function CreatedAt(n: Notification): int { n.createdAt }

  /** Only the literal query value "true" turns the unread filter on. */
  predicate UnreadOnly(flag: Option<string>) {
    flag == Some("true")
  }

  predicate Selected(n: Notification, userId: Id, unreadOnly: bool) {
    n.userId == userId && (unreadOnly ==> !n.isRead)
  }

  predicate Unread(n: Notification, userId: Id) {
    n.userId == userId && !n.isRead
  }

  /** The user's notifications selected by the flag, newest first, before the page limit. */
  function Matching(s: Store, userId: Id, unreadOnly: bool): (r: seq<Notification>)
    ensures Collections.SortedDesc(r, CreatedAt)
    ensures forall n :: n in r <==> n in s.notifications && Selected(n, userId, unreadOnly)
    ensures forall n :: multiset(r)[n] == if Selected(n, userId, unreadOnly) then multiset(s.notifications)[n] else 0
  {
    var selected := Collections.Filter(s.notifications, (n: Notification) => Selected(n, userId, unreadOnly));
    var r := Collections.SortDesc(selected, CreatedAt);
    Collections.FilterMultiplicity(s.notifications, (n: Notification) => Selected(n, userId, unreadOnly));
    assert forall n :: n in r <==> n in selected by {
      forall n ensures n in r <==> n in selected {
        assert n in r <==> n in multiset(r);
      }
    }
    r
  }

  function UnreadOf(userId: Id): Notification -> bool {
    (n: Notification) => Unread(n, userId)
  }

  /** The number of the user's unread notifications, whatever the filter. */
  function UnreadCount(s: Store, userId: Id): nat {
    Collections.Count(s.notifications, UnreadOf(userId))
  }

  /**
   * GET /api/notifications?userId=…&unreadOnly=…: at most fifty of the
   * selected notifications, the newest ones, and the unread count.
   */
  function List(s: Store, userId: Option<Id>, unreadOnly: Option<string>): (r: Response<NotificationPage>)
    ensures r.Err? <==> userId.None?
    ensures r.Err? ==> r.status == 400 && r.error == MissingUserId
    ensures r.Ok? ==>
      var all := Matching(s, userId.value, UnreadOnly(unreadOnly));
      && r.status == 200
      && |r.body.notifications| == (if |all| <= PageSize then |all| else PageSize)
      && r.body.notifications == all[..|r.body.notifications|]
      && (|all| <= PageSize ==> r.body.notifications == all)
      && (forall n :: n in r.body.notifications ==>
            n in s.notifications && Selected(n, userId.value, UnreadOnly(unreadOnly)))
      && r.body.unreadCount == UnreadCount(s, userId.value)
  {
    if userId.None? then Err(400, MissingUserId)
    else
      var all := Matching(s, userId.value, UnreadOnly(unreadOnly));
      var page := Collections.Take(all, PageSize);
      assert forall i :: 0 <= i < |page| ==> page[i] == all[i];
      Ok(200, NotificationPage(page, UnreadCount(s, userId.value)))
  }

  /** The notifications after `update({ where: { id }, data: { isRead: true } })`. */
  function SetRead(notifications: seq<Notification>, id: Id): (r: seq<Notification>)
    ensures |r| == |notifications|
    ensures forall i :: 0 <= i < |notifications| ==>
      r[i] == if notifications[i].id == id then notifications[i].(isRead := true) else notifications[i]
  {
    seq(|notifications|, i requires 0 <= i < |notifications| =>
      if notifications[i].id == id then notifications[i].(isRead := true) else notifications[i])
  }

  function FindNotification(notifications: seq<Notification>, id: Id): (r: Option<Notification>)
    ensures r.Some? ==> r.value in notifications && r.value.id == id
    ensures r.None? <==> forall i :: 0 <= i < |notifications| ==> notifications[i].id != id
  {
    Collections.First(notifications, (n: Notification) => n.id == id)
  }

  /**
   * PUT /api/notifications. The user id is required but not compared with the
   * notification's owner. An id that does not exist fails the update (500).
   */
  function MarkRead(s: Store, notificationId: Option<Id>, userId: Option<Id>): (r: Step<Notification>)
    ensures r.response.Err? ==> r.store == s
    ensures r.response.Err? && r.response.status == 400 && r.response.error == MissingFields <==>
      notificationId.None? || userId.None?
    ensures r.response.Err? && r.response.status == 500 && r.response.error == ServerError <==>
      notificationId.Some? && userId.Some? && FindNotification(s.notifications, notificationId.value).None?
    ensures r.response.Err? ==> r.response.status in {400, 500}
    ensures r.response.Ok? <==>
      notificationId.Some? && userId.Some? && FindNotification(s.notifications, notificationId.value).Some?
    ensures r.response.Ok? ==>
      var id := notificationId.value;
      && r.response.status == 200
      && r.response.body.id == id && r.response.body.isRead
      && r.response.body == FindNotification(s.notifications, id).value.(isRead := true)
      && r.store == s.(notifications := r.store.notifications)
      && |r.store.notifications| == |s.notifications|
      && (forall i :: 0 <= i < |s.notifications| && s.notifications[i].id != id ==>
            r.store.notifications[i] == s.notifications[i])
      && (forall i :: 0 <= i < |s.notifications| && s.notifications[i].id == id ==>
            r.store.notifications[i] == s.notifications[i].(isRead := true))
  {
    if notificationId.None? || userId.None? then Step(s, Err(400, MissingFields))
    else
      match FindNotification(s.notifications, notificationId.value)
      case None => Step(s, Err(500, ServerError))
      case Some(n) =>
        Step(s.(notifications := SetRead(s.notifications, n.id)), Ok(200, n.(isRead := true)))
  }

  /** Marking a notification read twice is the same as marking it once. */
  lemma MarkReadIdempotent(s: Store, notificationId: Id, userId: Id)
    requires MarkRead(s, Some(notificationId), Some(userId)).response.Ok?
    ensures var s1 := MarkRead(s, Some(notificationId), Some(userId)).store;
      MarkRead(s1, Some(notificationId), Some(userId)).store == s1
  {
    var s1 := MarkRead(s, Some(notificationId), Some(userId)).store;
    var n := FindNotification(s.notifications, notificationId).value;
    var k :| 0 <= k < |s.notifications| && s.notifications[k] == n;
    assert s1.notifications[k].id == notificationId;
    assert SetRead(s1.notifications, notificationId) == s1.notifications;
  }

  /** Any user may mark any notification: the outcome does not depend on who asks. */
  lemma MarkReadIgnoresOwner(s: Store, notificationId: Id, userId: Id, other: Id)
    ensures MarkRead(s, Some(notificationId), Some(userId)) == MarkRead(s, Some(notificationId), Some(other))
  {
  }

  /** Marking an unread notification read lowers its owner's unread count by one. */
  lemma MarkReadLowersUnread(s: Store, notificationId: Id, userId: Id)
    requires Collections.DistinctBy(s.notifications, (n: Notification) => n.id)
    requires MarkRead(s, Some(notificationId), Some(userId)).response.Ok?
    ensures var n := FindNotification(s.notifications, notificationId).value;
      var s1 := MarkRead(s, Some(notificationId), Some(userId)).store;
      UnreadCount(s1, n.userId) == if n.isRead then UnreadCount(s, n.userId) else UnreadCount(s, n.userId) - 1
  {
    var n := FindNotification(s.notifications, notificationId).value;
    var k :| 0 <= k < |s.notifications| && s.notifications[k] == n;
    var s1 := MarkRead(s, Some(notificationId), Some(userId)).store;
    SetReadAt(s.notifications, k);
    assert s1.notifications == s.notifications[k := n.(isRead := true)];
    Collections.CountReplace(s.notifications, k, n.(isRead := true), UnreadOf(n.userId));
  }

  /** With distinct ids, marking by id changes exactly the one notification carrying it. */
  lemma SetReadAt(ns: seq<Notification>, k: nat)
    requires Collections.DistinctBy(ns, (n: Notification) => n.id) && k < |ns|
    ensures SetRead(ns, ns[k].id) == ns[k := ns[k].(isRead := true)]
  {
    forall i | 0 <= i < |ns| && i != k ensures ns[i].id != ns[k].id {
    }
  }

  /** Marking a notification read keeps every store invariant. */
  lemma MarkReadPreservesValid(s: Store, notificationId: Option<Id>, userId: Option<Id>)
    requires Valid(s)
    ensures Valid(MarkRead(s, notificationId, userId).store)
  {
    var r := MarkRead(s, notificationId, userId);
    if r.response.Ok? {
      MarkReadSetsFlag(s, notificationId.value, userId.value);
      SetReadValid(s, notificationId.value);
    }
  }

  /** A successful PUT changes nothing but the flag of the notifications carrying the id. */
  lemma MarkReadSetsFlag(s: Store, notificationId: Id, userId: Id)
    requires MarkRead(s, Some(notificationId), Some(userId)).response.Ok?
    ensures MarkRead(s, Some(notificationId), Some(userId)).store == s.(notifications := SetRead(s.notifications, notificationId))
  {
  }

  /** Marking notifications read by id keeps every store invariant. */
  lemma SetReadValid(s: Store, id: Id)
    requires Valid(s)
    ensures Valid(s.(notifications := SetRead(s.notifications, id)))
  {
    var ns := SetRead(s.notifications, id);
    assert forall i :: 0 <= i < |ns| ==> ns[i].id == s.notifications[i].id && ns[i].userId == s.notifications[i].userId;
    ReadFlagsFresh(s, ns);
    ReadFlagsReferences(s, ns);
  }

  lemma ReadFlagsFresh(s: Store, ns: seq<Notification>)
    requires AllIdsFresh(s) && |ns| == |s.notifications|
    requires forall i :: 0 <= i < |ns| ==> ns[i].id == s.notifications[i].id
    ensures AllIdsFresh(s.(notifications := ns))
  {
  }

  lemma ReadFlagsReferences(s: Store, ns: seq<Notification>)
    requires References(s) && |ns| == |s.notifications|
    requires forall i :: 0 <= i < |ns| ==> ns[i].userId == s.notifications[i].userId
    ensures References(s.(notifications := ns))
  {
    var s' := s.(notifications := ns);
    assert RowsKept(s, s');
    UntouchedReferences(s, s');
  }
}

=== FILE: reviews.dfy ===
/**
 * GET and POST /api/reviews: a user's received reviews with their average,
 * and review creation with the rating check and the reviewee's reputation
 * recomputed from all of their reviews.
 */
module Reviews {
  import opened Wrappers
  import opened Store
  import Collections

  const MissingUserId := "Thiếu userId"
  const MissingFields := "Thiếu thông tin bắt buộc"
  const RatingOutOfRange := "Đánh giá phải từ 1-5 sao"

  datatype ReviewPage = ReviewPage(reviews: seq<Review>, avgRating: real)

  function CreatedAt(r: Review): int { r.createdAt }

  /** The ratings of a list of reviews, in order. */
  function Ratings(rs: seq<Review>): (r: seq<int>)
    ensures |r| == |rs|
    ensures forall i :: 0 <= i < |rs| ==> r[i] == rs[i].rating
  {
    if |rs| == 0 then [] else Ratings(rs[..|rs| - 1]) + [rs[|rs| - 1].rating]
  }

  /** `reviews.reduce((sum, r) => sum + r.rating, 0) / reviews.length`, 0 for none. */
  function Average(rs: seq<Review>): real {
    Mean(Ratings(rs))
  }

  /** GET /api/reviews?userId=…: the reviews the user received, newest first, and their average. */
  function List(s: Store, userId: Option<Id>): (r: Response<ReviewPage>)
    ensures r.Err? <==> userId.None?
    ensures r.Err? ==> r.status == 400 && r.error == MissingUserId
    ensures r.Ok? ==>
      && r.status == 200
      && Collections.SortedDesc(r.body.reviews, CreatedAt)
      && (forall v :: v in r.body.reviews <==> v in s.reviews && v.revieweeId == userId.value)
      && (forall v :: multiset(r.body.reviews)[v] == if v.revieweeId == userId.value then multiset(s.reviews)[v] else 0)
      && r.body.avgRating == Mean(RatingsOf(s.reviews, userId.value))
  {
    if userId.None? then Err(400, MissingUserId)
    else
      var mine := Collections.Filter(s.reviews, (v: Review) => v.revieweeId == userId.value);
      var sorted := Collections.SortDesc(mine, CreatedAt);
      Collections.FilterMultiplicity(s.reviews, (v: Review) => v.revieweeId == userId.value);
      assert forall v :: v in sorted <==> v in mine by {
        forall v ensures v in sorted <==> v in mine {
          assert v in sorted <==> v in multiset(sorted);
        }
      }
      FilterRatings(s.reviews, userId.value);
      SumPermutation(sorted, mine);
      Ok(200, ReviewPage(sorted, Average(sorted)))
  }

  /** Sum of the ratings of a list of reviews. */
  function SumRatings(rs: seq<Review>): int {
    if |rs| == 0 then 0 else SumRatings(rs[..|rs| - 1]) + rs[|rs| - 1].rating
  }

  lemma {:induction false} SumRatingsIsSum(rs: seq<Review>)
    ensures Sum(Ratings(rs)) == SumRatings(rs)
  {
    if |rs| > 0 {
      SumRatingsIsSum(rs[..|rs| - 1]);
      assert Ratings(rs)[..|rs| - 1] == Ratings(rs[..|rs| - 1]);
    }
  }

  lemma {:induction false} SumRatingsAppend(a: seq<Review>, b: seq<Review>)
    ensures SumRatings(a + b) == SumRatings(a) + SumRatings(b)
    decreases |b|
  {
    if |b| > 0 {
      assert (a + b)[..|a + b| - 1] == a + b[..|b| - 1];
      SumRatingsAppend(a, b[..|b| - 1]);
    } else {
      assert a + b == a;
    }
  }

  /** The sum of ratings does not depend on the order of the reviews. */
  lemma SumPermutation(a: seq<Review>, b: seq<Review>)
    requires multiset(a) == multiset(b)
    ensures Sum(Ratings(a)) == Sum(Ratings(b))
    ensures |a| == |b|
  {
    assert |a| == |multiset(a)| == |multiset(b)| == |b|;
    SumRatingsIsSum(a);
    SumRatingsIsSum(b);
    SumRatingsPermutation(a, b);
  }

  lemma {:induction false} SumRatingsPermutation(a: seq<Review>, b: seq<Review>)
    requires multiset(a) == multiset(b)
    ensures SumRatings(a) == SumRatings(b)
    decreases |a|
  {
    if |a| == 0 {
      assert |b| == |multiset(b)| == 0;
    } else {
      var x := a[|a| - 1];
      assert x in multiset(b);
      var k :| 0 <= k < |b| && b[k] == x;
      var b' := b[..k] + b[k + 1..];
      Collections.RemoveMatched(a, b, k);
      SumRatingsPermutation(a[..|a| - 1], b');
      SumRatingsRemove(b, k);
    }
  }

  /** The sum with element `k` removed is the sum less that element's rating. */
  lemma SumRatingsRemove(b: seq<Review>, k: nat)
    requires k < |b|
    ensures SumRatings(b) == SumRatings(b[..k] + b[k + 1..]) + b[k].rating
  {
    var y, p, q := b[k], b[..k], b[k + 1..];
    Collections.SplitAround(b, k);
    SumRatingsAppend(p + [y], q);
    SumRatingsAppend(p, [y]);
    assert SumRatings([y]) == y.rating;
    SumRatingsAppend(p, q);
  }

  /** The ratings of the reviews filtered by reviewee are `RatingsOf`. */
  lemma {:induction false} FilterRatings(reviews: seq<Review>, userId: Id)
    ensures Ratings(Collections.Filter(reviews, (v: Review) => v.revieweeId == userId)) == RatingsOf(reviews, userId)
  {
    if |reviews| > 0 {
      FilterRatings(reviews[..|reviews| - 1], userId);
    }
  }

  /** The body of POST /api/reviews; `rating` is `None` when missing. */
  datatype ReviewDraft = ReviewDraft(
    rating: Option<int>,
    comment: Option<string>,
    reviewerId: Option<Id>,
    revieweeId: Option<Id>,
    transactionId: Option<Id>)

  /** `!rating || !reviewerId || !revieweeId`: a rating of 0 is falsy as well. */
  predicate Incomplete(d: ReviewDraft) {
    d.rating.None? || d.rating.value == 0 || d.reviewerId.None? || d.revieweeId.None?
  }

  predicate InRange(rating: int) {
    1 <= rating <= 5
  }

  /** The user list after `user.update({ where: { id }, data: { reputation, totalReviews } })`. */
  function UpdateReputation(users: seq<User>, id: Id, reputation: real, total: nat): (r: seq<User>)
    ensures |r| == |users|
    ensures forall i :: 0 <= i < |users| ==>
      r[i] == if users[i].id == id then users[i].(reputation := reputation, totalReviews := total) else users[i]
  {
    seq(|users|, i requires 0 <= i < |users| =>
      if users[i].id == id then users[i].(reputation := reputation, totalReviews := total) else users[i])
  }

  /**
   * POST /api/reviews. Creates the review, then recomputes the reviewee's
   * reputation as the mean of all of their ratings and stores their count.
   * A reviewer or reviewee that does not exist fails the insert (500).
   */
  function Create(s: Store, d: ReviewDraft, now: int): (r: Step<Review>)
    ensures r.response.Err? ==> r.store == s
    ensures r.response.Err? && r.response.status == 400 && r.response.error == MissingFields <==> Incomplete(d)
    ensures r.response.Err? && r.response.status == 400 && r.response.error == RatingOutOfRange <==>
      !Incomplete(d) && !InRange(d.rating.value)
    ensures r.response.Err? && r.response.status == 500 && r.response.error == ServerError <==>
      !Incomplete(d) && InRange(d.rating.value) && (!HasUser(s, d.reviewerId.value) || !HasUser(s, d.revieweeId.value))
    ensures r.response.Err? ==> r.response.status in {400, 500}
    ensures r.response.Ok? <==>
      !Incomplete(d) && InRange(d.rating.value) && HasUser(s, d.reviewerId.value) && HasUser(s, d.revieweeId.value)
    ensures r.response.Ok? ==>
      var v := r.response.body;
      var ratings := RatingsOf(r.store.reviews, v.revieweeId);
      && r.response.status == 201
      && v.rating == d.rating.value && v.reviewerId == d.reviewerId.value && v.revieweeId == d.revieweeId.value
      && v.id == s.nextId
      && r.store.reviews == s.reviews + [v]
      && r.store.nextId == s.nextId + 1
      && |r.store.users| == |s.users|
      && (forall i :: 0 <= i < |s.users| && s.users[i].id != v.revieweeId ==> r.store.users[i] == s.users[i])
      && (forall i :: 0 <= i < |s.users| && s.users[i].id == v.revieweeId ==>
            r.store.users[i].reputation == Mean(ratings) && r.store.users[i].totalReviews == |ratings|)
      && r.store == s.(users := r.store.users, reviews := r.store.reviews, nextId := r.store.nextId)
  {
    if Incomplete(d) then Step(s, Err(400, MissingFields))
    else if !InRange(d.rating.value) then Step(s, Err(400, RatingOutOfRange))
    else if !HasUser(s, d.reviewerId.value) || !HasUser(s, d.revieweeId.value) then Step(s, Err(500, ServerError))
    else
      var v := Review(s.nextId, d.rating.value, OrNull(d.comment), d.reviewerId.value, d.revieweeId.value,
                      d.transactionId, now);
      var reviews := s.reviews + [v];
      var all := Collections.Filter(reviews, (w: Review) => w.revieweeId == v.revieweeId);
      FilterRatings(reviews, v.revieweeId);
      var users := UpdateReputation(s.users, v.revieweeId, Average(all), |all|);
      Step(s.(users := users, reviews := reviews, nextId := s.nextId + 1), Ok(201, v))
  }

  /** Creating a review keeps every store invariant, the reputation invariant included. */
  lemma CreatePreservesValid(s: Store, d: ReviewDraft, now: int)
    requires Valid(s)
    ensures Valid(Create(s, d, now).store)
  {
    var r := Create(s, d, now);
    if r.response.Ok? {
      CreateAppends(s, d, now);
      AppendedValid(s, r.store, r.response.body);
    }
  }

  lemma CreateAppends(s: Store, d: ReviewDraft, now: int)
    requires Create(s, d, now).response.Ok?
    ensures var r := Create(s, d, now);
      && Appended(s, r.store, r.response.body) && InRange(r.response.body.rating)
      && HasUser(s, r.response.body.reviewerId) && HasUser(s, r.response.body.revieweeId)
  {
  }

  /** Appending an in-range review between existing users and updating the reviewee keeps every invariant. */
  lemma AppendedValid(s: Store, s': Store, v: Review)
    requires Valid(s) && Appended(s, s', v) && InRange(v.rating)
    requires HasUser(s, v.reviewerId) && HasUser(s, v.revieweeId)
    ensures Valid(s')
  {
    {
      AppendedFresh(s, s', v);
      AppendedUnique(s, s', v);
      AppendedReferences(s, s', v);
      AppendedRules(s, s', v);
      AppendedReputation(s, s', v);
    }
  }

  /** The shape of the store after a successful POST /api/reviews. */
  predicate Appended(s: Store, s': Store, v: Review) {
    && v.id == s.nextId
    && s'.reviews == s.reviews + [v]
    && s'.nextId == s.nextId + 1
    && |s'.users| == |s.users|
    && (forall i :: 0 <= i < |s.users| ==> s'.users[i].id == s.users[i].id && s'.users[i].email == s.users[i].email)
    && (forall i :: 0 <= i < |s.users| && s.users[i].id != v.revieweeId ==> s'.users[i] == s.users[i])
    && (forall i :: 0 <= i < |s.users| && s.users[i].id == v.revieweeId ==>
          var ratings := RatingsOf(s'.reviews, v.revieweeId);
          s'.users[i].reputation == Mean(ratings) && s'.users[i].totalReviews == |ratings|)
    && s' == s.(users := s'.users, reviews := s'.reviews, nextId := s'.nextId)
  }

  lemma AppendedFresh(s: Store, s': Store, v: Review)
    requires AllIdsFresh(s) && Appended(s, s', v)
    ensures AllIdsFresh(s')
  {
    AppendFresh(s.reviews, (w: Review) => w.id, s.nextId, v);
    RaiseAllFresh(s, s');
  }

  lemma AppendedUnique(s: Store, s': Store, v: Review)
    requires UniqueEmails(s.users) && Appended(s, s', v)
    ensures UniqueEmails(s'.users)
  {
  }

  lemma AppendedReferences(s: Store, s': Store, v: Review)
    requires References(s) && Appended(s, s', v)
    requires HasUser(s, v.reviewerId) && HasUser(s, v.revieweeId)
    ensures References(s')
  {
    assert RowsKept(s, s');
    UntouchedReferences(s, s');
    KeptRowsResolve(s, s');
    forall i | 0 <= i < |s'.reviews| ensures HasUser(s', s'.reviews[i].reviewerId) && HasUser(s', s'.reviews[i].revieweeId) {
      if i < |s.reviews| {
        assert s'.reviews[i] == s.reviews[i];
      }
    }
  }

  lemma AppendedRules(s: Store, s': Store, v: Review)
    requires RatingsInRange(s.reviews) && Appended(s, s', v) && InRange(v.rating)
    ensures RatingsInRange(s'.reviews)
  {
    forall i | 0 <= i < |s'.reviews| ensures 1 <= s'.reviews[i].rating <= 5 {
      if i < |s.reviews| {
        assert s'.reviews[i] == s.reviews[i];
      }
    }
  }

  lemma AppendedReputation(s: Store, s': Store, v: Review)
    requires ReputationConsistent(s.users, s.reviews) && Appended(s, s', v)
    ensures ReputationConsistent(s'.users, s'.reviews)
  {
    assert s'.reviews[..|s'.reviews| - 1] == s.reviews;
    forall i | 0 <= i < |s'.users|
      ensures s'.users[i].totalReviews == |RatingsOf(s'.reviews, s'.users[i].id)|
      ensures s'.users[i].reputation == Mean(RatingsOf(s'.reviews, s'.users[i].id))
    {
      if s.users[i].id != v.revieweeId {
        assert RatingsOf(s'.reviews, s.users[i].id) == RatingsOf(s.reviews, s.users[i].id);
      }
    }
  }
}

=== FILE: seed.dfy ===
/**
 * POST /api/seed: creates the three sample users when their emails are
 * unused and the sample items when their owner has no item with the same
 * title, so that running it again changes nothing.
 */
module Seed {
  import opened Wrappers
  import opened Json
  import opened Store
  import Text
  import Collections

  const SamplePassword := "123456"

  /** A sample account; the password of every one is `SamplePassword`. */
  datatype SampleUser = SampleUser(
    email: string,
    name: string,
    phone: string,
    address: string,
    city: string,
    latitude: real,
    longitude: real)

  const SampleUsers: seq<SampleUser> := [
    SampleUser("user1@example.com", "Nguyễn Văn A", "0901234567", "123 Đường ABC, Quận 1", "TP.HCM", 10.7769, 106.7009),
    SampleUser("user2@example.com", "Trần Thị B", "0907654321", "456 Đường XYZ, Quận 3", "TP.HCM", 10.7829, 106.6909),
    SampleUser("user3@example.com", "Lê Văn C", "0912345678", "789 Đường DEF, Quận 5", "TP.HCM", 10.7559, 106.6679)
  ]

  /**
   * A sample item. `owner` indexes `SampleUsers`; the description and image
   * list of the sample data are carried as they are.
   */
  datatype Template = Template(
    title: string,
    description: string,
    category: string,
    condition: string,
    transactionType: string,
    images: Json,
    price: Option<int>,
    owner: nat)

  /** The (title, owner) keys of the ten sample items, in order. */
  const SampleKeys: seq<(string, nat)> := [
    ("Quần áo trẻ em size 5-6 tuổi", 0),
    ("Điện thoại Samsung Galaxy cũ", 1),
    ("Sách giáo khoa lớp 1-2", 2),
    ("Bàn ghế gỗ cũ", 0),
    ("Đồ chơi LEGO cũ", 1),
    ("Nồi cơm điện cũ", 2),
    ("Xe đạp trẻ em", 0),
    ("Quạt máy cũ", 1),
    ("Tủ quần áo gỗ", 2),
    ("Bộ bát đĩa sứ", 0)
  ]

  predicate Key(t: Template, key: (string, nat)) {
    (t.title, t.owner) == key
  }

  /** The row created for a sample user. */
  function NewUser(su: SampleUser, hash: PasswordHash, id: Id, now: int): User {
    User(id, su.email, hash, su.name, Some(su.phone), Some(su.address), Some(su.city),
         Some(su.latitude), Some(su.longitude), 0.0, 0, now)
  }

  /** `findUnique` by email, then `create` when absent. */
  function EnsureUser(s: Store, su: SampleUser, hash: PasswordHash, now: int): (r: (Store, User))
    ensures r.1.email == su.email
    ensures FindUserByEmail(s.users, su.email).Some? ==> r == (s, FindUserByEmail(s.users, su.email).value)
    ensures FindUserByEmail(s.users, su.email).None? ==>
      r == (s.(users := s.users + [NewUser(su, hash, s.nextId, now)], nextId := s.nextId + 1), NewUser(su, hash, s.nextId, now))
    ensures FindUserByEmail(r.0.users, su.email) == Some(r.1)
    ensures r.0.users[..|s.users|] == s.users && |r.0.users| <= |s.users| + 1
  {
    match FindUserByEmail(s.users, su.email)
    case Some(u) => (s, u)
    case None =>
      var u := NewUser(su, hash, s.nextId, now);
      FindByEmailAppended(s.users, u);
      assert (s.users + [u])[..|s.users|] == s.users;
      (s.(users := s.users + [u], nextId := s.nextId + 1), u)
  }

  /** `findFirst({ where: { title, userId } })` found something. */
  predicate HasItemTitled(s: Store, title: string, userId: Id) {
    exists i :: 0 <= i < |s.items| && s.items[i].title == title && s.items[i].userId == userId
  }

  function FindItemTitled(items: seq<Item>, title: string, userId: Id): (r: Option<Item>)
    ensures r.Some? <==> exists i :: 0 <= i < |items| && items[i].title == title && items[i].userId == userId
  {
    if |items| == 0 then None
    else if items[0].title == title && items[0].userId == userId then Some(items[0])
    else
      var r := FindItemTitled(items[1..], title, userId);
      assert forall i :: 1 <= i < |items| ==> items[i] == items[1..][i - 1];
      if r.Some? then
        var k :| 0 <= k < |items[1..]| && items[1..][k].title == title && items[1..][k].userId == userId;
        assert items[k + 1] == items[1..][k];
        r
      else r
  }

  /** The item created from a template, owned by `userId`, with the fresh token of its id. */
  function NewItem(t: Template, userId: Id, seedUser: SampleUser, id: Id, qr: nat -> string, now: int): Item {
    Item(id, t.title, t.description, t.category, t.condition, Some(t.images), t.transactionType, t.price,
         Some(seedUser.city), Some(seedUser.address), Some(seedUser.latitude), Some(seedUser.longitude),
         qr(id), Available, 0, userId, now)
  }

  /** The owner of a template's item; an index out of range falls back to the first sample user. */
  function OwnerId(owners: seq<User>, t: Template): Id
    requires |owners| > 0
  {
    if t.owner < |owners| then owners[t.owner].id else owners[0].id
  }

  function OwnerOf(sus: seq<SampleUser>, t: Template): SampleUser
    requires |sus| > 0
  {
    if t.owner < |sus| then sus[t.owner] else sus[0]
  }

  /** One iteration: create the template's item unless its owner already has one with that title. */
  function SeedOne(s: Store, t: Template, sus: seq<SampleUser>, owners: seq<User>, qr: nat -> string, now: int): (r: (Store, seq<Item>))
    requires |owners| == |sus| > 0
    ensures r.0 == s.(items := s.items + r.1, nextId := s.nextId + |r.1|)
    ensures r.1 == [] <==> HasItemTitled(s, t.title, OwnerId(owners, t))
    ensures r.1 != [] ==> r.1 == [NewItem(t, OwnerId(owners, t), OwnerOf(sus, t), s.nextId, qr, now)]
    ensures HasItemTitled(r.0, t.title, OwnerId(owners, t))
  {
    var uid := OwnerId(owners, t);
    if FindItemTitled(s.items, t.title, uid).Some? then
      assert s.(items := s.items + [], nextId := s.nextId + 0) == s;
      (s, [])
    else
      var x := NewItem(t, uid, OwnerOf(sus, t), s.nextId, qr, now);
      var s' := s.(items := s.items + [x], nextId := s.nextId + 1);
      assert s'.items[|s.items|] == x;
      (s', [x])
  }

  /** Items numbered consecutively from `first`, each available with the fresh token of its id. */
  predicate NumberedFrom(items: seq<Item>, first: Id, qr: nat -> string) {
    forall i :: 0 <= i < |items| ==>
      items[i].id == first + i && items[i].qrCode == qr(items[i].id) && items[i].status == Available
  }

  lemma NumberedConcat(a: seq<Item>, b: seq<Item>, first: Id, qr: nat -> string)
    requires NumberedFrom(a, first, qr) && NumberedFrom(b, first + |a|, qr)
    ensures NumberedFrom(a + b, first, qr)
  {
    forall i | 0 <= i < |a + b|
      ensures (a + b)[i].id == first + i && (a + b)[i].qrCode == qr((a + b)[i].id) && (a + b)[i].status == Available
    {
      if i >= |a| {
        assert (a + b)[i] == b[i - |a|];
      }
    }
  }

  /** An item of the given title and owner stays present when items are appended. */
  lemma TitledKept(s: Store, s': Store, title: string, userId: Id)
    requires HasItemTitled(s, title, userId)
    requires |s.items| <= |s'.items| && s'.items[..|s.items|] == s.items
    ensures HasItemTitled(s', title, userId)
  {
    var i :| 0 <= i < |s.items| && s.items[i].title == title && s.items[i].userId == userId;
    assert s'.items[i] == s.items[i];
  }

  /**
   * The loop over the templates, in order. Returns the store and the items
   * created; the created items take consecutive ids, each with its own
   * fresh token.
   */
  function SeedItems(s: Store, ts: seq<Template>, sus: seq<SampleUser>, owners: seq<User>, qr: nat -> string, now: int): (r: (Store, seq<Item>))
    requires |owners| == |sus| > 0
    ensures r.0 == s.(items := s.items + r.1, nextId := s.nextId + |r.1|)
    ensures |r.1| <= |ts|
    ensures NumberedFrom(r.1, s.nextId, qr)
    decreases |ts|
  {
    if |ts| == 0 then
      assert s.(items := s.items + [], nextId := s.nextId + 0) == s;
      (s, [])
    else
      var (s1, created) := SeedOne(s, ts[0], sus, owners, qr, now);
      var (s2, rest) := SeedItems(s1, ts[1..], sus, owners, qr, now);
      Collections.ConcatAssoc(s.items, created, rest);
      NumberedConcat(created, rest, s.nextId, qr);
      (s2, created + rest)
  }

  /** After the loop every template has its item. */
  lemma {:induction false} SeededAll(s: Store, ts: seq<Template>, sus: seq<SampleUser>, owners: seq<User>, qr: nat -> string, now: int)
    requires |owners| == |sus| > 0
    ensures forall j :: 0 <= j < |ts| ==> HasItemTitled(SeedItems(s, ts, sus, owners, qr, now).0, ts[j].title, OwnerId(owners, ts[j]))
    decreases |ts|
  {
    if |ts| > 0 {
      var (s1, created) := SeedOne(s, ts[0], sus, owners, qr, now);
      var s2 := SeedItems(s1, ts[1..], sus, owners, qr, now).0;
      SeededAll(s1, ts[1..], sus, owners, qr, now);
      TitledKept(s1, s2, ts[0].title, OwnerId(owners, ts[0]));
      forall j | 1 <= j < |ts| ensures HasItemTitled(s2, ts[j].title, OwnerId(owners, ts[j])) {
        assert ts[j] == ts[1..][j - 1];
      }
    }
  }

  datatype SeedReply = SeedReply(message: string, items: seq<Item>, emails: seq<string>)

  /** The reply's message: "Đã tạo <n> đồ mẫu". */
  function CreatedMessage(n: nat): string {
    "Đã tạo " + Text.NatToString(n) + " đồ mẫu"
  }

  /** The sample users, each found by email or created, in order. */
  function EnsureUsers(s: Store, sus: seq<SampleUser>, hash: PasswordHash, now: int): (r: (Store, seq<User>))
    ensures |r.1| == |sus|
    ensures r.0 == s.(users := r.0.users, nextId := r.0.nextId)
    ensures |s.users| <= |r.0.users| <= |s.users| + |sus| && r.0.users[..|s.users|] == s.users
    ensures forall k :: 0 <= k < |sus| ==> FindUserByEmail(r.0.users, sus[k].email) == Some(r.1[k])
    decreases |sus|
  {
    if |sus| == 0 then
      assert s.users[..|s.users|] == s.users;
      (s, [])
    else
      var (s1, u) := EnsureUser(s, sus[0], hash, now);
      var (s2, us) := EnsureUsers(s1, sus[1..], hash, now);
      EmailKept(s1.users, s2.users, sus[0].email);
      Collections.PrefixOfPrefix(s.users, s1.users, s2.users);
      FoundInOrder(s2.users, u, us, sus);
      (s2, [u] + us)
  }

  /** The lookups of the first sample user and of the rest, in order, are the lookups of them all. */
  lemma FoundInOrder(users: seq<User>, u: User, us: seq<User>, sus: seq<SampleUser>)
    requires |sus| > 0 && |us| == |sus| - 1
    requires FindUserByEmail(users, sus[0].email) == Some(u)
    requires forall k :: 0 <= k < |sus[1..]| ==> FindUserByEmail(users, sus[1..][k].email) == Some(us[k])
    ensures forall k :: 0 <= k < |sus| ==> FindUserByEmail(users, sus[k].email) == Some(([u] + us)[k])
  {
    forall k | 0 <= k < |sus| ensures FindUserByEmail(users, sus[k].email) == Some(([u] + us)[k]) {
      if k > 0 {
        var j := k - 1;
        assert sus[k] == sus[1..][j];
        assert FindUserByEmail(users, sus[1..][j].email) == Some(us[j]);
        assert ([u] + us)[k] == us[j];
      } else {
        assert ([u] + us)[0] == u;
      }
    }
  }

  /**
   * POST /api/seed. `salt` stands for bcrypt's salt (the password is hashed
   * once and shared), `qr` for the fresh-token source and `now` for the clock.
   */
  function Run(s: Store, sus: seq<SampleUser>, ts: seq<Template>, salt: nat, qr: nat -> string, now: int): (r: Step<SeedReply>)
    requires |sus| > 0
    ensures r.response.Ok? && r.response.status == 200
    ensures forall k :: 0 <= k < |sus| ==> FindUserByEmail(r.store.users, sus[k].email).Some?
    ensures |s.users| <= |r.store.users| <= |s.users| + |sus| && r.store.users[..|s.users|] == s.users
    ensures |r.response.body.items| <= |ts|
    ensures r.response.body.message == CreatedMessage(|r.response.body.items|)
    ensures r.store.items == s.items + r.response.body.items
    ensures forall i :: 0 <= i < |r.response.body.items| ==>
      r.response.body.items[i].qrCode == qr(r.response.body.items[i].id)
    ensures |r.response.body.emails| == |sus|
    ensures forall k :: 0 <= k < |sus| ==> r.response.body.emails[k] == sus[k].email
    ensures r.store == s.(users := r.store.users, items := r.store.items, nextId := r.store.nextId)
  {
    var (s3, owners) := EnsureUsers(s, sus, Hash(SamplePassword, salt), now);
    var (s4, created) := SeedItems(s3, ts, sus, owners, qr, now);
    assert s4.users == s3.users && s4.items == s3.items + created && s3.items == s.items;
    var emails := seq(|owners|, k requires 0 <= k < |owners| => owners[k].email);
    forall k | 0 <= k < |sus| ensures emails[k] == sus[k].email {
      assert FindUserByEmail(s3.users, sus[k].email) == Some(owners[k]);
    }
    Step(s4, Ok(200, SeedReply(CreatedMessage(|created|), created, emails)))
  }

  /** A lookup by email that succeeds keeps its answer when users are appended. */
  lemma {:induction false} EmailKept(users: seq<User>, more: seq<User>, email: string)
    requires |users| <= |more| && more[..|users|] == users
    requires FindUserByEmail(users, email).Some?
    ensures FindUserByEmail(more, email) == FindUserByEmail(users, email)
  {
    if users[0].email != email {
      assert more[1..][..|users[1..]|] == users[1..];
      EmailKept(users[1..], more[1..], email);
    }
  }

  /** Seeding keeps every store invariant. */
  lemma RunPreservesValid(s: Store, sus: seq<SampleUser>, ts: seq<Template>, salt: nat, qr: nat -> string, now: int)
    requires |sus| > 0 && Valid(s)
    ensures Valid(Run(s, sus, ts, salt, qr, now).store)
  {
    var hash := Hash(SamplePassword, salt);
    var (s3, owners) := EnsureUsers(s, sus, hash, now);
    EnsureUsersPreservesValid(s, sus, hash, now);
    forall k | 0 <= k < |owners| ensures owners[k] in s3.users {
      assert FindUserByEmail(s3.users, sus[k].email) == Some(owners[k]);
    }
    SeedItemsPreservesValid(s3, ts, sus, owners, qr, now);
  }

  /** Finding or creating one sample user keeps every store invariant: a created user has a fresh id, an unused email and no reviews. */
  lemma EnsureUserPreservesValid(s: Store, su: SampleUser, hash: PasswordHash, now: int)
    requires Valid(s)
    ensures Valid(EnsureUser(s, su, hash, now).0)
  {
    if FindUserByEmail(s.users, su.email).None? {
      UserAppendedValid(s, NewUser(su, hash, s.nextId, now));
    }
  }

  lemma {:induction false} EnsureUsersPreservesValid(s: Store, sus: seq<SampleUser>, hash: PasswordHash, now: int)
    requires Valid(s)
    ensures Valid(EnsureUsers(s, sus, hash, now).0)
    decreases |sus|
  {
    if |sus| > 0 {
      var s1 := EnsureUser(s, sus[0], hash, now).0;
      EnsureUserPreservesValid(s, sus[0], hash, now);
      EnsureUsersPreservesValid(s1, sus[1..], hash, now);
    }
  }

  /** The loop over the templates keeps every store invariant when the owners are stored users. */
  lemma {:induction false} SeedItemsPreservesValid(s: Store, ts: seq<Template>, sus: seq<SampleUser>, owners: seq<User>, qr: nat -> string, now: int)
    requires |owners| == |sus| > 0 && Valid(s)
    requires forall k :: 0 <= k < |owners| ==> owners[k] in s.users
    ensures Valid(SeedItems(s, ts, sus, owners, qr, now).0)
    decreases |ts|
  {
    if |ts| > 0 {
      var s1 := SeedOne(s, ts[0], sus, owners, qr, now).0;
      SeedOnePreservesValid(s, ts[0], sus, owners, qr, now);
      assert s1.users == s.users;
      SeedItemsPreservesValid(s1, ts[1..], sus, owners, qr, now);
    }
  }

  /** One iteration keeps every store invariant: a created item has a fresh id and a stored owner. */
  lemma SeedOnePreservesValid(s: Store, t: Template, sus: seq<SampleUser>, owners: seq<User>, qr: nat -> string, now: int)
    requires |owners| == |sus| > 0 && Valid(s)
    requires forall k :: 0 <= k < |owners| ==> owners[k] in s.users
    ensures Valid(SeedOne(s, t, sus, owners, qr, now).0)
  {
    var r := SeedOne(s, t, sus, owners, qr, now);
    if r.1 != [] {
      var x := NewItem(t, OwnerId(owners, t), OwnerOf(sus, t), s.nextId, qr, now);
      assert r.0 == s.(items := s.items + [x], nextId := s.nextId + 1);
      OwnerStored(s, t, owners);
      ItemAppendedValid(s, x);
    } else {
      assert r.0 == s.(items := s.items + [], nextId := s.nextId + 0);
      assert s.items + [] == s.items;
    }
  }

  lemma OwnerStored(s: Store, t: Template, owners: seq<User>)
    requires |owners| > 0
    requires forall k :: 0 <= k < |owners| ==> owners[k] in s.users
    ensures HasUser(s, OwnerId(owners, t))
  {
    var k := if t.owner < |owners| then t.owner else 0;
    var i :| 0 <= i < |s.users| && s.users[i] == owners[k];
  }

  /** Running the seed on its own result creates no user and no item and changes nothing. */
  lemma RunTwice(s: Store, sus: seq<SampleUser>, ts: seq<Template>, salt: nat, qr: nat -> string, now: int,
                 salt': nat, qr': nat -> string, now': int)
    requires |sus| > 0
    ensures var s1 := Run(s, sus, ts, salt, qr, now).store;
      var r2 := Run(s1, sus, ts, salt', qr', now');
      r2.store == s1 && r2.response.body.items == []
  {
    var (a3, owners) := EnsureUsers(s, sus, Hash(SamplePassword, salt), now);
    var s1 := SeedItems(a3, ts, sus, owners, qr, now).0;
    assert s1 == Run(s, sus, ts, salt, qr, now).store;
    SeededAll(a3, ts, sus, owners, qr, now);
    SameUsersAgain(s1, sus, owners, Hash(SamplePassword, salt'), now');
    NothingToSeed(s1, ts, sus, owners, qr', now');
  }

  /** When the sample emails already resolve, ensuring the users changes nothing and finds the same rows. */
  lemma {:induction false} SameUsersAgain(s: Store, sus: seq<SampleUser>, owners: seq<User>, hash: PasswordHash, now: int)
    requires |owners| == |sus|
    requires forall k :: 0 <= k < |sus| ==> FindUserByEmail(s.users, sus[k].email) == Some(owners[k])
    ensures EnsureUsers(s, sus, hash, now) == (s, owners)
    decreases |sus|
  {
    if |sus| > 0 {
      forall k | 0 <= k < |sus[1..]| ensures FindUserByEmail(s.users, sus[1..][k].email) == Some(owners[1..][k]) {
        var j := k + 1;
        assert sus[1..][k] == sus[j] && owners[1..][k] == owners[j];
        assert FindUserByEmail(s.users, sus[j].email) == Some(owners[j]);
      }
      assert FindUserByEmail(s.users, sus[0].email) == Some(owners[0]);
      SameUsersAgain(s, sus[1..], owners[1..], hash, now);
      Collections.HeadTail(owners);
    }
  }

  /** When every template already has its item, the loop creates nothing. */
  lemma {:induction false} NothingToSeed(s: Store, ts: seq<Template>, sus: seq<SampleUser>, owners: seq<User>, qr: nat -> string, now: int)
    requires |owners| == |sus| > 0
    requires forall j :: 0 <= j < |ts| ==> HasItemTitled(s, ts[j].title, OwnerId(owners, ts[j]))
    ensures SeedItems(s, ts, sus, owners, qr, now) == (s, [])
    decreases |ts|
  {
    if |ts| > 0 {
      forall j | 0 <= j < |ts[1..]| ensures HasItemTitled(s, ts[1..][j].title, OwnerId(owners, ts[1..][j])) {
        assert ts[1..][j] == ts[j + 1];
      }
      NothingToSeed(s, ts[1..], sus, owners, qr, now);
    }
  }

  /** The ten sample keys are pairwise distinct, so a first run on an empty store creates all ten items. */
  lemma SampleKeysDistinct()
    ensures |SampleKeys| == 10
    ensures forall i, j :: 0 <= i < j < |SampleKeys| ==> SampleKeys[i] != SampleKeys[j]
  {
  }
}

=== FILE: store.dfy ===
/**
 * The marketplace's relational store as an immutable value: one sequence per
 * table (users, items, transactions, favorites, messages, reviews,
 * notifications, exchanges), in insertion order, and the next free record id.
 * Every database call of the handlers becomes a pure function over this value.
 */
module Store {
  import opened Wrappers
  import opened Json
  import Collections

  /** Record ids. The database's generated ids are modelled by a counter. */
  type Id = nat

  /**
   * bcrypt's output, modelled as an ideal salted hash: `Verify` accepts
   * exactly the password that was hashed. The stored value is a
   * `PasswordHash`, never a plain string.
   */
  datatype PasswordHash = PasswordHash(salt: nat, secret: string)

  function Hash(password: string, salt: nat): (h: PasswordHash)
  {
    PasswordHash(salt, password)
  }

  predicate Verify(password: string, h: PasswordHash) {
    h.secret == password
  }

  /** `bcrypt.compare` accepts the hashed password and rejects every other one. */
  lemma HashVerify(password: string, other: string, salt: nat)
    ensures Verify(password, Hash(password, salt))
    ensures other != password ==> !Verify(other, Hash(password, salt))
  {
  }

  datatype User = User(
    id: Id,
    email: string,
    password: PasswordHash,
    name: string,
    phone: Option<string>,
    address: Option<string>,
    city: Option<string>,
    latitude: Option<real>,
    longitude: Option<real>,
    reputation: real,
    totalReviews: nat,
    createdAt: int)

  datatype Item = Item(
    id: Id,
    title: string,
    description: string,
    category: string,
    condition: string,
    images: Option<Json>,    // the array the client sent, stored serialised
    transactionType: string,
    price: Option<int>,
    city: Option<string>,
    address: Option<string>,
    latitude: Option<real>,
    longitude: Option<real>,
    qrCode: string,
    status: string,
    views: nat,
    userId: Id,
    createdAt: int)

  datatype Transaction = Transaction(
    id: Id,
    itemId: Id,
    buyerId: Id,
    sellerId: Id,
    transactionType: string,
    qrCode: string,
    status: string,
    createdAt: int)

  datatype Favorite = Favorite(id: Id, userId: Id, itemId: Id, createdAt: int)

  datatype Message = Message(
    id: Id,
    senderId: Id,
    receiverId: Id,
    content: string,
    image: Option<string>,
    itemId: Option<Id>,
    isRead: bool,
    createdAt: int)

  datatype Review = Review(
    id: Id,
    rating: int,
    comment: Option<string>,
    reviewerId: Id,
    revieweeId: Id,
    transactionId: Option<Id>,
    createdAt: int)

  datatype Notification = Notification(
    id: Id,
    userId: Id,
    kind: string,
    title: string,
    message: string,
    link: string,
    isRead: bool,
    createdAt: int)

  datatype Exchange = Exchange(id: Id, itemId: Id, userId: Id, message: Option<string>, createdAt: int)

  datatype Store = Store(
    users: seq<User>,
    items: seq<Item>,
    transactions: seq<Transaction>,
    favorites: seq<Favorite>,
    messages: seq<Message>,
    reviews: seq<Review>,
    notifications: seq<Notification>,
    exchanges: seq<Exchange>,
    nextId: Id)

  /** The schema defaults for a new item and a new transaction. */
  const Available := "available"
  const Pending := "pending"

  /** An HTTP reply: a JSON body with a status, or `{ error }` with a status. */
  datatype Response<T> = Ok(status: int, body: T) | Err(status: int, error: string)

  /** The store after a handler ran, and the reply it sent. */
  datatype Step<T> = Step(store: Store, response: Response<T>)

  const ServerError := "Lỗi server"

  /* ---------------------------------------------------------------- lookups */

  function FindUser(users: seq<User>, id: Id): (r: Option<User>)
    ensures r.Some? ==> r.value in users && r.value.id == id
    ensures r.None? <==> forall i :: 0 <= i < |users| ==> users[i].id != id
  {
    Collections.First(users, (u: User) => u.id == id)
  }

  /** `findUnique({ where: { email } })`. */
  function FindUserByEmail(users: seq<User>, email: string): (r: Option<User>)
    ensures r.Some? ==> r.value in users && r.value.email == email
    ensures r.None? <==> forall i :: 0 <= i < |users| ==> users[i].email != email
  {
    Collections.First(users, (u: User) => u.email == email)
  }

  function FindItem(items: seq<Item>, id: Id): (r: Option<Item>)
    ensures r.Some? ==> r.value in items && r.value.id == id
    ensures r.None? <==> forall i :: 0 <= i < |items| ==> items[i].id != id
  {
    Collections.First(items, (x: Item) => x.id == id)
  }

  /** An email absent from the users is found at the row appended with it. */
  lemma {:induction false} FindByEmailAppended(users: seq<User>, u: User)
    requires forall i :: 0 <= i < |users| ==> users[i].email != u.email
    ensures FindUserByEmail(users + [u], u.email) == Some(u)
  {
    if |users| > 0 {
      assert (users + [u])[1..] == users[1..] + [u];
      FindByEmailAppended(users[1..], u);
    }
  }

  predicate HasUser(s: Store, id: Id) {
    exists i :: 0 <= i < |s.users| && s.users[i].id == id
  }

  predicate HasItem(s: Store, id: Id) {
    exists i :: 0 <= i < |s.items| && s.items[i].id == id
  }

  /* ------------------------------------------------------------- invariants */

  /** Every id of a table is below the counter and no two rows share one. */
  predicate IdsFresh<T>(rows: seq<T>, id: T -> Id, next: Id) {
    && (forall i :: 0 <= i < |rows| ==> id(rows[i]) < next)
    && (forall i, j :: 0 <= i < j < |rows| ==> id(rows[i]) != id(rows[j]))
  }

  lemma AppendFresh<T>(rows: seq<T>, id: T -> Id, next: Id, row: T)
    requires IdsFresh(rows, id, next) && id(row) == next
    ensures IdsFresh(rows + [row], id, next + 1)
  {
  }

  lemma RaiseFresh<T>(rows: seq<T>, id: T -> Id, next: Id)
    requires IdsFresh(rows, id, next)
    ensures IdsFresh(rows, id, next + 1)
  {
  }

  predicate AllIdsFresh(s: Store) {
    && IdsFresh(s.users, (u: User) => u.id, s.nextId)
    && IdsFresh(s.items, (x: Item) => x.id, s.nextId)
    && IdsFresh(s.transactions, (t: Transaction) => t.id, s.nextId)
    && IdsFresh(s.favorites, (f: Favorite) => f.id, s.nextId)
    && IdsFresh(s.messages, (m: Message) => m.id, s.nextId)
    && IdsFresh(s.reviews, (r: Review) => r.id, s.nextId)
    && IdsFresh(s.notifications, (n: Notification) => n.id, s.nextId)
    && IdsFresh(s.exchanges, (e: Exchange) => e.id, s.nextId)
  }

  /** The `@unique` constraint on `User.email`. */
  predicate UniqueEmails(users: seq<User>) {
    forall i, j :: 0 <= i < j < |users| ==> users[i].email != users[j].email
  }

  /** The `@@unique([userId, itemId])` constraint on `Favorite`. */
  predicate UniqueFavorites(favorites: seq<Favorite>) {
    forall i, j :: 0 <= i < j < |favorites| ==>
      (favorites[i].userId, favorites[i].itemId) != (favorites[j].userId, favorites[j].itemId)
  }

  /** Every relation field names an existing row. */
  predicate References(s: Store) {
    && (forall i :: 0 <= i < |s.items| ==> HasUser(s, s.items[i].userId))
    && (forall i :: 0 <= i < |s.transactions| ==>
          HasItem(s, s.transactions[i].itemId) && HasUser(s, s.transactions[i].buyerId)
          && HasUser(s, s.transactions[i].sellerId))
    && (forall i :: 0 <= i < |s.favorites| ==>
          HasUser(s, s.favorites[i].userId) && HasItem(s, s.favorites[i].itemId))
    && (forall i :: 0 <= i < |s.messages| ==>
          HasUser(s, s.messages[i].senderId) && HasUser(s, s.messages[i].receiverId))
    && (forall i :: 0 <= i < |s.reviews| ==>
          HasUser(s, s.reviews[i].reviewerId) && HasUser(s, s.reviews[i].revieweeId))
    && (forall i :: 0 <= i < |s.notifications| ==> HasUser(s, s.notifications[i].userId))
    && (forall i :: 0 <= i < |s.exchanges| ==>
          HasItem(s, s.exchanges[i].itemId) && HasUser(s, s.exchanges[i].userId))
  }

  /** Every stored rating lies between 1 and 5, as review creation enforces. */
  predicate RatingsInRange(reviews: seq<Review>) {
    forall i :: 0 <= i < |reviews| ==> 1 <= reviews[i].rating <= 5
  }

  /** Nobody trades with themselves, as transaction creation enforces. */
  predicate NoSelfTrade(transactions: seq<Transaction>) {
    forall i :: 0 <= i < |transactions| ==> transactions[i].buyerId != transactions[i].sellerId
  }

  /** The ratings a user has received, in insertion order. */
  function RatingsOf(reviews: seq<Review>, userId: Id): (r: seq<int>)
    ensures |r| <= |reviews|
  {
    if |reviews| == 0 then []
    else
      var last := reviews[|reviews| - 1];
      RatingsOf(reviews[..|reviews| - 1], userId) + (if last.revieweeId == userId then [last.rating] else [])
  }

  function Sum(xs: seq<int>): int {
    if |xs| == 0 then 0 else Sum(xs[..|xs| - 1]) + xs[|xs| - 1]
  }

  /** The arithmetic mean, and 0 for no values. */
  function Mean(xs: seq<int>): real {
    if |xs| == 0 then 0.0 else Sum(xs) as real / |xs| as real
  }

  /** Every user's reputation is the mean of the ratings received, and totalReviews their number. */
  predicate ReputationConsistent(users: seq<User>, reviews: seq<Review>) {
    forall i :: 0 <= i < |users| ==>
      && users[i].totalReviews == |RatingsOf(reviews, users[i].id)|
      && users[i].reputation == Mean(RatingsOf(reviews, users[i].id))
  }

  predicate Valid(s: Store) {
    && AllIdsFresh(s)
    && UniqueEmails(s.users)
    && UniqueFavorites(s.favorites)
    && References(s)
    && RatingsInRange(s.reviews)
    && NoSelfTrade(s.transactions)
    && ReputationConsistent(s.users, s.reviews)
  }

  /** The empty database satisfies every invariant. */
  lemma EmptyValid()
    ensures Valid(Store([], [], [], [], [], [], [], [], 0))
  {
  }

  /* ------------------------------------------------- invariant maintenance */

  /** `s'` keeps every user and item row id of `s` at its position. */
  predicate RowsKept(s: Store, s': Store) {
    && |s.users| <= |s'.users| && (forall i :: 0 <= i < |s.users| ==> s'.users[i].id == s.users[i].id)
    && |s.items| <= |s'.items| && (forall i :: 0 <= i < |s.items| ==> s'.items[i].id == s.items[i].id)
  }

  lemma KeptRowsResolve(s: Store, s': Store)
    requires RowsKept(s, s')
    ensures forall id :: HasUser(s, id) ==> HasUser(s', id)
    ensures forall id :: HasItem(s, id) ==> HasItem(s', id)
  {
    forall id | HasUser(s, id) ensures HasUser(s', id) {
      var i :| 0 <= i < |s.users| && s.users[i].id == id;
      assert s'.users[i].id == id;
    }
    forall id | HasItem(s, id) ensures HasItem(s', id) {
      var i :| 0 <= i < |s.items| && s.items[i].id == id;
      assert s'.items[i].id == id;
    }
  }

  /** Tables a handler did not write keep their references when the rows they point to are kept. */
  lemma UntouchedReferences(s: Store, s': Store)
    requires References(s) && RowsKept(s, s')
    ensures s'.items == s.items ==> forall i :: 0 <= i < |s'.items| ==> HasUser(s', s'.items[i].userId)
    ensures s'.transactions == s.transactions ==> forall i :: 0 <= i < |s'.transactions| ==>
      HasItem(s', s'.transactions[i].itemId) && HasUser(s', s'.transactions[i].buyerId)
      && HasUser(s', s'.transactions[i].sellerId)
    ensures s'.favorites == s.favorites ==> forall i :: 0 <= i < |s'.favorites| ==>
      HasUser(s', s'.favorites[i].userId) && HasItem(s', s'.favorites[i].itemId)
    ensures s'.messages == s.messages ==> forall i :: 0 <= i < |s'.messages| ==>
      HasUser(s', s'.messages[i].senderId) && HasUser(s', s'.messages[i].receiverId)
    ensures s'.reviews == s.reviews ==> forall i :: 0 <= i < |s'.reviews| ==>
      HasUser(s', s'.reviews[i].reviewerId) && HasUser(s', s'.reviews[i].revieweeId)
    ensures s'.notifications == s.notifications ==> forall i :: 0 <= i < |s'.notifications| ==>
      HasUser(s', s'.notifications[i].userId)
    ensures s'.exchanges == s.exchanges ==> forall i :: 0 <= i < |s'.exchanges| ==>
      HasItem(s', s'.exchanges[i].itemId) && HasUser(s', s'.exchanges[i].userId)
  {
    KeptRowsResolve(s, s');
  }

  /** Raising the counter by `k` keeps the ids of every unchanged table fresh. */
  lemma RaiseAllFresh(s: Store, s': Store)
    requires AllIdsFresh(s) && s'.nextId >= s.nextId
    ensures s'.users == s.users ==> IdsFresh(s'.users, (u: User) => u.id, s'.nextId)
    ensures s'.items == s.items ==> IdsFresh(s'.items, (x: Item) => x.id, s'.nextId)
    ensures s'.transactions == s.transactions ==> IdsFresh(s'.transactions, (t: Transaction) => t.id, s'.nextId)
    ensures s'.favorites == s.favorites ==> IdsFresh(s'.favorites, (f: Favorite) => f.id, s'.nextId)
    ensures s'.messages == s.messages ==> IdsFresh(s'.messages, (m: Message) => m.id, s'.nextId)
    ensures s'.reviews == s.reviews ==> IdsFresh(s'.reviews, (r: Review) => r.id, s'.nextId)
    ensures s'.notifications == s.notifications ==> IdsFresh(s'.notifications, (n: Notification) => n.id, s'.nextId)
    ensures s'.exchanges == s.exchanges ==> IdsFresh(s'.exchanges, (e: Exchange) => e.id, s'.nextId)
  {
  }

  /* ------------------------------------------------------ appending rows */

  /** Appending a user with a fresh id, an unused email and no reviews keeps every invariant. */
  lemma UserAppendedValid(s: Store, u: User)
    requires Valid(s) && u.id == s.nextId && u.reputation == 0.0 && u.totalReviews == 0
    requires forall i :: 0 <= i < |s.users| ==> s.users[i].email != u.email
    ensures Valid(s.(users := s.users + [u], nextId := s.nextId + 1))
  {
    UserAppendedFresh(s, u);
    UserAppendedUnique(s.users, u);
    UserAppendedReferences(s, u);
    NextIdUnreviewed(s);
    UserAppendedReputation(s.users, s.reviews, u);
  }

  lemma UserAppendedFresh(s: Store, u: User)
    requires AllIdsFresh(s) && u.id == s.nextId
    ensures AllIdsFresh(s.(users := s.users + [u], nextId := s.nextId + 1))
  {
    AppendFresh(s.users, (x: User) => x.id, s.nextId, u);
    RaiseAllFresh(s, s.(users := s.users + [u], nextId := s.nextId + 1));
  }

  lemma UserAppendedUnique(users: seq<User>, u: User)
    requires UniqueEmails(users) && forall i :: 0 <= i < |users| ==> users[i].email != u.email
    ensures UniqueEmails(users + [u])
  {
    var us := users + [u];
    forall i, j | 0 <= i < j < |us| ensures us[i].email != us[j].email {
      assert us[i] == users[i];
    }
  }

  lemma UserAppendedReferences(s: Store, u: User)
    requires References(s)
    ensures References(s.(users := s.users + [u], nextId := s.nextId + 1))
  {
    var s' := s.(users := s.users + [u], nextId := s.nextId + 1);
    assert RowsKept(s, s');
    UntouchedReferences(s, s');
  }

  lemma UserAppendedReputation(users: seq<User>, reviews: seq<Review>, u: User)
    requires ReputationConsistent(users, reviews) && u.reputation == 0.0 && u.totalReviews == 0
    requires forall i :: 0 <= i < |reviews| ==> reviews[i].revieweeId != u.id
    ensures ReputationConsistent(users + [u], reviews)
  {
    NoRatingsForFresh(reviews, u.id);
    var us := users + [u];
    forall i | 0 <= i < |us|
      ensures us[i].totalReviews == |RatingsOf(reviews, us[i].id)|
      ensures us[i].reputation == Mean(RatingsOf(reviews, us[i].id))
    {
      if i < |users| {
        assert us[i] == users[i];
      }
    }
  }

  /** Under the invariants nobody has reviewed the id the counter will hand out next. */
  lemma NextIdUnreviewed(s: Store)
    requires References(s) && AllIdsFresh(s)
    ensures forall i :: 0 <= i < |s.reviews| ==> s.reviews[i].revieweeId != s.nextId
  {
    forall i | 0 <= i < |s.reviews| ensures s.reviews[i].revieweeId != s.nextId {
      var k :| 0 <= k < |s.users| && s.users[k].id == s.reviews[i].revieweeId;
    }
  }

  /** A user id not yet handed out has received no reviews. */
  lemma {:induction false} NoRatingsForFresh(reviews: seq<Review>, id: Id)
    requires forall i :: 0 <= i < |reviews| ==> reviews[i].revieweeId != id
    ensures RatingsOf(reviews, id) == []
  {
    if |reviews| > 0 {
      NoRatingsForFresh(reviews[..|reviews| - 1], id);
    }
  }

  /** Appending an item with a fresh id whose owner exists keeps every invariant. */
  lemma ItemAppendedValid(s: Store, x: Item)
    requires Valid(s) && x.id == s.nextId && HasUser(s, x.userId)
    ensures Valid(s.(items := s.items + [x], nextId := s.nextId + 1))
  {
    var s' := s.(items := s.items + [x], nextId := s.nextId + 1);
    AppendFresh(s.items, (i: Item) => i.id, s.nextId, x);
    RaiseAllFresh(s, s');
    ItemAppendedReferences(s, x);
  }

  lemma ItemAppendedReferences(s: Store, x: Item)
    requires References(s) && HasUser(s, x.userId)
    ensures References(s.(items := s.items + [x], nextId := s.nextId + 1))
  {
    var s' := s.(items := s.items + [x], nextId := s.nextId + 1);
    assert RowsKept(s, s');
    UntouchedReferences(s, s');
    KeptRowsResolve(s, s');
    forall i | 0 <= i < |s'.items| ensures HasUser(s', s'.items[i].userId) {
      if i < |s.items| {
        assert s'.items[i] == s.items[i];
      }
    }
  }
}

=== FILE: text.dfy ===
/**
 * String operations the marketplace relies on, with the semantics of the
 * JavaScript built-ins it calls: `trim`, `includes`, `substring`,
 * `toLowerCase`, `split` and `join`. Strings are sequences of Unicode scalar
 * values; UTF-16 code units are not modelled.
 */
module Text {

  /** WhiteSpace and LineTerminator code points, the set `String.prototype.trim` removes. */
  predicate IsSpace(c: char) {
    || c == '\t' || c == '\n' || c == '\U{000B}' || c == '\U{000C}' || c == '\r' || c == ' '
    || c == '\U{00A0}' || c == '\U{1680}' || ('\U{2000}' <= c <= '\U{200A}')
    || c == '\U{2028}' || c == '\U{2029}' || c == '\U{202F}' || c == '\U{205F}'
    || c == '\U{3000}' || c == '\U{FEFF}'
  }

  /** Every character of `s` is white space (the empty string included). */
  predicate IsBlank(s: string) {
    forall i :: 0 <= i < |s| ==> IsSpace(s[i])
  }

  /** The index of the first character of `s` at or after `k` that is not white space, or `|s|`. */
  function SkipSpaces(s: string, k: nat): (n: nat)
    requires k <= |s|
    ensures k <= n <= |s| && IsBlank(s[k..n])
    ensures n == |s| || !IsSpace(s[n])
    decreases |s| - k
  {
    if k < |s| && IsSpace(s[k]) then
      var n := SkipSpaces(s, k + 1);
      assert s[k..n] == [s[k]] + s[k + 1..n];
      n
    else k
  }

  /** The index just past the last character of `s[lo..j]` that is not white space, or `lo`. */
  function BackSpaces(s: string, lo: nat, j: nat): (n: nat)
    requires lo <= j <= |s|
    ensures lo <= n <= j && IsBlank(s[n..j])
    ensures n == lo || !IsSpace(s[n - 1])
    decreases j
  {
    if lo < j && IsSpace(s[j - 1]) then
      var n := BackSpaces(s, lo, j - 1);
      assert s[n..j] == s[n..j - 1] + [s[j - 1]];
      n
    else j
  }

  /**
   * `s.trim()`: the longest slice of `s` that neither starts nor ends with
   * white space, obtained by dropping only white space on either side.
   */
  function Trim(s: string): (r: string)
    ensures exists i, j :: 0 <= i <= j <= |s| && r == s[i..j] && IsBlank(s[..i]) && IsBlank(s[j..])
    ensures r == [] || (!IsSpace(r[0]) && !IsSpace(r[|r| - 1]))
    ensures r == [] <==> IsBlank(s)
  {
    var i := SkipSpaces(s, 0);
    var j := BackSpaces(s, i, |s|);
    var r := s[i..j];
    assert s[..i] == s[0..i];
    assert r != [] ==> r[0] == s[i] && r[|r| - 1] == s[j - 1];
    BlankSplit(s, i, j);
    r
  }

  /** A string is blank exactly when both ends are blank and the middle is empty or blank. */
  lemma BlankSplit(s: string, i: nat, j: nat)
    requires i <= j <= |s| && IsBlank(s[..i]) && IsBlank(s[j..])
    requires i == j || !IsSpace(s[i])
    ensures i == j <==> IsBlank(s)
  {
    if i == j {
      assert s == s[..i] + s[j..];
      BlankConcat(s[..i], s[j..]);
    }
  }

  /** A string that neither starts nor ends with white space is its own trim. */
  lemma TrimUnchanged(s: string)
    requires s == [] || (!IsSpace(s[0]) && !IsSpace(s[|s| - 1]))
    ensures Trim(s) == s
  {
  }

  lemma {:induction false} BlankConcat(a: string, b: string)
    requires IsBlank(a) && IsBlank(b)
    ensures IsBlank(a + b)
  {
    forall k | 0 <= k < |a + b|
      ensures IsSpace((a + b)[k])
    {
      if k < |a| {
        assert (a + b)[k] == a[k];
      } else {
        assert (a + b)[k] == b[k - |a|];
      }
    }
  }

  /** `t` occurs in `s` starting at index 0. */
  predicate IsPrefix(t: string, s: string) {
    |t| <= |s| && s[..|t|] == t
  }

  /** `s.includes(t)`, computed by trying each start position in turn. */
  predicate Contains(s: string, t: string)
    decreases |s|
  {
    IsPrefix(t, s) || (|s| > 0 && Contains(s[1..], t))
  }

  /** The position-based reading of `Contains`: `t` is a slice of `s`. */
  ghost predicate OccursAt(s: string, t: string, i: int) {
    0 <= i && i + |t| <= |s| && s[i..i + |t|] == t
  }

  lemma {:induction false} ContainsIffOccurs(s: string, t: string)
    ensures Contains(s, t) <==> exists i :: OccursAt(s, t, i)
    decreases |s|
  {
    if IsPrefix(t, s) {
      assert OccursAt(s, t, 0);
    } else if |s| == 0 {
      assert forall i :: !OccursAt(s, t, i);
    } else {
      ContainsIffOccurs(s[1..], t);
      if Contains(s[1..], t) {
        var i :| OccursAt(s[1..], t, i);
        assert s[1..][i..i + |t|] == s[i + 1..i + 1 + |t|];
        assert OccursAt(s, t, i + 1);
      } else {
        assert !OccursAt(s, t, 0);
        forall i | OccursAt(s, t, i) && i > 0
          ensures false
        {
          assert s[1..][i - 1..i - 1 + |t|] == s[i..i + |t|];
          assert OccursAt(s[1..], t, i - 1);
        }
      }
    }
  }

  /** Every character of a contained string is a character of the container. */
  lemma {:induction false} ContainedCharsOccur(s: string, t: string, k: int)
    requires Contains(s, t) && 0 <= k < |t|
    ensures t[k] in s
    decreases |s|
  {
    if IsPrefix(t, s) {
      assert s[k] == t[k];
    } else {
      ContainedCharsOccur(s[1..], t, k);
    }
  }

  /** A string occurs in any string built around it. */
  lemma ContainsInside(a: string, t: string, b: string)
    ensures Contains(a + t + b, t)
  {
    assert OccursAt(a + t + b, t, |a|) by {
      assert (a + t + b)[|a|..|a| + |t|] == t;
    }
    ContainsIffOccurs(a + t + b, t);
  }

  /** What a string contains, any string built around it contains too. */
  lemma ContainsExtend(s: string, t: string, a: string, b: string)
    requires Contains(s, t)
    ensures Contains(a + s + b, t)
  {
    ContainsIffOccurs(s, t);
    var i :| OccursAt(s, t, i);
    assert (a + s + b)[|a| + i..|a| + i + |t|] == s[i..i + |t|];
    assert OccursAt(a + s + b, t, |a| + i);
    ContainsIffOccurs(a + s + b, t);
  }

  /** What a string contains, the string with something put in front contains too. */
  lemma ContainsAfter(a: string, s: string, t: string)
    requires Contains(s, t)
    ensures Contains(a + s, t)
  {
    ContainsExtend(s, t, a, "");
    assert a + s + "" == a + s;
  }

  /** What a string contains, the string with something put after it contains too. */
  lemma ContainsBefore(s: string, b: string, t: string)
    requires Contains(s, t)
    ensures Contains(s + b, t)
  {
    ContainsExtend(s, t, "", b);
    assert "" + s + b == s + b;
  }

  lemma {:induction false} ContainsSelf(s: string)
    ensures Contains(s, s)
  {
    assert s[..|s|] == s;
  }

  /** The first index at which `c` occurs in `s`. */
  function IndexOf(s: string, c: char): (i: nat)
    requires c in s
    ensures i < |s| && s[i] == c
    ensures forall k :: 0 <= k < i ==> s[k] != c
  {
    if s[0] == c then 0 else 1 + IndexOf(s[1..], c)
  }

  predicate IsAsciiUpper(c: char) { 'A' <= c <= 'Z' }

  /**
   * The upper-case letters of the Vietnamese alphabet outside ASCII: À Á Â Ã
   * È É Ê Ì Í Ò Ó Ô Õ Ù Ú Ý in Latin-1, Ă Đ Ĩ Ũ Ơ Ư, and the even code points
   * of U+1EA0 (Ạ) to U+1EF8 (Ỹ). Each one's lower-case partner lies 0x20
   * above it in Latin-1 and right after it otherwise.
   */
  predicate IsVietnameseUpper(c: char) {
    var n := c as int;
    || (0xC0 <= n <= 0xC3) || (0xC8 <= n <= 0xCA) || n == 0xCC || n == 0xCD || (0xD2 <= n <= 0xD5)
    || n == 0xD9 || n == 0xDA || n == 0xDD
    || n == 0x102 || n == 0x110 || n == 0x128 || n == 0x168 || n == 0x1A0 || n == 0x1AF
    || (0x1EA0 <= n <= 0x1EF8 && n % 2 == 0)
  }

  /** `s.toLowerCase()` on one character, for ASCII and the Vietnamese alphabet. */
  function LowerChar(c: char): (r: char)
    ensures !IsAsciiUpper(r)
    ensures IsAsciiUpper(c) ==> r as int == c as int + 0x20
    ensures !IsAsciiUpper(c) && !IsVietnameseUpper(c) ==> r == c
    ensures IsVietnameseUpper(c) ==> r as int > c as int
  {
    if IsAsciiUpper(c) then (c as int + 0x20) as char
    else if !IsVietnameseUpper(c) then c
    else if c as int < 0x100 then (c as int + 0x20) as char
    else (c as int + 1) as char
  }

  /** `s.toLowerCase()`: lower-cases character by character and keeps the length. */
  function Lower(s: string): (r: string)
    ensures |r| == |s|
    ensures forall i :: 0 <= i < |s| ==> r[i] == LowerChar(s[i])
  {
    if |s| == 0 then [] else [LowerChar(s[0])] + Lower(s[1..])
  }

  lemma {:induction false} LowerConcat(a: string, b: string)
    ensures Lower(a + b) == Lower(a) + Lower(b)
  {
    var l := Lower(a + b);
    assert forall i :: 0 <= i < |a| ==> (a + b)[i] == a[i];
    assert forall i :: |a| <= i < |a + b| ==> (a + b)[i] == b[i - |a|];
    assert l == Lower(a) + Lower(b);
  }

  /** `s.substring(0, n)`: at most the first `n` characters. */
  function Prefix(s: string, n: nat): (r: string)
    ensures |r| == if |s| <= n then |s| else n
    ensures IsPrefix(r, s)
  {
    if |s| <= n then s else s[..n]
  }

  function DigitChar(d: nat): (c: char)
    requires d < 10
    ensures '0' <= c <= '9'
  {
    ('0' as int + d) as char
  }

  /** Decimal rendering of a natural number, as template literals print it. */
  function NatToString(n: nat): (r: string)
    ensures |r| > 0
    ensures forall i :: 0 <= i < |r| ==> '0' <= r[i] <= '9'
  {
    if n < 10 then [DigitChar(n)] else NatToString(n / 10) + [DigitChar(n % 10)]
  }

  /** The number a string of decimal digits spells, read left to right. */
  function DigitsValue(s: string): nat
    requires forall i :: 0 <= i < |s| ==> '0' <= s[i] <= '9'
  {
    if |s| == 0 then 0
    else DigitsValue(s[..|s| - 1]) * 10 + (s[|s| - 1] as int - '0' as int)
  }

  /** Reading a rendered number back gives the number: the rendering loses nothing. */
  lemma {:induction false} NatToStringRoundTrip(n: nat)
    ensures DigitsValue(NatToString(n)) == n
  {
    if n >= 10 {
      var a := NatToString(n / 10);
      var r := a + [DigitChar(n % 10)];
      assert r[..|r| - 1] == a;
      NatToStringRoundTrip(n / 10);
    }
  }

  function IntToString(n: int): (r: string)
    ensures |r| > 0
  {
    if n < 0 then "-" + NatToString(-n) else NatToString(n)
  }

  /** `parts.join(sep)`. */
  function Join(parts: seq<string>, sep: char): (r: string)
  {
    if |parts| == 0 then ""
    else if |parts| == 1 then parts[0]
    else parts[0] + [sep] + Join(parts[1..], sep)
  }

  /**
   * `s.split(sep)` for a one-character separator: at least one part, no part
   * contains the separator, and joining the parts gives `s` back.
   */
  function Split(s: string, sep: char): (parts: seq<string>)
    ensures |parts| >= 1
    ensures forall k :: 0 <= k < |parts| ==> sep !in parts[k]
    ensures Join(parts, sep) == s
  {
    if sep !in s then [s]
    else
      var i := IndexOf(s, sep);
      var rest := Split(s[i + 1..], sep);
      assert s == s[..i] + [sep] + s[i + 1..];
      [s[..i]] + rest
  }
}

=== FILE: transactions.dfy ===
/**
 * GET and POST /api/transactions: a user's transactions on either side, and
 * the request to buy, exchange or receive an item, which also notifies the
 * item's owner.
 */
module Transactions {
  import opened Wrappers
  import opened Store
  import Text
  import Collections

  const MissingUserId := "Thiếu userId"
  const MissingFields := "Thiếu thông tin bắt buộc"
  const ItemNotFound := "Không tìm thấy đồ"
  const OwnItem := "Bạn không thể mua/đổi đồ của chính mình"
  const NotificationKind := "transaction"
  const NotificationTitle := "Giao dịch mới"

  function CreatedAt(t: Transaction): int { t.createdAt }

  predicate Involves(t: Transaction, userId: Id) {
    t.buyerId == userId || t.sellerId == userId
  }

  /** GET /api/transactions?userId=…: the transactions where the user buys or sells, newest first. */
  function List(s: Store, userId: Option<Id>): (r: Response<seq<Transaction>>)
    ensures r.Err? <==> userId.None?
    ensures r.Err? ==> r.status == 400 && r.error == MissingUserId
    ensures r.Ok? ==>
      && r.status == 200
      && Collections.SortedDesc(r.body, CreatedAt)
      && (forall t :: t in r.body <==> t in s.transactions && Involves(t, userId.value))
      && multiset(r.body) <= multiset(s.transactions)
  {
    if userId.None? then Err(400, MissingUserId)
    else
      var mine := Collections.Filter(s.transactions, (t: Transaction) => Involves(t, userId.value));
      var sorted := Collections.SortDesc(mine, CreatedAt);
      assert forall t :: t in sorted <==> t in mine by {
        forall t ensures t in sorted <==> t in mine {
          assert t in sorted <==> t in multiset(sorted);
        }
      }
      Ok(200, sorted)
  }

  /** The body of POST /api/transactions; a missing or empty field is `None`. */
  datatype Request = Request(itemId: Option<Id>, buyerId: Option<Id>, transactionType: Option<string>)

  predicate Complete(q: Request) {
    q.itemId.Some? && q.buyerId.Some? && Given(q.transactionType)
  }

  /** The verb of the notification: "đổi" for an exchange, "nhận tặng" for a gift, "mua" otherwise. */
  function Verb(transactionType: string): (r: string)
    ensures transactionType == "exchange" ==> r == "đổi"
    ensures transactionType == "gift" ==> r == "nhận tặng"
    ensures transactionType != "exchange" && transactionType != "gift" ==> r == "mua"
  {
    if transactionType == "exchange" then "đổi"
    else if transactionType == "gift" then "nhận tặng"
    else "mua"
  }

  const Wants := " muốn "
  const YourItem := " đồ của bạn"

  /**
   * The notification text: the buyer's name, " muốn ", the verb, and
   * " đồ của bạn"; the verb can be read back from between the two.
   */
  function NotificationText(buyerName: string, transactionType: string): (r: string)
    ensures |r| == |buyerName + Wants| + |Verb(transactionType)| + |YourItem|
    ensures Text.IsPrefix(buyerName + Wants, r)
    ensures r[|buyerName + Wants|..|r| - |YourItem|] == Verb(transactionType)
    ensures r[|r| - |YourItem|..] == YourItem
  {
    buyerName + Wants + Verb(transactionType) + YourItem
  }

  /** Buyers asking for different kinds of transaction get different texts, whoever they are. */
  lemma TextTellsKinds(buyerName: string, a: string, b: string)
    requires Verb(a) != Verb(b)
    ensures NotificationText(buyerName, a) != NotificationText(buyerName, b)
  {
    var ra, rb := NotificationText(buyerName, a), NotificationText(buyerName, b);
    if |ra| == |rb| {
      assert ra[|buyerName + Wants|..|ra| - |YourItem|] != rb[|buyerName + Wants|..|rb| - |YourItem|];
    }
  }

  const TransactionsPath := "/transactions/"

  /** The notification's link: the transactions page followed by the id, which reads back from the link. */
  function Link(id: Id): (r: string)
    ensures Text.IsPrefix(TransactionsPath, r)
    ensures forall i :: |TransactionsPath| <= i < |r| ==> '0' <= r[i] <= '9'
    ensures |r| > |TransactionsPath| && Text.DigitsValue(r[|TransactionsPath|..]) == id
  {
    var r := TransactionsPath + Text.NatToString(id);
    assert r[|TransactionsPath|..] == Text.NatToString(id);
    Text.NatToStringRoundTrip(id);
    r
  }

  /**
   * POST /api/transactions. `qrCode` is the fresh random token and `now` the
   * clock. The transaction's seller is the item's owner and its status the
   * schema default; the owner then gets a notification. A buyer that does not
   * exist fails the insert (500); an owner that does not exist fails the
   * notification after the transaction was stored (500).
   */
  function Create(s: Store, q: Request, qrCode: string, now: int): (r: Step<Transaction>)
    ensures r.response.Err? && r.response.status == 400 && r.response.error == MissingFields <==> !Complete(q)
    ensures r.response.Err? && r.response.status == 404 && r.response.error == ItemNotFound <==>
      Complete(q) && FindItem(s.items, q.itemId.value).None?
    ensures r.response.Err? && r.response.status == 400 && r.response.error == OwnItem <==>
      Complete(q) && FindItem(s.items, q.itemId.value).Some? && FindItem(s.items, q.itemId.value).value.userId == q.buyerId.value
    ensures r.response.Err? && r.response.status == 500 && r.response.error == ServerError <==>
      && Complete(q) && FindItem(s.items, q.itemId.value).Some?
      && FindItem(s.items, q.itemId.value).value.userId != q.buyerId.value
      && (FindUser(s.users, q.buyerId.value).None? || !HasUser(s, FindItem(s.items, q.itemId.value).value.userId))
    ensures r.response.Err? ==> r.response.status in {400, 404, 500}
    ensures r.response.Ok? <==>
      && Complete(q) && FindItem(s.items, q.itemId.value).Some?
      && FindItem(s.items, q.itemId.value).value.userId != q.buyerId.value
      && FindUser(s.users, q.buyerId.value).Some? && HasUser(s, FindItem(s.items, q.itemId.value).value.userId)
    ensures r.response.Err? && r.store != s ==>
      && Complete(q) && FindItem(s.items, q.itemId.value).Some?
      && var item := FindItem(s.items, q.itemId.value).value;
      && FindUser(s.users, q.buyerId.value).Some? && !HasUser(s, item.userId)
      && r.store == s.(
           transactions := s.transactions + [Transaction(s.nextId, item.id, q.buyerId.value, item.userId, q.transactionType.value, qrCode, Pending, now)],
           nextId := s.nextId + 1)
    ensures r.response.Ok? ==>
      var t := r.response.body;
      var owner := FindItem(s.items, q.itemId.value).value.userId;
      var buyer := FindUser(s.users, q.buyerId.value).value;
      && r.response.status == 201
      && t == Transaction(s.nextId, q.itemId.value, q.buyerId.value, owner, q.transactionType.value, qrCode, Pending, now)
      && t.buyerId != t.sellerId
      && r.store == s.(
           transactions := s.transactions + [t],
           notifications := s.notifications + [Notification(s.nextId + 1, owner, NotificationKind, NotificationTitle,
             NotificationText(buyer.name, t.transactionType), Link(t.id), false, now)],
           nextId := s.nextId + 2)
  {
    if !Complete(q) then Step(s, Err(400, MissingFields))
    else
      var found := FindItem(s.items, q.itemId.value);
      if found.None? then Step(s, Err(404, ItemNotFound))
      else
        var item := found.value;
        if item.userId == q.buyerId.value then Step(s, Err(400, OwnItem))
        else
          match FindUser(s.users, q.buyerId.value)
          case None => Step(s, Err(500, ServerError))
          case Some(buyer) =>
            var t := Transaction(s.nextId, item.id, buyer.id, item.userId, q.transactionType.value, qrCode, Pending, now);
            var s1 := s.(transactions := s.transactions + [t], nextId := s.nextId + 1);
            if !HasUser(s, item.userId) then Step(s1, Err(500, ServerError))
            else
              var n := Notification(s1.nextId, item.userId, NotificationKind, NotificationTitle,
                                    NotificationText(buyer.name, t.transactionType), Link(t.id), false, now);
              Step(s1.(notifications := s.notifications + [n], nextId := s1.nextId + 1), Ok(201, t))
  }

  /** Requesting a transaction keeps every store invariant; the buyer is never the seller. */
  lemma CreatePreservesValid(s: Store, q: Request, qrCode: string, now: int)
    requires Valid(s)
    ensures Valid(Create(s, q, qrCode, now).store)
  {
    var r := Create(s, q, qrCode, now);
    if Complete(q) && FindItem(s.items, q.itemId.value).Some? {
      OwnerExists(s, FindItem(s.items, q.itemId.value).value);
    }
    if r.response.Ok? {
      var t := r.response.body;
      var s' := r.store;
      var n := s'.notifications[|s.notifications|];
      assert s'.notifications == s.notifications + [n];
      assert HasItem(s, t.itemId);
      assert HasUser(s, t.buyerId);
      TransactionAppendedFresh(s, s', t, n);
      TransactionAppendedReferences(s, s', t, n);
      TransactionAppendedRules(s, s', t, n);
    }
  }

  /** Under the invariants every item's owner exists. */
  lemma OwnerExists(s: Store, item: Item)
    requires References(s) && item in s.items
    ensures HasUser(s, item.userId)
  {
    var k :| 0 <= k < |s.items| && s.items[k] == item;
  }

  lemma TransactionAppendedFresh(s: Store, s': Store, t: Transaction, n: Notification)
    requires AllIdsFresh(s) && t.id == s.nextId && n.id == s.nextId + 1
    requires s' == s.(transactions := s.transactions + [t], notifications := s.notifications + [n], nextId := s.nextId + 2)
    ensures AllIdsFresh(s')
  {
    AppendFresh(s.transactions, (x: Transaction) => x.id, s.nextId, t);
    RaiseFresh(s.transactions + [t], (x: Transaction) => x.id, s.nextId + 1);
    RaiseFresh(s.notifications, (x: Notification) => x.id, s.nextId);
    AppendFresh(s.notifications, (x: Notification) => x.id, s.nextId + 1, n);
    RaiseAllFresh(s, s');
  }

  lemma TransactionAppendedRules(s: Store, s': Store, t: Transaction, n: Notification)
    requires NoSelfTrade(s.transactions) && t.buyerId != t.sellerId
    requires s' == s.(transactions := s.transactions + [t], notifications := s.notifications + [n], nextId := s'.nextId)
    ensures NoSelfTrade(s'.transactions)
  {
    forall i | 0 <= i < |s'.transactions| ensures s'.transactions[i].buyerId != s'.transactions[i].sellerId {
      if i < |s.transactions| {
        assert s'.transactions[i] == s.transactions[i];
      }
    }
  }

  lemma TransactionAppendedReferences(s: Store, s': Store, t: Transaction, n: Notification)
    requires References(s)
    requires s' == s.(transactions := s.transactions + [t], notifications := s.notifications + [n], nextId := s'.nextId)
    requires HasItem(s, t.itemId) && HasUser(s, t.buyerId) && HasUser(s, t.sellerId) && HasUser(s, n.userId)
    ensures References(s')
  {
    assert RowsKept(s, s');
    UntouchedReferences(s, s');
    forall i | 0 <= i < |s'.transactions|
      ensures HasItem(s', s'.transactions[i].itemId) && HasUser(s', s'.transactions[i].buyerId)
      ensures HasUser(s', s'.transactions[i].sellerId)
    {
      if i < |s.transactions| {
        assert s'.transactions[i] == s.transactions[i];
      }
    }
    forall i | 0 <= i < |s'.notifications| ensures HasUser(s', s'.notifications[i].userId) {
      if i < |s.notifications| {
        assert s'.notifications[i] == s.notifications[i];
      }
    }
  }

  /** A created transaction is listed for both its buyer and its seller. */
  lemma CreatedIsListed(s: Store, q: Request, qrCode: string, now: int)
    requires Create(s, q, qrCode, now).response.Ok?
    ensures var r := Create(s, q, qrCode, now);
      var t := r.response.body;
      && t in List(r.store, Some(t.buyerId)).body
      && t in List(r.store, Some(t.sellerId)).body
  {
    var r := Create(s, q, qrCode, now);
    var t := r.response.body;
    assert t in r.store.transactions;
  }
}

=== FILE: wrappers.dfy ===
/** Optional values: a JavaScript `null`/`undefined` field is `None`. */
module Wrappers {

  datatype Option<+T> = None | Some(value: T) {

    /** `x ?? d`. */
    function GetOr(default: T): T {
      match this
      case Some(v) => v
      case None => default
    }
  }

  /** A string field that JavaScript treats as truthy: present and not empty. */
  predicate Given(o: Option<string>) {
    o.Some? && o.value != ""
  }

  /** `x || null` on a string field: an empty string is stored as `null`. */
  function OrNull(o: Option<string>): (r: Option<string>)
    ensures r.Some? <==> Given(o)
    ensures r.Some? ==> r == o
  {
    if Given(o) then o else None
  }

  /** `x || d` on a string field. */
  function OrElse(o: Option<string>, default: string): (r: string)
    ensures Given(o) ==> r == o.value
    ensures !Given(o) ==> r == default
  {
    if Given(o) then o.value else default
  }
}
